=== FILE: README.md ===
# Rental-building bill payment and cashback coupons, in Dafny

This project models the core of a small rental-building management app. Tenants check in to rooms and receive
rent and electricity bills. They pay those bills, and an electricity payment earns a cashback coupon. The tier
of that coupon comes from a rule table stored as configuration. The coupon is then redeemed against a
supermarket order at the building's shop. Around that flow sit the record store rules:

- the tables of tenants, rooms, bills, payments, coupons, coupon usages, orders and settings;
- their defaults and unique keys;
- the admin approval endpoints for pending payments;
- room seeding and migration;
- the grouping of available rooms by type.

Three client pages carry logic of their own, and they are modelled too:

- the bill-payment page;
- the supermarket checkout page;
- the cashback rule editor.

The store is one `Db` class (module `Store`) whose tables are `seq` fields, kept in insertion order (that is
creation order). Ids come from a counter, `nextId`. `Db.Valid()` holds the schema's unique keys and the
freshness of ids. Every manager operation and route handler is a module-level method over that object, taking it as `db`. Its `modifies` clause names
the tables it writes, and its `ensures` states the new tables and the reply. Pure queries are functions that
read the object.

Conventions:

- Money is integer cents. A rule table tier is in cents as well, and the coupon minimum spend
  `Math.ceil(3 × returnAmount)` is taken in whole yuan.
- Time is an integer number of milliseconds, passed in as `now`.
- Generated coupon codes and order numbers are parameters. The unique constraint requires each to be unused, and
  so does the model.
- The parsing of the rule table's JSON is a parameter `parse: string -> Option<seq<Rule>>`.
- The `ADMIN_PHONES` environment variable is a parameter `env: Option<string>`.
- A request body field that is absent or falsy is `None`. The admin phone of the confirm, reject and verify
  handlers is the exception: it is `None` only when absent, and an empty phone is `Some("")`, compared with the
  allow-list as it is.

The modules follow the source files one to one: `CouponManager`, `BillManager`, `PaymentManager`,
`TenantManager`, `RoomManager`, `SupermarketOrderManager`, one module per route, and the pages `PayClient`,
`CheckoutClient`, `ElectricityRulesPage` and `CheckInPage`. `CouponRules` holds the tier lookup and
`RoomGrouping` the grouping shared by three files. `Schema` holds the row types, defaults and keys, and
`Tables` the filter and update helpers over sequences.

## Model

| member | source | states |
|---|---|---|
| CouponManager.GetCoupons | src/storage/database/couponManager.ts:14-30 | exactly the coupons matching every given filter (both directions), in creation order, a subsequence of the table; no filter lists every coupon |
| CouponManager.CouponById | src/storage/database/couponManager.ts:32-36 | none iff no coupon has the id; otherwise a stored coupon with that id |
| CouponManager.CouponByIdFindsRow | src/storage/database/couponManager.ts:32-36 | ids being unique, a stored coupon is what its id finds |
| CouponManager.CouponByCode | src/storage/database/couponManager.ts:38-42 | none iff no coupon has the code; otherwise the one and only coupon with that code |
| CouponManager.CreateCoupon | src/storage/database/couponManager.ts:7-12 | exactly one row is appended, built from the input with the schema defaults and a fresh id, and returned |
| CouponManager.SetStatus | src/storage/database/couponManager.ts:54-62 | same length; the rows with the id get the status, every other row is unchanged |
| CouponManager.SetStatusSpec | src/storage/database/couponManager.ts:54-62 | setting a status keeps codes unique, is idempotent, and the row with the id has the new status |
| CouponManager.SetStatusSameIds | src/storage/database/couponManager.ts:54-62 | the set of ids is kept; an unknown id changes nothing |
| CouponManager.SetStatusFinds | src/storage/database/couponManager.ts:54-62 | after the update the id finds the old row with the new status, or none as before |
| CouponManager.UpdateCouponStatus | src/storage/database/couponManager.ts:54-62 | the table is the status update; the reply is none iff the id is unknown, else the row with the new status |
| CouponManager.DeleteCoupon | src/storage/database/couponManager.ts:166-170 | refused, with nothing changed, iff the coupon exists and a usage row names it (the `coupon_id` foreign key has no cascade); otherwise exactly the rows with the id are removed, and the answer is true iff one existed |
| CouponManager.AwardedRule | src/storage/database/couponManager.ts:69-102 | none when the rule row is missing, the text does not parse or no tier is reached; otherwise the reached tier with the highest minimum (`BestRule` of the parsed table) |
| CouponManager.IssueDecision | src/storage/database/couponManager.ts:65-113 | a tier is issued iff one is awarded and the tenant holds no active coupon for the bill |
| CouponManager.IssuedCoupon | src/storage/database/couponManager.ts:115-137 | an active coupon for the tenant and bill, worth the tier's return, minimum spend the whole-yuan ceiling of 3× the return, the description `<r>元券(满<m>用)`, and validity of 30 days from now |
| CouponManager.GenerateCouponByBill | src/storage/database/couponManager.ts:65-140 | inserts exactly the issued coupon when the decision issues one, and otherwise changes nothing and returns none |
| CouponManager.DecideIssue | src/storage/database/couponManager.ts:66-113 | the read, parse, sort-and-scan and active-coupon check compute `IssueDecision` |
| CouponManager.IssueKeepsOneActivePerBill | src/storage/database/couponManager.ts:104-113 | issuing keeps at most one active coupon per (tenant, bill), and a second call for the same bill issues nothing |
| CouponManager.UsedCouponsDoNotBlock | src/storage/database/couponManager.ts:105-111 | when every coupon of the tenant for the bill is used, the decision is just the awarded tier |
| CouponManager.ReissueAfterUse | src/storage/database/couponManager.ts:105-111 | once the issued coupon is marked used, paying the same bill again issues another coupon |
| CouponManager.UsageFor | src/storage/database/couponManager.ts:155-160 | the usage row carries the coupon id, the coupon's tenant, the order and the coupon amount |
| CouponManager.UseCoupon | src/storage/database/couponManager.ts:143-164 | the coupon becomes used whatever its status; exactly one usage row is added iff the coupon exists; for an unknown id nothing changes and none is returned |
| CouponManager.RecordUsage | src/storage/database/couponManager.ts:151-161 | the usage insert happens only for a found coupon |
| CouponRules.InsertSameRules | src/storage/database/couponManager.ts:90 | the sort's insertion step adds exactly one rule (multiset) |
| CouponRules.InsertKeepsOrder | src/storage/database/couponManager.ts:90 | the insertion step keeps the list sorted by minimum, highest first |
| CouponRules.SortByMinDescSpec | src/storage/database/couponManager.ts:90 | the sort gives a permutation of the rules sorted by minimum, highest first |
| CouponRules.BestRuleSpec | src/storage/database/couponManager.ts:89-102 | the reference choice is none iff no rule is reached; otherwise a configured, reached rule that no reached rule outranks |
| CouponRules.ScanOfSortedIsBest | src/storage/database/couponManager.ts:89-98 | the first reached rule of the sorted list is the reference choice |
| CouponRules.ScanOfInsert | src/storage/database/couponManager.ts:90-98 | inserting a rule into a sorted list changes the first reached rule to `Prefer` of it |
| CouponRules.MatchRule | src/storage/database/couponManager.ts:89-98 | the sort and the `for`/`break` scan return the highest reached tier, none iff no tier is reached |
| CouponRules.CouponMinSpend | src/storage/database/couponManager.ts:122-123 | the minimum spend lies in [3r, 3r + 1 yuan) |
| Money.MinSpendFor | src/storage/database/couponManager.ts:123 | `Math.ceil(3 × r)` in whole yuan: a multiple of 100 cents in [3r, 3r + 100) |
| Money.RoundToCents | src/storage/database/billManager.ts:68 | `toFixed(2)`: the cent value nearest the product, off by at most half a cent, a tie rounded away from zero |
| Money.RoundWholeCents | src/storage/database/billManager.ts:68 | a value already in whole cents is unchanged by rounding |
| Money.RoundToCentsOdd | src/storage/database/billManager.ts:68 | rounding a negated value gives the negated rounding |
| Money.NatToStringRoundTrip | src/storage/database/couponManager.ts:133 | the decimal text of a number reads back as that number |
| Money.NatToStringInjective | src/storage/database/couponManager.ts:133 | distinct numbers have distinct decimal texts |
| Money.YuanText | src/storage/database/couponManager.ts:131 | a whole-yuan amount prints as its integer yuan value |
| Money.DescriptionDetermines | src/storage/database/couponManager.ts:133 | the coupon description determines both its amount text and its minimum spend |
| MockData.CalculateCoupon | src/lib/mockData.ts:74-83 | none iff the bill is below 100; otherwise a positive amount with minimum spend twice the amount and the matching description |
| MockData.CalculateCouponTiers | src/lib/mockData.ts:74-83 | ≥500 gives 70, [300,500) gives 30, [100,300) gives 5, below 100 nothing; each threshold falls in the higher tier |
| MockData.RewardMonotone | src/lib/mockData.ts:75-82 | a larger bill never earns a smaller reward |
| SupermarketOrderManager.GetOrders | src/storage/database/supermarketOrderManager.ts:14-30 | exactly the orders matching every given filter, newest first |
| SupermarketOrderManager.AppliedCoupon | src/storage/database/supermarketOrderManager.ts:57-76 | a coupon is applied only for a non-empty code whose coupon is active and whose minimum the total reaches; with unique codes, iff such a coupon exists |
| SupermarketOrderManager.NewOrder | src/storage/database/supermarketOrderManager.ts:78-92 | the order is pending, discount 0, credited the coupon amount, and paid amount plus coupon amount is the total |
| SupermarketOrderManager.CreateOrderWithCoupon | src/storage/database/supermarketOrderManager.ts:49-105 | one order is inserted whether or not a coupon applies; an applied coupon is marked used and gets one usage row for the new order; otherwise no coupon changes; the reply's discount is the stored coupon amount |
| SupermarketOrderManager.PlaceOrder | src/storage/database/supermarketOrderManager.ts:80-92 | exactly one pending order, with a fresh id and paid amount plus coupon amount equal to the total, is appended |
| SupermarketOrderManager.Redeem | src/storage/database/supermarketOrderManager.ts:95-98 | `useCoupon` runs once for an applied coupon and not at all otherwise |
| SupermarketOrderManager.FindApplicableCoupon | src/storage/database/supermarketOrderManager.ts:61-76 | the lookup and checks compute `AppliedCoupon` |
| SupermarketOrderManager.PaidAmountNonNegative | src/storage/database/supermarketOrderManager.ts:70-78 | when every coupon's minimum covers its amount, no order is paid a negative amount |
| SupermarketOrderManager.OwnerAndExpiryIgnored | src/storage/database/supermarketOrderManager.ts:62-76 | neither the coupon's owner nor its expiry decides whether it is applied |
| BillManager.BillById | src/storage/database/billManager.ts:36-40 | none iff no bill has the id; otherwise a stored bill with that id |
| BillManager.GetBills | src/storage/database/billManager.ts:14-34 | exactly the bills matching every given filter, in creation order |
| BillManager.CreateBill | src/storage/database/billManager.ts:7-12 | exactly one row with the defaults and a fresh id is appended and returned |
| BillManager.StatusUpdate | src/storage/database/billManager.ts:52-56 | the status is always set; the paid amount and paid date only when given; every other column is unchanged |
| BillManager.UnpayKeepsPaidDate | src/storage/database/billManager.ts:56 | paid, then unpaid without a date, keeps the earlier paid date |
| BillManager.UpdateStatusWhere | src/storage/database/billManager.ts:58-62 | the row with the id gets the status update; all other rows are unchanged |
| BillManager.UpdateBillStatus | src/storage/database/billManager.ts:52-64 | the table is the status update; none and no change iff the id is unknown; else the updated row |
| BillManager.UpdateBillWith | src/storage/database/billManager.ts:42-50 | the row with the id is rewritten by the given column update; none and no change iff the id is unknown |
| BillManager.ElectricityBill | src/storage/database/billManager.ts:67-85 | an unpaid electricity bill with nothing paid; its amount is usage (hundredths of a kWh) × unit price (cents) rounded to the cent, within half a cent and with a tie going away from zero; exact for whole kWh; non-negative for non-negative inputs; the details hold usage and price |
| BillManager.WholeUsageIsExact | src/storage/database/billManager.ts:68 | for a usage of whole kWh, `toFixed(2)` has nothing to round: the amount is kWh × unit price |
| BillManager.GenerateElectricityBill | src/storage/database/billManager.ts:67-85 | exactly that bill is appended, with a fresh id |
| BillManager.RentBill | src/storage/database/billManager.ts:88-104 | an unpaid rent bill, nothing paid, with the given amount and due date |
| BillManager.GenerateRentBill | src/storage/database/billManager.ts:88-104 | exactly that bill is appended, with a fresh id |
| BillManager.DeleteBill | src/storage/database/billManager.ts:106-110 | refused, with nothing changed, iff the bill exists and a payment or coupon names it (neither `bill_id` foreign key cascades); otherwise exactly the rows with the id are removed, order kept, and the answer is true iff one existed |
| PaymentManager.PaymentById | src/storage/database/paymentManager.ts:36-40 | none iff no payment has the id; otherwise a stored payment with that id |
| PaymentManager.PaymentByIdUnique | src/storage/database/paymentManager.ts:36-40 | ids being unique, a stored payment is what its id finds |
| PaymentManager.GetPayments | src/storage/database/paymentManager.ts:14-34 | exactly the payments matching every given filter, newest first |
| PaymentManager.Selected | src/storage/database/paymentManager.ts:14-34 | the rows of a payment table matching every filter (both directions), newest first |
| PaymentManager.CreatePayment | src/storage/database/paymentManager.ts:7-12 | exactly one row with the defaults and a fresh id is appended and returned |
| PaymentManager.ApplyPatch | src/storage/database/paymentManager.ts:42-50 | each supplied column is written and every other one kept; the id is kept |
| PaymentManager.ApplyPatchSpec | src/storage/database/paymentManager.ts:42-50 | an empty patch changes nothing; a patch applied twice is applied once |
| PaymentManager.UpdatePayment | src/storage/database/paymentManager.ts:42-50 | only the matching row is patched; none and no change iff the id is unknown |
| PaymentManager.DeletePayment | src/storage/database/paymentManager.ts:52-56 | exactly the rows with the id are removed; true iff one existed |
| TenantManager.TenantById | src/storage/database/tenantManager.ts:36-40 | none iff no tenant has the id; otherwise a stored tenant with that id |
| TenantManager.TenantByPhone | src/storage/database/tenantManager.ts:42-46 | exact phone match: none iff no tenant has the phone; otherwise the first such tenant in creation order |
| TenantManager.GetTenants | src/storage/database/tenantManager.ts:16-34 | exactly the tenants matching room and status by equality and phone by substring, in creation order |
| TenantManager.ExactPhoneIsListed | src/storage/database/tenantManager.ts:27-46 | the tenant found by exact phone is also listed by the phone filter |
| TenantManager.CreateTenant | src/storage/database/tenantManager.ts:7-14 | exactly one row with the defaults and a fresh id is appended and returned |
| TenantManager.ApplyPatch | src/storage/database/tenantManager.ts:48-57 | each supplied column is written and every other one kept; id and tenant code are kept |
| TenantManager.StatusPatch | src/storage/database/tenantManager.ts:59-62 | the patch sets the status, and the move-out date only when one is given |
| TenantManager.StatusPatchMoveOut | src/storage/database/tenantManager.ts:59-70 | without a date the move-out date is kept; only status and move-out date can change |
| TenantManager.UpdateTenant | src/storage/database/tenantManager.ts:48-57 | only the matching tenant is patched; none and no change iff the id is unknown |
| TenantManager.UpdateTenantStatus | src/storage/database/tenantManager.ts:59-70 | the matching tenant gets the status patch; none iff the id is unknown |
| Schema.BillRow | src/storage/database/shared/schema.ts:133-146 | a bill insert defaults to unpaid with 0.00 paid |
| Schema.PaymentRow | src/storage/database/shared/schema.ts:219-229 | a payment insert defaults to completed |
| Schema.CouponRow | src/storage/database/shared/schema.ts:39-49 | a coupon insert defaults to active |
| Schema.RoomRow | src/storage/database/shared/schema.ts:246-258 | a room insert defaults to available, type `single` and price 500.00 |
| Schema.TenantRow | src/storage/database/shared/schema.ts:11-23 | a tenant insert defaults to active, one family member and a 0.00 deposit |
| Schema.PhoneIsNotUnique | src/storage/database/shared/schema.ts:27-36 | the schema admits two tenants with one phone, since only the tenant code is unique |
| Schema.UniqueKeyLookup | src/storage/database/shared/schema.ts:98 | with unique setting keys, a key selects exactly one row |
| Schema.ConfigByKey | src/storage/database/shared/schema.ts:89-98 | none iff no setting has the key; otherwise a row with that key |
| PaymentsApi.Guard | src/app/api/payments/route.ts:36-126 | 400 for a missing tenant, amount or type; 404 for an unknown tenant; 404 for a missing electricity or rent bill; 500 for any other payment naming a bill that does not exist, where the payment insert breaks the `bill_id` foreign key; none iff all pass |
| PaymentsApi.GuardIgnoresBillsOfOtherTypes | src/app/api/payments/route.ts:56-112 | for water, deposit and refund payments the bill table matters to the guard only through whether the named bill exists |
| PaymentsApi.SettlementInput | src/app/api/payments/route.ts:101-110 | the payment row is completed, for the requested bill, amount and type, and paid by WeChat unless another method is named |
| PaymentsApi.SettledPaymentIsCompleted | src/app/api/payments/route.ts:108 | every stored settlement payment is completed: there is no pending path |
| PaymentsApi.SettlementMessage | src/app/api/payments/route.ts:114-119 | the message names the coupon iff one was issued |
| PaymentsApi.PostPayment | src/app/api/payments/route.ts:31-127 | a guard failure changes nothing, including the 500 for an unknown bill; otherwise an electricity or rent bill is marked paid with the amount and now, a coupon is attempted only for electricity, and exactly one completed payment is appended |
| PaymentsApi.Settle | src/app/api/payments/route.ts:52-119 | the bill step, the coupon step and the payment insert, once the guards have found the tenant and any named bill |
| PaymentsApi.SettleBill | src/app/api/payments/route.ts:56-98 | a named electricity or rent bill becomes paid; other types leave bills alone |
| PaymentsApi.IssueFor | src/app/api/payments/route.ts:73-78 | coupon issuance runs only for an electricity payment naming a bill |
| PaymentsApi.ListWithoutFiltersIsEverything | src/app/api/payments/route.ts:6-21 | `GET` without filters lists every payment, newest first |
| ConfirmApi.Guard | src/app/api/payments/confirm/route.ts:11-47 | 403 for a phone outside the untrimmed list (first), 400 for no id, 404 for an unknown payment, 400 for one not pending; none iff all pass |
| ConfirmApi.AppendNote | src/app/api/payments/confirm/route.ts:54 | the remark is the old remarks (or ""), a newline, then the stamped note |
| ConfirmApi.ConfirmPatch | src/app/api/payments/confirm/route.ts:50-56 | the payment becomes completed with the confirmation line appended; no other column changes |
| ConfirmApi.ConfirmedAtMostOnce | src/app/api/payments/confirm/route.ts:42-56 | after a confirm, confirming the same payment again is refused with 400 |
| ConfirmApi.Confirm | src/app/api/payments/confirm/route.ts:7-84 | a guard failure changes nothing; otherwise the payment is completed, its bill (if any) paid with its amount and now, and a coupon attempted only for an electricity bill |
| ConfirmApi.MarkConfirmed | src/app/api/payments/confirm/route.ts:50-56 | the payment update alone |
| ConfirmApi.SettleConfirmed | src/app/api/payments/confirm/route.ts:58-78 | the bill update and the coupon attempt alone |
| RejectApi.RejectNote | src/app/api/payments/reject/route.ts:49 | `拒绝原因：<reason>` for a given reason, `商户拒绝` otherwise |
| RejectApi.RejectPatch | src/app/api/payments/reject/route.ts:50-56 | the payment becomes rejected with the reject line appended |
| RejectApi.Unpay | src/app/api/payments/reject/route.ts:59-67 | the bill becomes unpaid, with 0 paid and the paid date cleared |
| RejectApi.RejectedIsFinal | src/app/api/payments/reject/route.ts:41-56 | a rejected payment is afterwards refused by both confirm and reject |
| RejectApi.UnpayUndoesPaid | src/app/api/payments/reject/route.ts:59-67 | rejecting a bill marked paid restores unpaid, nothing paid and no paid date |
| RejectApi.Reject | src/app/api/payments/reject/route.ts:7-73 | the same guards as confirm; on success the payment is rejected, its bill unpaid, and no coupon is created or changed |
| RejectApi.MarkRejected | src/app/api/payments/reject/route.ts:50-56 | the payment alone is patched to rejected with the reject line appended |
| RejectApi.UnpayRejected | src/app/api/payments/reject/route.ts:59-68 | the payment's bill, when it names one, is reset to unpaid; otherwise the bills are unchanged |
| VerifyApi.PendingPayment | src/app/api/payments/verify/route.ts:27-28 | the payment with the id among the pending ones, or none |
| VerifyApi.PendingPaymentIsById | src/app/api/payments/verify/route.ts:27-35 | the pending lookup finds the row the id finds exactly when that row is pending |
| VerifyApi.Guard | src/app/api/payments/verify/route.ts:11-35 | 403 for a phone outside the list (empty when unset) before 400 for missing fields, then 404 unless the payment is pending |
| VerifyApi.Verify | src/app/api/payments/verify/route.ts:5-90 | approve marks the bill paid and attempts a coupon for electricity while the payment's status is left unchanged; reject unpays the bill keeping its paid date; any other action is 400 |
| VerifyApi.Act | src/app/api/payments/verify/route.ts:37-90 | approve, reject, or 400 for any other action, each with its bill and coupon effects |
| VerifyApi.Approve | src/app/api/payments/verify/route.ts:39-67 | the bill becomes paid with the payment's amount and now; a coupon is issued per the issue decision, for electricity only |
| VerifyApi.UnpayBill | src/app/api/payments/verify/route.ts:68-85 | the bill becomes unpaid with 0 paid, its paid date kept; no bill, no change |
| VerifyApi.ListPending | src/app/api/payments/verify/route.ts:101-121 | an absent or unlisted phone gets 403; a listed one gets every pending payment |
| PendingApi.JoinRow | src/app/api/payments/pending/route.ts:10-23 | a row carries the payment's columns unchanged, with tenant and bill columns null when the join misses |
| PendingApi.PendingPayments | src/app/api/payments/pending/route.ts:9-25 | one row per pending payment, in creation order; nothing changes |
| PendingApi.ListedArePending | src/app/api/payments/pending/route.ts:24 | every listed row is a pending payment |
| PendingApi.PendingAreListed | src/app/api/payments/pending/route.ts:22-24 | every pending payment is listed, even with its tenant and bill gone |
| AdminAuth.Split | src/app/api/admin-login/route.ts:16 | JavaScript `split` on one character: pieces free of the separator, one more than the separators |
| AdminAuth.JoinSplit | src/app/api/admin-login/route.ts:16 | joining the pieces back gives the original text |
| AdminAuth.Trim | src/app/api/admin-login/route.ts:16 | the trimmed text is a slice with no white space at either end |
| AdminAuth.TrimIdempotent | src/app/api/admin-login/route.ts:16 | trimming twice is trimming once |
| AdminAuth.TrimAll | src/app/api/admin-login/route.ts:16 | each entry trimmed, count kept |
| AdminAuth.LoginAllowList | src/app/api/admin-login/route.ts:16 | split and trimmed; empty when unset |
| AdminAuth.VerifyAllowList | src/app/api/payments/verify/route.ts:11 | split, untrimmed; empty when unset |
| AdminAuth.ConfirmAllowList | src/app/api/payments/confirm/route.ts:12 | split, untrimmed; an unset variable reads as "" |
| AdminAuth.UnsetAdmitsNobody | src/app/api/admin-login/route.ts:16-26 | with the variable unset, login and verify admit no phone |
| AdminAuth.UnsetConfirmAdmitsEmptyPhone | src/app/api/payments/confirm/route.ts:12-13 | with the variable unset, confirm and reject admit only the empty phone |
| AdminAuth.SplitExample | src/app/api/payments/confirm/route.ts:12 | `"1, 2"` splits into `"1"` and `" 2"`: the untrimmed list keeps the space |
| AdminAuth.TrimmingDiffers | src/app/api/admin-login/route.ts:16 | a phone listed after `", "` passes login but not confirm or verify |
| AdminAuth.AdminLogin | src/app/api/admin-login/route.ts:3-31 | 400 for no phone; success echoing the phone iff it is a trimmed entry; 403 otherwise |
| AdminAuth.LoginNeedsListedPhone | src/app/api/admin-login/route.ts:19-26 | login succeeds exactly for the trimmed entries, and never when unset |
| OrdersApi.Guard | src/app/api/supermarket-orders/route.ts:31-45 | 400 for a missing tenant, total or items; 404 for an unknown tenant; none iff all pass |
| OrdersApi.OrderMessage | src/app/api/supermarket-orders/route.ts:61 | the message says a coupon was used iff one was |
| OrdersApi.PostOrder | src/app/api/supermarket-orders/route.ts:26-63 | a guard failure creates no order; otherwise exactly one order via the coupon logic with `couponCode`, whose results are returned unchanged |
| BillsApi.BillData | src/app/api/bills/route.ts:43-52 | the insert forces 0.00 paid and unpaid, the other columns as given |
| BillsApi.InitialStateIsForced | src/app/api/bills/route.ts:43-52 | the body's own paid amount and status make no difference to the stored bill |
| BillsApi.PostBill | src/app/api/bills/route.ts:30-61 | 400 when a field is missing; 500 when the tenant or room does not exist (the insert breaks a foreign key); nothing stored on either; otherwise exactly one unpaid bill is appended and returned, and success happens iff all of these hold |
| BillsApi.ListBills | src/app/api/bills/route.ts:5-20 | exactly the bills matching every given parameter; none given lists every bill |
| SystemConfigApi.GetConfig | src/app/api/system-config/route.ts:7-32 | with a key, that key's row or null; without one, every row |
| SystemConfigApi.Rewrite | src/app/api/system-config/route.ts:65-68 | the row keeps its id and key and gets the posted value and description |
| SystemConfigApi.UpsertFinds | src/app/api/system-config/route.ts:58-76 | after the upsert exactly one row has the key, it holds the posted value, and keys stay unique |
| SystemConfigApi.UpsertKeepsOtherKeys | src/app/api/system-config/route.ts:63-69 | every other key looks up as before |
| SystemConfigApi.UpsertIdempotent | src/app/api/system-config/route.ts:58-76 | posting the same key, value and description twice leaves the table as once |
| SystemConfigApi.PostedRowsHold | src/app/api/system-config/route.ts:58-76 | after the upsert every row with the key holds the posted value and, when given, the description |
| SystemConfigApi.RewriteFixed | src/app/api/system-config/route.ts:65-68 | a row already holding the posted value and description is left as it is |
| SystemConfigApi.PostConfig | src/app/api/system-config/route.ts:43-81 | 400 and no change without a key or a value ("" is a value); otherwise the upsert, echoing what was posted |
| SystemConfigApi.Upsert | src/app/api/system-config/route.ts:58-76 | the table becomes `Upserted`: an existing key is rewritten in place with no new id; a new key is appended under a fresh id |
| SystemConfigApi.RewriteKey | src/app/api/system-config/route.ts:63-69 | every row with the key is rewritten; ids and keys stay unique |
| TenantsApi.Guard | src/app/api/tenants/route.ts:34-63 | 400 missing fields, 404 unknown room, 400 room not available, 400 phone taken, in that order; none iff all pass |
| TenantsApi.TenantData | src/app/api/tenants/route.ts:66-78 | the tenant is active, with one family member and no deposit unless given, moved in now unless a date is given |
| TenantsApi.DepositData | src/app/api/tenants/route.ts:84-93 | a completed deposit payment for the deposit, by WeChat unless another method is named |
| TenantsApi.FirstRent | src/app/api/tenants/route.ts:96-105 | the monthly rent, else the room's base rent, else 1500.00 |
| TenantsApi.PostTenant | src/app/api/tenants/route.ts:29-119 | a guard failure changes nothing; otherwise one tenant, the room occupied, a deposit payment iff the deposit is positive, and exactly one unpaid rent bill |
| TenantsApi.Register | src/app/api/tenants/route.ts:66-105 | the writes once every guard has passed |
| TenantsApi.Admit | src/app/api/tenants/route.ts:66-81 | the tenant insert and the room update |
| TenantsApi.RecordDeposit | src/app/api/tenants/route.ts:84-93 | a deposit payment is appended iff the deposit is positive |
| TenantsApi.CheckedInRoomIsOccupied | src/app/api/tenants/route.ts:81 | after the update the room is occupied |
| TenantsApi.CheckInIsNotRepeatable | src/app/api/tenants/route.ts:42-63 | after a check-in, a request for the same room or with the same phone is refused |
| RoomManager.RoomById | src/storage/database/roomManager.ts:36-40 | none iff no room has the id; otherwise a stored room with that id |
| RoomManager.RoomByNumber | src/storage/database/roomManager.ts:42-46 | none iff no room has the number; otherwise a stored room with it |
| RoomManager.RoomByNumberFindsEach | src/storage/database/roomManager.ts:42-46 | numbers being unique, each room is what its number finds |
| RoomManager.GetRooms | src/storage/database/roomManager.ts:14-34 | exactly the rooms matching every given filter, sorted by floor then room number |
| RoomManager.ListingSpec | src/storage/database/roomManager.ts:30-33 | the sort is in listing order and holds exactly the matching rooms |
| RoomManager.ListingWithoutFilters | src/storage/database/roomManager.ts:33 | without filters each room is listed exactly once |
| RoomManager.ListingIsDetermined | src/storage/database/roomManager.ts:30-33 | numbers being unique, any sorted arrangement of the matching rooms is the listing |
| RoomManager.CreateRoom | src/storage/database/roomManager.ts:7-12 | one room with the defaults is appended, or refused (no change) for a taken number |
| RoomManager.UpdateRoomStatus | src/storage/database/roomManager.ts:58-66 | only the status of the matching room changes; none iff the id is unknown |
| RoomManager.StatusUpdateChangesOnlyStatus | src/storage/database/roomManager.ts:58-66 | every other room and every other column is kept |
| RoomManager.GetAvailableRoomsByType | src/storage/database/roomManager.ts:75-91 | the grouping of the available rooms proper, by type with `single` for none |
| RoomManager.AvailableGroupsHoldAvailableRooms | src/storage/database/roomManager.ts:75-91 | each grouped room is an available room proper of the table, filed under its own type |
| RoomManager.SeedNumber | src/storage/database/roomManager.ts:146-148 | the number is the floor digit, `0`, then the unit digit |
| RoomManager.SeedRun | src/storage/database/roomManager.ts:146-157 | a loop's rooms are units first to last of one floor, all alike |
| RoomManager.SeedIsWellFormed | src/storage/database/roomManager.ts:99-250 | 20 seeds with one-digit floors and units, in increasing order |
| RoomManager.SeedFloors | src/storage/database/roomManager.ts:99-250 | floors 2, 3 and 4 hold 4, 8 and 8 rooms |
| RoomManager.NumbersDistinct | src/storage/database/roomManager.ts:99-250 | different floor and unit give different numbers |
| RoomManager.NumbersOrdered | src/storage/database/roomManager.ts:146-228 | on one floor a lower unit gets a lower number |
| RoomManager.SeedInput | src/storage/database/roomManager.ts:101-110 | each seeded room is a room proper, available, priced at its base rent |
| RoomManager.SeededRoomFacts | src/storage/database/roomManager.ts:99-250 | every seeded row is an available room proper with price equal to base rent |
| RoomManager.SeededRowsSortedAndUnique | src/storage/database/roomManager.ts:99-250 | the seeded rows have distinct numbers and are in listing order |
| RoomManager.InsertSeeds | src/storage/database/roomManager.ts:101-250 | the inserts, one by one, give exactly the seeded rows |
| RoomManager.InitializeRooms | src/storage/database/roomManager.ts:94-252 | a non-empty table is left alone; an empty one gets exactly the 20 seeded rooms, so a second call changes nothing |
| RoomManager.SeededListing | src/storage/database/roomManager.ts:14-34 | right after seeding the unfiltered listing is the 20 rooms in seed order |
| RoomOrder.RoomLeqTotal | src/storage/database/roomManager.ts:30 | the floor-then-number order is total |
| RoomOrder.RoomLeqTrans | src/storage/database/roomManager.ts:30 | and transitive |
| RoomOrder.SortRoomsSpec | src/storage/database/roomManager.ts:30 | the sort is a permutation in listing order |
| RoomOrder.SortedIsUnique | src/storage/database/roomManager.ts:30 | two sorted arrangements of the same rooms with unique numbers are equal |
| RoomsApi.CreatedRoomDefaults | src/app/api/rooms/route.ts:43-52 | type `single` unless given; price, else base rent, else 500.00; available unless given |
| RoomsApi.PostRoom | src/app/api/rooms/route.ts:31-60 | 400 and no insert for a missing number, floor 0 or no type; otherwise one room with those defaults |
| RoomsApi.PutRooms | src/app/api/rooms/route.ts:70-77 | delegates to the seeding, so rooms are never duplicated |
| RoomsApi.StatusNamed | src/app/api/rooms/route.ts:12 | a status name maps to its status |
| RoomsApi.ListQuery | src/app/api/rooms/route.ts:9-19 | the floor is parsed as an integer, and a floor that does not parse gives no query (the NaN filter the database refuses); the other parameters pass through; empty ones do not filter |
| RoomsApi.GetRoomsHandler | src/app/api/rooms/route.ts:6-28 | 500 iff a floor is given that does not parse; otherwise exactly the matching rooms, sorted, and every room once with no parameters; nothing changes |
| RoomsInitializeApi.PostInitialize | src/app/api/rooms/initialize/route.ts:8-36 | a non-empty table is reported with its count and unchanged; an empty one ends up exactly the 20 seeded rooms, count 20 |
| RoomsInitializeApi.DeleteInitialize | src/app/api/rooms/initialize/route.ts:47-67 | while tenants or bills refer to rooms it fails with 500 and changes nothing; otherwise the table ends up exactly the 20 seeded rooms, count 20 |
| RoomsMigrateApi.Migrated | src/app/api/rooms/migrate/route.ts:52-62 | the room gets type, area, base rent and price from its settings, price equal to base rent; nothing else changes |
| RoomsMigrateApi.MigrateTable | src/app/api/rooms/migrate/route.ts:44-79 | each room is migrated on its own; order and count are kept |
| RoomsMigrateApi.PostMigrate | src/app/api/rooms/migrate/route.ts:36-90 | the rooms become the migrated table; updated plus skipped is 20; each configured number is in exactly one list |
| RoomsMigrateApi.Migrate | src/app/api/rooms/migrate/route.ts:44-79 | the loop leaves the migrated table, the found numbers as updated and the missing ones as skipped, in order |
| RoomsMigrateApi.MigrateAll | src/app/api/rooms/migrate/route.ts:44-79 | after the loop the table is migrated by every entry and each number sits in the list its lookup decided |
| RoomsMigrateApi.MigrateEntry | src/app/api/rooms/migrate/route.ts:45-78 | one iteration keeps the loop invariant |
| RoomsMigrateApi.NoRoomNoChange | src/app/api/rooms/migrate/route.ts:73-78 | a number with no room changes no row, and no room is created |
| RoomsMigrateApi.ApplyEntry | src/app/api/rooms/migrate/route.ts:52-62 | the update of one configured room that exists |
| RoomsMigrateApi.MigrateKeepsNumber | src/app/api/rooms/migrate/route.ts:54-61 | a room number never changes |
| RoomsMigrateApi.NumbersKept | src/app/api/rooms/migrate/route.ts:44-62 | the migrated table holds the same numbers |
| RoomsMigrateApi.MigrationEffect | src/app/api/rooms/migrate/route.ts:44-62 | rooms not configured are untouched; configured ones hold their settings |
| RoomsMigrateApi.MigrationIdempotent | src/app/api/rooms/migrate/route.ts:44-62 | running the migration twice gives the rooms of one run |
| RoomsMigrateApi.ConfigMatchesSeed | src/app/api/rooms/migrate/route.ts:7-33 | the settings table lists the 20 seeded numbers (201-204, 301-308, 401-408) in seed order, with the seed's type, area and rent |
| RoomsMigrateApi.MigratingSeededRoomsChangesNothing | src/app/api/rooms/migrate/route.ts:7-62 | on a freshly seeded table the migration changes nothing |
| RoomGrouping.GroupKey | src/app/checkin/page.tsx:25 | the room type, or `single` when it is null or empty |
| RoomGrouping.KeysOfSpec | src/app/checkin/page.tsx:23-30 | the keys are exactly the rooms' keys, without repeats |
| RoomGrouping.GroupsFor | src/app/checkin/page.tsx:32-35 | one group per key, holding that key's rooms in order |
| RoomGrouping.GroupByRoomType | src/app/checkin/page.tsx:23-35 | the `forEach`/`push` loop computes `Grouping` |
| RoomGrouping.EveryRoomInOneGroup | src/app/checkin/page.tsx:24-30 | every room is in exactly one group, the one for its key |
| RoomGrouping.GroupsWellFormed | src/app/checkin/page.tsx:26-35 | no empty group, distinct types, fetch order kept within a group |
| RoomGrouping.GroupSizesSum | src/app/checkin/page.tsx:24-30 | the group sizes add up to the number of rooms |
| RoomGrouping.GroupCountIsKeyCount | src/app/checkin/page.tsx:32-35 | one group per distinct type |
| CheckInPage.AvailableRooms | src/app/checkin/page.tsx:6-17 | the available rooms proper of the table; nothing on a fetch error |
| CheckInPage.CheckInGroups | src/app/checkin/page.tsx:19-35 | the grouping of those rooms: each in exactly one group of its type, no empty groups, distinct types, sizes summing to the count; no groups on a fetch error |
| DebugRoomsApi.GetDebugRooms | src/app/api/debug/rooms/route.ts:4-47 | the check-in page's grouping; total is the number fetched; the group count is the number of distinct types; sizes sum to the total; 500 on a fetch error; read-only |
| ElectricityRulesPage.AddOutcomeOf | src/app/admin/electricity-rules/page.tsx:64-75 | added iff both amounts are positive and the minimum is new; duplicate iff positive with a repeated minimum; otherwise ignored |
| ElectricityRulesPage.AfterAdd | src/app/admin/electricity-rules/page.tsx:72 | an accepted add appends exactly the rule; otherwise the list is unchanged |
| ElectricityRulesPage.ReplaceAt | src/app/admin/electricity-rules/page.tsx:84-85 | only the tier at the index is replaced |
| ElectricityRulesPage.RemoveAt | src/app/admin/electricity-rules/page.tsx:94 | the list without the tier at the index, others in order |
| ElectricityRulesPage.RemoveAtTakesOne | src/app/admin/electricity-rules/page.tsx:94 | deleting takes out exactly that one tier (multiset) |
| ElectricityRulesPage.AddKeepsMinimaDistinct | src/app/admin/electricity-rules/page.tsx:67-72 | adding never repeats a minimum |
| ElectricityRulesPage.RemoveKeepsMinimaDistinct | src/app/admin/electricity-rules/page.tsx:94 | deleting never repeats a minimum |
| ElectricityRulesPage.UpdateCanRepeatMinimum | src/app/admin/electricity-rules/page.tsx:82-90 | the update has no duplicate check: it can repeat a minimum |
| ElectricityRulesPage.AddThenDeleteRestores | src/app/admin/electricity-rules/page.tsx:72-94 | deleting the tier just added restores the list |
| ElectricityRulesPage.RowsOf | src/app/admin/electricity-rules/page.tsx:209-222 | each row shows its tier and `Math.ceil(3 × return)` as the minimum spend |
| ElectricityRulesPage.ShownMinSpendIsIssued | src/app/admin/electricity-rules/page.tsx:221-222 | the shown minimum spend is the one the issued coupon carries |
| ElectricityRulesPage.SaveRequest | src/app/admin/electricity-rules/page.tsx:41-49 | the whole list, encoded, under `electricity_return_rule` with the fixed description |
| ElectricityRulesPage.SavedRulesDriveIssuing | src/app/admin/electricity-rules/page.tsx:38-49 | once saved, coupon issuing awards `BestRule` of the saved list for every amount |
| ElectricityRulesPage.RulesEditor.constructor | src/app/admin/electricity-rules/page.tsx:12-19 | the default tiers 200/20, 300/30, 500/50, a blank input, not editing |
| ElectricityRulesPage.RulesEditor.Load | src/app/admin/electricity-rules/page.tsx:25-36 | a stored list that parses replaces the list; otherwise it stays |
| ElectricityRulesPage.RulesEditor.SetInput | src/app/admin/electricity-rules/page.tsx:144-163 | the input holds the typed tier |
| ElectricityRulesPage.RulesEditor.AddRule | src/app/admin/electricity-rules/page.tsx:64-75 | the list becomes `AfterAdd`; the input is cleared only on an accepted add |
| ElectricityRulesPage.RulesEditor.EditRule | src/app/admin/electricity-rules/page.tsx:77-80 | edit mode on that index, the input holding its tier |
| ElectricityRulesPage.RulesEditor.UpdateRule | src/app/admin/electricity-rules/page.tsx:82-90 | in edit mode the tier is replaced unchecked and edit mode ends; otherwise nothing |
| ElectricityRulesPage.RulesEditor.DeleteRule | src/app/admin/electricity-rules/page.tsx:92-97 | only after confirmation, the tier at the index is removed |
| ElectricityRulesPage.RulesEditor.CancelEdit | src/app/admin/electricity-rules/page.tsx:99-102 | leaves edit mode with a blank input |
| ElectricityRulesPage.RulesEditor.Render | src/app/admin/electricity-rules/page.tsx:209-222 | the page's own list is re-sorted in place (a sorted permutation) and shown with its minimum spends |
| PayClient.Toggle | src/app/pay/pay-client.tsx:82-88 | a selected id is removed (all its copies), otherwise appended |
| PayClient.ToggleTwiceRestores | src/app/pay/pay-client.tsx:82-88 | toggling an unselected id twice restores the selection |
| PayClient.ToggleTwiceMovesLast | src/app/pay/pay-client.tsx:82-88 | toggling a selected id twice keeps the same ids, that id moved last |
| PayClient.ToggleKeepsDistinct | src/app/pay/pay-client.tsx:82-88 | toggling never selects a bill twice |
| PayClient.PayAll | src/app/pay/pay-client.tsx:90-92 | exactly the ids of the listed bills, in order |
| PayClient.AmountOf | src/app/pay/pay-client.tsx:152-153 | the bill's amount, 0 for an id with no bill |
| PayClient.TotalAppend | src/app/pay/pay-client.tsx:151-154 | the total of a concatenation is the sum of the totals |
| PayClient.ToggleOnAddsAmount | src/app/pay/pay-client.tsx:151-154 | selecting a bill adds its amount to the total |
| PayClient.ToggleOffSubtractsAmount | src/app/pay/pay-client.tsx:151-154 | deselecting a selected bill takes its amount off |
| PayClient.PayAllTotal | src/app/pay/pay-client.tsx:151-154 | after pay-all the total is the sum of all bill amounts |
| PayClient.TotalOfOwnIds | src/app/pay/pay-client.tsx:151-154 | the total of the listed bills' ids is their sum |
| PayClient.PayAccepted | src/app/pay/pay-client.tsx:94-100 | paying is refused iff nothing is selected |
| PayClient.RequestFor | src/app/pay/pay-client.tsx:117-123 | a request for the bill's id, amount and type, by WeChat |
| PayClient.RequestsAreComplete | src/app/pay/pay-client.tsx:111-124 | each request passes the settlement's field check and names a selected id with its bill's amount and type |
| PayClient.LastCoupon | src/app/pay/pay-client.tsx:130-132 | the coupon of the last reply that has one, or none |
| PayClient.AnyConfirmation | src/app/pay/pay-client.tsx:127-129 | true iff some reply asked for confirmation |
| PayClient.ConfirmPayment | src/app/pay/pay-client.tsx:102-143 | one request per selected id with a bill, the OR of the replies' flags, the last coupon, and the screen where confirmation wins |
| PayClient.ReadReply | src/app/pay/pay-client.tsx:126-132 | a settlement reply never asks for confirmation; its coupon is carried |
| PayClient.NoConfirmationScreen | src/app/pay/pay-client.tsx:137-141 | with settlement replies the "awaiting confirmation" screen never appears |
| CheckoutClient.ShownTotal | src/app/checkout/checkout-client.tsx:125-132 | the amount (0 if not a number) less the coupon, never below 0 |
| CheckoutClient.BodyAsWritten | src/app/checkout/checkout-client.tsx:91-103 | the body carries `couponId` exactly when a coupon is selected |
| CheckoutClient.RouteReads | src/app/api/supermarket-orders/route.ts:48-53 | what the order route reads from that body: no `couponCode` |
| CheckoutClient.CouponIgnoredAsWritten | src/app/checkout/checkout-client.tsx:101-103 | as written, no selected coupon is ever applied to the order |
| CheckoutClient.ShownTotalIsNotChargedAsWritten | src/app/checkout/checkout-client.tsx:101-132 | on one input the page shows 40.00 due, but the order is paid 50.00 with no coupon |
| CheckoutClient.Request | src/app/checkout/checkout-client.tsx:91-103 | the order request with the selected coupon's code as `couponCode` |
| CheckoutClient.ChosenCouponIsApplied | src/app/checkout/checkout-client.tsx:80-132 | with the code sent, a stored, active, reached coupon is applied and the paid amount is the total shown |
| CheckoutClient.NoCouponPaysInFull | src/app/checkout/checkout-client.tsx:125-132 | without a coupon the order is paid the amount shown |
| CheckoutClient.PayDecision | src/app/checkout/checkout-client.tsx:70-103 | nothing without a tenant; refused for an amount that is not a positive number; refused below the coupon's minimum; submitted iff all pass, with the corrected request (the coupon's code under `couponCode`) |
| CheckoutClient.DisabledCouponIsRefused | src/app/checkout/checkout-client.tsx:261 | a coupon whose option is disabled is refused at payment |
| CheckoutClient.SubmittedRequestIsComplete | src/app/checkout/checkout-client.tsx:91-99 | a submitted request passes the order route's guard for a known tenant |
| CheckoutClient.CheckoutPage.constructor | src/app/checkout/checkout-client.tsx:15-20 | the phone step, with nothing entered |
| CheckoutClient.CheckoutPage.SelectCoupon | src/app/checkout/checkout-client.tsx:236-261 | a disabled option cannot be chosen; "no coupon" always can |
| CheckoutClient.CheckoutPage.Pay | src/app/checkout/checkout-client.tsx:70-123 | the decision; a submitted corrected request that the route stores leads to the success step with the order's id; otherwise no change |
| CheckoutClient.CheckoutPage.Finish | src/app/checkout/checkout-client.tsx:327-333 | back to the phone step with amount, coupon, order and tenant cleared |

## Left out

- Concurrency. Calls are sequential. The check-then-insert race in coupon issuance is not modelled, and
  neither are the non-transactional multi-row writes.
- Database and driver failures, such as a lost connection, are not modelled. These foreign-key refusals on inserts
  and deletes are modelled: emptying the rooms table while tenants or bills refer to rooms, deleting a bill or
  coupon that is still named, a bill for an unknown tenant or room, and a payment for an unknown bill. Updates
  do not check foreign keys (see the three lines below). Only foreign keys between the modelled tables are considered. `Db.Valid()` does not include
  referential integrity.
- PaymentManager.UpdatePayment: a patch naming an unknown tenant or bill is refused by the foreign keys in the
  source and changes nothing. The model writes it. No caller sends such a patch.
- TenantManager.UpdateTenant: a patch naming an unknown room is refused by the `room_id` foreign key in the
  source and changes nothing. The model writes it. The one caller, the tenant `PUT` route, never sets `roomId`.
- BillManager.UpdateBillWith: a rewrite naming an unknown tenant or room is refused by the foreign keys in the
  source. The model writes it. Its callers change only the status, paid amount and paid date.
- RoomsInitializeApi.DeleteInitialize: the `meters` and `contracts` tables are not modelled, and nothing in this
  model writes them. Their `room_id` foreign keys have no cascade either, so in the source a meter or contract
  naming a room also makes the delete fail with 500. The model refuses only for tenants and bills.
- RoomOrder.SortRoomsSpec: `ORDER BY room_number` compares by the database's collation. The model compares
  character codes, which is the C collation. Other collations can order numbers with mixed case or punctuation
  differently; the seeded numbers are digits only.
- Schema.BillRow: `ChargeType` is a closed datatype (rent, electricity, water, deposit, refund). The `type`
  columns of bills and payments are open `varchar(20)`. Every type other than rent and electricity behaves the
  same in the handlers, so a closed set loses no branch. The text of a database error is not
  modelled: those replies are status 500 with an empty message.
- BillManager.CreateBill: the insert does not check the `tenant_id` and `room_id` foreign keys, which make the
  source throw on a missing row. Its one caller, BillsApi.PostBill, checks them first.
- BillManager.GenerateElectricityBill: does not check the `tenant_id` and `room_id` foreign keys. No handler
  calls it.
- BillManager.GenerateRentBill: does not check the `tenant_id` and `room_id` foreign keys. Its caller passes a
  tenant it has just inserted and a room it has found.
- PaymentManager.CreatePayment: does not check the `tenant_id` and `bill_id` foreign keys. PaymentsApi.Guard
  checks both before the settlement insert, and the deposit insert names a new tenant and no bill.
- CouponManager.CreateCoupon: does not check the `tenant_id` and `bill_id` foreign keys.
- TenantManager.CreateTenant: does not check the `room_id` foreign key. The check-in handler finds the room first.
- SupermarketOrderManager.PlaceOrder: does not check the `tenant_id` foreign key. The order route checks the
  tenant first.
- BillManager.ElectricityBill: usage is taken in hundredths of a kWh and the unit price in whole cents, and the
  product is rounded exactly. The source multiplies binary floating-point numbers before `toFixed(2)`, which can
  differ on a tie, and accepts usage with more decimals. `details` writes the unit price as two-decimal text
  (`YuanText`), where the source writes back the caller's own string, such as "0.8", and `parseFloat` reads
  whatever prefix of it is a number.
- `updatedAt`, `createdAt` and `usedAt` columns. Creation order is the order of the table `seq`.
- Randomness and the clock. Generated coupon codes and order numbers are parameters that the unique constraint
  requires to be unused. Clock values are parameters, and the local-time text of remarks is a parameter `stamp`. A coupon's
  expiry is `now` plus `30 × DAY_MS`. The source adds 30 calendar days in the server's local time (`setDate`),
  which differs by an hour across a daylight-saving change.
- Floating point. `parseFloat`, `toFixed` and float `Math.ceil` are replaced by integer cents. A money string that
  does not parse is `None`. For a check-in deposit that is not numeric, the source instead passes the text to
  the numeric column, and the insert fails with 500. The model checks the tenant in with a 0.00 deposit.
- JSON. Parsing the rule table and reading the stored rule list are the parameter `parse`. Encoding it on
  save is a parameter `encode`. The order's `items` is opaque text. A stored rule text that parses to something
  other than an array, such as `{}`, makes `returnRules.sort` throw in the source. That happens after the payment
  handlers have marked the bill paid. The model's `parse` gives `None` for it, so no coupon is issued and the
  handler succeeds.
- The `ADMIN_PHONES` environment variable is the parameter `env`.
- Request parsing. A body or query field is an `Option`, with an absent or falsy value as `None`. The admin phone
  of the confirm, reject and verify handlers keeps an empty value as `Some("")`. Merging absent and falsy loses
  two distinctions of the source. A `description: null` posted to the settings route writes NULL, where the
  model keeps the old description (`SystemConfigApi.Rewrite`). A numeric 0 `area` or `baseRent` posted to the
  rooms route is stored as 0, and a 0 `baseRent` then prices the room at 500.00. The model stores null for both
  (`RoomsApi.CreatedRoomDefaults`).
- Zod validation is taken to accept well-typed input.
- `moveInDate` parse errors in check-in are not modelled.
- The rent bill's due date (`setMonth(+1)`) is a parameter `dueDate`.
- ElectricityRulesPage.ReplaceAt: an edit index left stale by a delete makes `newRules[i] = r` append (an index
  equal to the length) or leave holes (a larger index). The model appends in both cases.
- PayClient.ConfirmPayment: the server's reply is a function of the request's position in the loop. `fetch`
  failures (the `catch`) are not modelled.
- CheckoutClient.PayDecision: submits the corrected request, with the chosen coupon's code under `couponCode`.
  The page as written sends the coupon's id under `couponId`, which the route ignores. That behaviour is modelled
  by `BodyAsWritten` and `RouteReads`, and shown under "## Findings".
- CheckoutClient.CheckoutPage.Pay: posts the corrected request of `PayDecision`, not the body the page as
  written sends. The order route is a function from request to stored order id. `fetch` failures are not
  modelled.
- RoomGrouping.GroupsFor: the groups come in order of first appearance. In the source, `Object.entries` lists
  integer-like keys first, in ascending numeric order; a room type such as "1" would move ahead. A room type
  named after an `Object.prototype` member, such as "constructor" or "toString", makes `grouped[type].push`
  throw. Neither case is modelled.
- RoomGrouping.GroupByRoomType: the same two cases are not modelled as for `GroupsFor`. These are integer-like
  room types listed first, and prototype-named types that throw.
- TenantManager.TenantByPhone: the source's query has no `ORDER BY`, so the database may return any matching
  tenant. The model returns the first in creation order.
- TenantManager.GetTenants: the phone filter is `LIKE '%phone%'`. In PostgreSQL, `%` and `_` in the phone are
  wildcards and `\` escapes the next character. The model matches the phone as a plain substring.
- The `totalAmount` the checkout page sends is the raw text, and the route stores it as given. The model sends the
  parsed cents.
- Loading flags, alerts, the QR-code dialog and the camera are not modelled.
- The tenant and bill look-ups of the pay and checkout pages (`handleSearchTenant`, `handleFindBills`) are not
  modelled; they are plain `GET`s.
- Generic CRUD that the flow never calls: `updateCoupon`, `createOrder`, `getOrderById`, `updateOrder`,
  `deleteOrder`, `updateRoom`, `deleteRoom` and `deleteTenant`.
- Storage uploads (`src/lib/storage.ts`), the admin dashboard and the other UI-only pages. They hold no logic
  beyond what is modelled here.
- `src/app/api/coupons/route.ts` is a single pass-through call to `getCoupons`.

## Findings

| source | as written | input that shows it | evidently intended | confidence | as-written member | corrected member |
|---|---|---|---|---|---|---|
| src/app/checkout/checkout-client.tsx:101-103 | the checkout page sends the chosen coupon as `couponId`, but the order route reads `couponCode` (src/app/api/supermarket-orders/route.ts:52), so no coupon is ever applied | an active coupon worth 10.00 with a 30.00 minimum, on a 50.00 purchase: the page shows 40.00 due, but the order is stored with no coupon and 50.00 paid, and the coupon stays active | send the coupon's code under `couponCode`, so that a stored, active coupon whose minimum is reached is applied, and the order is paid the total the page showed | high; not executed | CheckoutClient.ShownTotalIsNotChargedAsWritten | CheckoutClient.ChosenCouponIsApplied |

=== FILE: admin_auth.dfy ===
/**
 * The administrator allow-list read from `ADMIN_PHONES`, and the
 * `POST /api/admin-login` handler. The variable's value is a parameter
 * (`None` when it is unset). Three handlers build the list three ways:
 * the login handler splits on ',' and trims each entry, the verify handler
 * splits without trimming, and the confirm and reject handlers split the
 * value or, when it is unset, the empty string.
 */
module AdminAuth {
  import opened Wrappers
  import opened Http

  /** JavaScript's `s.split(sep)` for a one-character separator: the empty string gives `[""]`. */
  function Split(s: string, sep: char): (r: seq<string>)
    ensures |r| >= 1
    ensures forall piece :: piece in r ==> sep !in piece
    decreases |s|
  {
    if |s| == 0 then [""]
    else
      var rest := Split(s[1..], sep);
      if s[0] == sep then [""] + rest
      else [[s[0]] + rest[0]] + rest[1..]
  }

  /** `parts.join(sep)`. */
  function Join(parts: seq<string>, sep: char): string
    requires |parts| >= 1
    decreases |parts|
  {
    if |parts| == 1 then parts[0] else parts[0] + [sep] + Join(parts[1..], sep)
  }

  /** Splitting loses nothing: joining the pieces back gives the original text. */
  lemma {:induction false} JoinSplit(s: string, sep: char)
    ensures Join(Split(s, sep), sep) == s
    decreases |s|
  {
    if |s| > 0 {
      var rest := Split(s[1..], sep);
      JoinSplit(s[1..], sep);
      if s[0] == sep {
        assert Split(s, sep) == [""] + rest;
        assert ([""] + rest)[1..] == rest;
        assert s == [sep] + s[1..];
      } else {
        var r := [[s[0]] + rest[0]] + rest[1..];
        assert Split(s, sep) == r;
        if |rest| == 1 {
          assert s == [s[0]] + s[1..];
        } else {
          assert r[1..] == rest[1..];
          assert Join(rest, sep) == rest[0] + [sep] + Join(rest[1..], sep);
          assert s == [s[0]] + s[1..];
        }
      }
    }
  }

  /**
   * The characters `String.prototype.trim` removes: tab, line tabulation,
   * form feed, space, no-break space, the byte order mark, the other Unicode
   * space separators, and the line terminators (line feed, carriage return,
   * line and paragraph separator).
   */
  predicate IsSpace(c: char)
  {
    || c == '\t' || c == '\U{B}' || c == '\U{C}' || c == ' ' || c == '\U{A0}' || c == '\U{FEFF}'
    || c == '\U{1680}' || ('\U{2000}' <= c <= '\U{200A}') || c == '\U{202F}' || c == '\U{205F}' || c == '\U{3000}'
    || c == '\n' || c == '\r' || c == '\U{2028}' || c == '\U{2029}'
  }

  /** The first index at or after `i` that does not hold white space (or `|s|`). */
  function SkipSpaces(s: string, i: nat): (k: nat)
    requires i <= |s|
    ensures i <= k <= |s|
    ensures forall m :: i <= m < k ==> IsSpace(s[m])
    ensures k < |s| ==> !IsSpace(s[k])
    decreases |s| - i
  {
    if i < |s| && IsSpace(s[i]) then SkipSpaces(s, i + 1) else i
  }

  /** The end, at or after `lo`, of `s[..j]` without its trailing white space. */
  function SkipSpacesBack(s: string, lo: nat, j: nat): (k: nat)
    requires lo <= j <= |s|
    ensures lo <= k <= j
    ensures forall m :: k <= m < j ==> IsSpace(s[m])
    ensures k > lo ==> !IsSpace(s[k - 1])
    decreases j
  {
    if j > lo && IsSpace(s[j - 1]) then SkipSpacesBack(s, lo, j - 1) else j
  }

  /** `s.trim()`: the text without its leading and trailing white space. */
  function Trim(s: string): (r: string)
    ensures |r| <= |s|
    ensures |r| > 0 ==> !IsSpace(r[0]) && !IsSpace(r[|r| - 1])
    ensures (forall k :: 0 <= k < |s| ==> !IsSpace(s[k])) ==> r == s
  {
    var i := SkipSpaces(s, 0);
    s[i..SkipSpacesBack(s, i, |s|)]
  }

  /** Trimming twice is trimming once. */
  lemma TrimIdempotent(s: string)
    ensures Trim(Trim(s)) == Trim(s)
  {
    var t := Trim(s);
    if |t| > 0 {
      assert SkipSpaces(t, 0) == 0;
      assert SkipSpacesBack(t, 0, |t|) == |t|;
      assert t[0..|t|] == t;
    }
  }

  /** `arr.map(p => p.trim())`. */
  function TrimAll(parts: seq<string>): (r: seq<string>)
    ensures |r| == |parts| && forall i :: 0 <= i < |parts| ==> r[i] == Trim(parts[i])
  {
    seq(|parts|, i requires 0 <= i < |parts| => Trim(parts[i]))
  }

  /** The list of the login handler: split, each entry trimmed; empty when unset. */
  function LoginAllowList(env: Option<string>): (r: seq<string>)
    ensures env.None? <==> r == []
    ensures env.Some? ==> r == TrimAll(Split(env.value, ','))
  {
    if env.None? then [] else TrimAll(Split(env.value, ','))
  }

  /** The list of the verify handler: split, untrimmed; empty when unset. */
  function VerifyAllowList(env: Option<string>): (r: seq<string>)
    ensures env.None? <==> r == []
    ensures env.Some? ==> Join(r, ',') == env.value
  {
    if env.None? then [] else (JoinSplit(env.value, ','); Split(env.value, ','))
  }

  /** The list of the confirm and reject handlers: split, untrimmed; an unset variable reads as "". */
  function ConfirmAllowList(env: Option<string>): (r: seq<string>)
    ensures |r| >= 1 && Join(r, ',') == env.GetOr("")
    ensures env.None? ==> r == [""]
  {
    JoinSplit(env.GetOr(""), ',');
    Split(env.GetOr(""), ',')
  }

  /** `adminPhones.includes(adminPhone)`; an absent phone is never included. */
  predicate Authorized(allowList: seq<string>, phone: Option<string>)
  {
    phone.Some? && phone.value in allowList
  }

  /** With `ADMIN_PHONES` unset the login and verify handlers admit nobody. */
  lemma UnsetAdmitsNobody(phone: Option<string>)
    ensures !Authorized(LoginAllowList(None), phone)
    ensures !Authorized(VerifyAllowList(None), phone)
  {
  }

  /**
   * With `ADMIN_PHONES` unset the confirm and reject handlers still admit
   * a request whose admin phone is the empty string.
   */
  lemma UnsetConfirmAdmitsEmptyPhone()
    ensures Authorized(ConfirmAllowList(None), Some(""))
  {
  }

  /** `"1, 2"` splits into `"1"` and `" 2"`. */
  lemma SplitExample()
    ensures Split("1, 2", ',') == ["1", " 2"]
  {
    var none: seq<string> := [];
    assert Split("", ',') == [""];
    assert "2"[0] == '2' && "2"[1..] == "";
    assert [""][1..] == none;
    assert ['2'] + "" == "2";
    assert Split("2", ',') == ["2"];
    assert " 2"[0] == ' ' && " 2"[1..] == "2";
    assert [' '] + "2" == " 2";
    assert ["2"][1..] == none;
    assert Split(" 2", ',') == [" 2"];
    assert ", 2"[0] == ',' && ", 2"[1..] == " 2";
    assert Split(", 2", ',') == ["", " 2"];
    assert "1, 2"[0] == '1';
    assert ['1'] + "" == "1";
    assert ["", " 2"][1..] == [" 2"];
    assert "1, 2"[1..] == ", 2";
  }

  /** An entry written with a space after the comma is admitted by login but not by confirm or verify. */
  lemma TrimmingDiffers()
    ensures Authorized(LoginAllowList(Some("1, 2")), Some("2"))
    ensures !Authorized(ConfirmAllowList(Some("1, 2")), Some("2"))
    ensures !Authorized(VerifyAllowList(Some("1, 2")), Some("2"))
  {
    SplitExample();
    assert SkipSpaces(" 2", 0) == 1;
    assert SkipSpacesBack(" 2", 1, 2) == 2;
    assert Trim(" 2") == " 2"[1..2] == "2";
    assert TrimAll(["1", " 2"])[1] == "2";
  }

  /** What a successful login returns: the phone. */
  const MISSING_PHONE := "请输入手机号"
  const NOT_ADMIN := "您没有管理员权限"

  /** `POST /api/admin-login`. An empty phone counts as missing. */
  function AdminLogin(phone: Option<string>, env: Option<string>): (r: Response<string>)
    ensures phone.None? || phone == Some("") ==> r == Fail(400, MISSING_PHONE)
    ensures phone.Some? && phone.value != "" ==>
              (r == Ok(phone.value) <==> phone.value in LoginAllowList(env))
    ensures r.Ok? || r == Fail(400, MISSING_PHONE) || r == Fail(403, NOT_ADMIN)
  {
    if phone.None? || phone.value == "" then Fail(400, MISSING_PHONE)
    else if phone.value !in LoginAllowList(env) then Fail(403, NOT_ADMIN)
    else Ok(phone.value)
  }

  /** Login succeeds exactly for the trimmed entries of the variable, and never when it is unset. */
  lemma LoginNeedsListedPhone(phone: Option<string>, env: Option<string>)
    ensures AdminLogin(phone, env).Ok? ==> env.Some? && phone.Some? && phone.value in TrimAll(Split(env.value, ','))
    ensures AdminLogin(phone, None).Fail?
  {
  }
}

=== FILE: bill_manager.dfy ===
/**
 * The bill manager: bill inserts (a plain insert and the electricity and
 * rent generators), the filtered listing, lookup by id, the status update
 * the payment handlers use, and delete.
 */
module BillManager {
  import opened Wrappers
  import opened Money
  import opened Tables
  import opened Schema
  import opened Store

  /** The predicate `WHERE id = ?` on bills. */
  function IdIs(id: Id): Bill -> bool
  {
    (b: Bill) => b.id == id
  }

  /** `getBillById`: the bill with that id, or none. */
  function BillById(bills: seq<Bill>, id: Id): (r: Option<Bill>)
    ensures r.None? <==> forall b :: b in bills ==> b.id != id
    ensures r.Some? ==> r.value in bills && r.value.id == id
  {
    FirstWhere(bills, IdIs(id))
  }

  predicate BillMatches(b: Bill, tenantId: Option<Id>, roomId: Option<Id>, kind: Option<ChargeType>, status: Option<BillStatus>)
  {
    && (tenantId.None? || b.tenantId == tenantId.value)
    && (roomId.None? || b.roomId == Some(roomId.value))
    && (kind.None? || b.kind == kind.value)
    && (status.None? || b.status == status.value)
  }

  /** `getBills`: the bills matching every supplied filter, oldest first. */
  function GetBills(db: Db, tenantId: Option<Id>, roomId: Option<Id>, kind: Option<ChargeType>, status: Option<BillStatus>)
    : (r: seq<Bill>)
    reads db
    ensures forall b :: b in r <==> b in db.bills && BillMatches(b, tenantId, roomId, kind, status)
    ensures SubseqOf(r, db.bills)
  {
    Filter(db.bills, (b: Bill) => BillMatches(b, tenantId, roomId, kind, status))
  }

  /** `createBill`: inserts one bill, defaults applied, and returns it. */
  method CreateBill(db: Db, data: BillInput) returns (bill: Bill)
    requires db.Valid()
    modifies db`bills, db`nextId
    ensures db.Valid()
    ensures bill == BillRow(old(db.nextId), data)
    ensures db.bills == old(db.bills) + [bill] && db.nextId == old(db.nextId) + 1
  {
    var id := db.FreshId();
    bill := BillRow(id, data);
    db.AddBill(bill);
  }

  /**
   * The row `updateBillStatus` writes: the status always, the paid amount
   * only when one is given (a non-empty text, so "0" counts), the paid date
   * only when one is given.
   */
  function StatusUpdate(b: Bill, status: BillStatus, paidAmount: Option<Cents>, paidDate: Option<Time>): (r: Bill)
    ensures r.status == status
    ensures r.paidAmount == paidAmount.GetOr(b.paidAmount)
    ensures r.paidDate == if paidDate.Some? then paidDate else b.paidDate
    ensures r.(status := b.status, paidAmount := b.paidAmount, paidDate := b.paidDate) == b
  {
    var withAmount := if paidAmount.Some? then b.(paidAmount := paidAmount.value) else b;
    var withDate := if paidDate.Some? then withAmount.(paidDate := paidDate) else withAmount;
    withDate.(status := status)
  }

  /** Marking a bill paid and then unpaid without a date leaves the earlier paid date in place. */
  lemma UnpayKeepsPaidDate(b: Bill, amount: Cents, now: Time)
    ensures var after := StatusUpdate(StatusUpdate(b, Paid, Some(amount), Some(now)), Unpaid, Some(0), None);
            after.status == Unpaid && after.paidAmount == 0 && after.paidDate == Some(now)
  {
  }

  /** The bill table after `UPDATE bills SET <status update> WHERE id = ?`. */
  function UpdateStatusWhere(bills: seq<Bill>, id: Id, status: BillStatus, paidAmount: Option<Cents>, paidDate: Option<Time>)
    : (r: seq<Bill>)
    ensures |r| == |bills|
    ensures forall i :: 0 <= i < |bills| ==>
              r[i] == if bills[i].id == id then StatusUpdate(bills[i], status, paidAmount, paidDate) else bills[i]
  {
    UpdateWhere(bills, IdIs(id), (b: Bill) => StatusUpdate(b, status, paidAmount, paidDate))
  }

  /**
   * `updateBillStatus`: applies the status update to the bill with that id
   * and returns the updated row; an unknown id changes nothing and gives none.
   */
  method UpdateBillStatus(db: Db, id: Id, status: BillStatus, paidAmount: Option<Cents>, paidDate: Option<Time>)
    returns (bill: Option<Bill>)
    requires db.Valid()
    modifies db`bills
    ensures db.Valid()
    ensures db.bills == UpdateStatusWhere(old(db.bills), id, status, paidAmount, paidDate)
    ensures bill.None? <==> forall b :: b in old(db.bills) ==> b.id != id
    ensures bill.None? ==> db.bills == old(db.bills)
    ensures bill.Some? ==> bill == Some(StatusUpdate(BillById(old(db.bills), id).value, status, paidAmount, paidDate))
  {
    bill := UpdateBillWith(db, id, (b: Bill) => StatusUpdate(b, status, paidAmount, paidDate));
  }

  /**
   * `UPDATE bills SET ... WHERE id = ?` with a row rewrite `f` that keeps the
   * id, as the approval handlers issue it directly; returns the updated row,
   * or none for an unknown id.
   */
  method UpdateBillWith(db: Db, id: Id, f: Bill -> Bill) returns (bill: Option<Bill>)
    requires db.Valid()
    requires forall b :: f(b).id == b.id
    modifies db`bills
    ensures db.Valid()
    ensures db.bills == UpdateWhere(old(db.bills), IdIs(id), f)
    ensures bill.None? <==> forall b :: b in old(db.bills) ==> b.id != id
    ensures bill.None? ==> db.bills == old(db.bills)
    ensures bill.Some? ==> bill == Some(f(BillById(old(db.bills), id).value))
  {
    UpdateFinds(db.bills, IdIs(id), f);
    UpdateKeepsKeys(db.bills, IdIs(id), f, (b: Bill) => b.id);
    db.SetBills(UpdateWhere(db.bills, IdIs(id), f));
    bill := BillById(db.bills, id);
  }

  /**
   * The `details` text of an electricity bill, `JSON.stringify({ usage, unitPrice })`:
   * the usage as JavaScript prints the number, the unit price as a string.
   */
  function ElectricityDetails(usage: int, unitPrice: Cents): string
  {
    "{\"usage\":" + YuanText(usage) + ",\"unitPrice\":\"" + YuanText(unitPrice) + "\"}"
  }

  /**
   * The bill `generateElectricityBill` inserts. `usage` is in hundredths of a
   * kWh and `unitPrice` in cents per kWh, so their product is in
   * ten-thousandths of a yuan; `toFixed(2)` rounds it to the cent.
   */
  function ElectricityBill(id: Id, tenantId: Id, roomId: Id, usage: int, unitPrice: Cents): (b: Bill)
    ensures b.id == id && b.tenantId == tenantId && b.roomId == Some(roomId)
    ensures b.kind == Electricity && b.status == Unpaid && b.paidAmount == 0 && b.paidDate == None
    ensures usage * unitPrice >= 0 ==> -50 < CENTS_PER_YUAN * b.amount - usage * unitPrice <= 50
    ensures usage * unitPrice < 0 ==> -50 <= CENTS_PER_YUAN * b.amount - usage * unitPrice < 50
    ensures usage >= 0 && unitPrice >= 0 ==> b.amount >= 0
    ensures usage % CENTS_PER_YUAN == 0 ==> b.amount == usage / CENTS_PER_YUAN * unitPrice
    ensures b.details == Some(ElectricityDetails(usage, unitPrice))
  {
    WholeUsageIsExact(usage, unitPrice);
    Bill(id, tenantId, Some(roomId), Electricity, RoundToCents(usage * unitPrice), 0, Unpaid, None, None,
         Some(ElectricityDetails(usage, unitPrice)))
  }

  /** A usage of whole kWh costs exactly that many unit prices: there is nothing to round. */
  lemma WholeUsageIsExact(usage: int, unitPrice: Cents)
    ensures usage % CENTS_PER_YUAN == 0 ==> RoundToCents(usage * unitPrice) == usage / CENTS_PER_YUAN * unitPrice
  {
    if usage % CENTS_PER_YUAN == 0 {
      var whole := usage / CENTS_PER_YUAN;
      assert usage * unitPrice == CENTS_PER_YUAN * (whole * unitPrice);
      RoundWholeCents(whole * unitPrice);
    }
  }

  /** `generateElectricityBill`: one unpaid electricity bill for the metered usage. */
  method GenerateElectricityBill(db: Db, tenantId: Id, roomId: Id, usage: int, unitPrice: Cents) returns (bill: Bill)
    requires db.Valid()
    modifies db`bills, db`nextId
    ensures db.Valid()
    ensures bill == ElectricityBill(old(db.nextId), tenantId, roomId, usage, unitPrice)
    ensures db.bills == old(db.bills) + [bill] && db.nextId == old(db.nextId) + 1
  {
    var id := db.FreshId();
    bill := ElectricityBill(id, tenantId, roomId, usage, unitPrice);
    db.AddBill(bill);
  }

  /** The bill `generateRentBill` inserts. */
  function RentBill(id: Id, tenantId: Id, roomId: Id, amount: Cents, dueDate: Time): (b: Bill)
    ensures b.id == id && b.tenantId == tenantId && b.roomId == Some(roomId)
    ensures b.kind == Rent && b.status == Unpaid && b.paidAmount == 0 && b.paidDate == None
    ensures b.amount == amount && b.dueDate == Some(dueDate)
  {
    Bill(id, tenantId, Some(roomId), Rent, amount, 0, Unpaid, Some(dueDate), None, None)
  }

  /** `generateRentBill`: one unpaid rent bill due at `dueDate`. */
  method GenerateRentBill(db: Db, tenantId: Id, roomId: Id, amount: Cents, dueDate: Time) returns (bill: Bill)
    requires db.Valid()
    modifies db`bills, db`nextId
    ensures db.Valid()
    ensures bill == RentBill(old(db.nextId), tenantId, roomId, amount, dueDate)
    ensures db.bills == old(db.bills) + [bill] && db.nextId == old(db.nextId) + 1
  {
    var id := db.FreshId();
    bill := RentBill(id, tenantId, roomId, amount, dueDate);
    db.AddBill(bill);
  }

  /** A payment or a coupon names the bill: both tables have a `bill_id` foreign key on bills. */
  predicate BillReferenced(payments: seq<Payment>, coupons: seq<Coupon>, id: Id)
  {
    || (exists p :: p in payments && p.billId == Some(id))
    || (exists c :: c in coupons && c.billId == Some(id))
  }

  /**
   * `deleteBill`: removes the bill with that id; true iff a row was removed.
   * The foreign keys have no cascade, so while a payment or coupon still
   * names the bill the database refuses the delete and nothing changes.
   */
  method DeleteBill(db: Db, id: Id) returns (r: Outcome<bool>)
    requires db.Valid()
    modifies db`bills
    ensures db.Valid()
    ensures r.Refused? <==> BillById(old(db.bills), id).Some? && BillReferenced(db.payments, db.coupons, id)
    ensures r.Refused? ==> db.bills == old(db.bills)
    ensures r.Done? ==> forall b :: b in db.bills <==> b in old(db.bills) && b.id != id
    ensures r.Done? ==> SubseqOf(db.bills, old(db.bills))
    ensures r.Done? ==> (r.value <==> exists b :: b in old(db.bills) && b.id == id)
  {
    if BillById(db.bills, id).Some? && BillReferenced(db.payments, db.coupons, id) {
      return Refused;
    }
    var before := db.bills;
    var after := DeleteWhere(before, IdIs(id));
    DistinctBySubseq(after, before, (b: Bill) => b.id);
    db.SetBills(after);
    r := Done(|after| < |before|);
  }
}

=== FILE: bills_api.dfy ===
/**
 * `POST /api/bills`: creates a bill after checking the required fields.
 * Whatever the body says, the new bill is unpaid with nothing paid.
 */
module BillsApi {
  import opened Wrappers
  import opened Money
  import opened Schema
  import opened Store
  import opened Http
  import opened Tables
  import BillManager
  import TenantManager
  import RoomManager

  /**
   * The request body; an absent or falsy field is `None`. `paidAmount` and
   * `status` are fields a caller may send and the handler ignores.
   */
  datatype BillRequest = BillRequest(
    tenantId: Option<Id>, roomId: Option<Id>, kind: Option<ChargeType>, amount: Option<Cents>,
    details: Option<string>, dueDate: Option<Time>, paidAmount: Option<Cents>, status: Option<BillStatus>)

  const MISSING_FIELDS := "缺少必要参数"

  predicate Complete(req: BillRequest)
  {
    req.tenantId.Some? && req.roomId.Some? && req.kind.Some? && req.amount.Some?
  }

  /** The insert the handler makes: the given columns, with the paid amount and status forced. */
  function BillData(req: BillRequest): (b: BillInput)
    requires Complete(req)
    ensures b.paidAmount == Some(0) && b.status == Some(Unpaid)
    ensures b.tenantId == req.tenantId.value && b.roomId == req.roomId && b.kind == req.kind.value
    ensures b.amount == req.amount.value && b.details == req.details && b.dueDate == req.dueDate
  {
    BillInput(req.tenantId.value, req.roomId, req.kind.value, req.amount.value, Some(0), Some(Unpaid),
              req.dueDate, req.details)
  }

  /** The body's own paid amount and status make no difference to the stored bill. */
  lemma InitialStateIsForced(id: Id, req: BillRequest, paidAmount: Option<Cents>, status: Option<BillStatus>)
    requires Complete(req)
    ensures BillRow(id, BillData(req)) == BillRow(id, BillData(req.(paidAmount := paidAmount, status := status)))
    ensures BillRow(id, BillData(req)).status == Unpaid && BillRow(id, BillData(req)).paidAmount == 0
  {
  }

  /** The tenant and the room the bill names exist: `bills` has foreign keys on both. */
  predicate ReferencesExist(tenants: seq<Tenant>, rooms: seq<Room>, req: BillRequest)
    requires Complete(req)
  {
    TenantManager.TenantById(tenants, req.tenantId.value).Some? && RoomManager.RoomById(rooms, req.roomId.value).Some?
  }

  /**
   * The handler. An insert naming a tenant or room that does not exist
   * violates a foreign key; the `catch` answers 500 and nothing is stored.
   */
  method PostBill(db: Db, req: BillRequest) returns (resp: Response<Bill>)
    requires db.Valid()
    modifies db`bills, db`nextId
    ensures db.Valid()
    ensures !Complete(req) ==> resp == Fail(400, MISSING_FIELDS)
    ensures Complete(req) && !ReferencesExist(db.tenants, db.rooms, req) ==> resp.Fail? && resp.status == 500
    ensures resp.Fail? ==> db.bills == old(db.bills) && db.nextId == old(db.nextId)
    ensures resp.Ok? <==> Complete(req) && ReferencesExist(db.tenants, db.rooms, req)
    ensures resp.Ok? ==> resp == Ok(BillRow(old(db.nextId), BillData(req))) && db.bills == old(db.bills) + [resp.body]
  {
    if !Complete(req) {
      return Fail(400, MISSING_FIELDS);
    }
    if !ReferencesExist(db.tenants, db.rooms, req) {
      return Fail(500, "");
    }
    var bill := BillManager.CreateBill(db, BillData(req));
    resp := Ok(bill);
  }

  /**
   * `GET`: the bills matching every query parameter given (an absent or
   * empty one does not filter), oldest first; with none, every bill.
   */
  function ListBills(db: Db, tenantId: Option<Id>, roomId: Option<Id>, kind: Option<ChargeType>, status: Option<BillStatus>)
    : (r: seq<Bill>)
    reads db
    ensures forall b :: b in r <==> b in db.bills && BillManager.BillMatches(b, tenantId, roomId, kind, status)
    ensures tenantId.None? && roomId.None? && kind.None? && status.None? ==> r == db.bills
  {
    if tenantId.None? && roomId.None? && kind.None? && status.None? then
      FilterAll(db.bills, (b: Bill) => BillManager.BillMatches(b, None, None, None, None));
      BillManager.GetBills(db, tenantId, roomId, kind, status)
    else
      BillManager.GetBills(db, tenantId, roomId, kind, status)
  }
}

=== FILE: checkin_page.dfy ===
/**
 * The check-in page: it fetches the available rooms of kind 'room' (an
 * error while fetching gives no rooms) and hands them to the check-in form
 * grouped by room type.
 */
module CheckInPage {
  import opened Tables
  import opened Schema
  import opened Store
  import opened RoomGrouping
  import RM = RoomManager

  /** `getAvailableRooms`: the room listing, or nothing when the fetch fails. */
  function AvailableRooms(db: Db, fetchFailed: bool): (rooms: seq<Room>)
    reads db
    ensures fetchFailed ==> rooms == []
    ensures forall r :: r in rooms <==> !fetchFailed && r in db.rooms && r.kind == "room" && r.status == Available
  {
    if fetchFailed then [] else RM.GetRooms(db, RM.AVAILABLE_ROOMS)
  }

  /**
   * The page body: the fetched rooms and their groups. Every fetched room is
   * in exactly one group, under its own type; no group is empty, types are
   * not repeated, and the group sizes add up to the number fetched.
   */
  method CheckInGroups(db: Db, fetchFailed: bool) returns (rooms: seq<Room>, groups: seq<RoomGroup>)
    ensures rooms == AvailableRooms(db, fetchFailed)
    ensures groups == Grouping(rooms)
    ensures fetchFailed ==> groups == []
    ensures forall r :: r in rooms ==>
      exists i :: 0 <= i < |groups| && r in groups[i].rooms && groups[i].roomType == GroupKey(r)
    ensures forall i, j, r :: 0 <= i < |groups| && 0 <= j < |groups| && r in groups[i].rooms && r in groups[j].rooms ==> i == j
    ensures forall i :: 0 <= i < |groups| ==> groups[i].rooms != [] && SubseqOf(groups[i].rooms, rooms)
    ensures forall i, j :: 0 <= i < j < |groups| ==> groups[i].roomType != groups[j].roomType
    ensures TotalSize(groups) == |rooms|
  {
    rooms := AvailableRooms(db, fetchFailed);
    groups := GroupByRoomType(rooms);
    GroupsWellFormed(rooms);
    GroupSizesSum(rooms);
    forall r | r in rooms
      ensures exists i :: 0 <= i < |groups| && r in groups[i].rooms && groups[i].roomType == GroupKey(r)
      ensures forall i, j :: 0 <= i < |groups| && 0 <= j < |groups| && r in groups[i].rooms && r in groups[j].rooms ==> i == j
    {
      EveryRoomInOneGroup(rooms, r);
    }
    forall i, j, r | 0 <= i < |groups| && 0 <= j < |groups| && r in groups[i].rooms && r in groups[j].rooms
      ensures i == j
    {
      assert groups[i].rooms == Filter(rooms, HasKey(groups[i].roomType));
      EveryRoomInOneGroup(rooms, r);
    }
  }
}

=== FILE: checkout_client.dfy ===
/**
 * The supermarket checkout page: the cashier finds the tenant, enters the
 * amount and may pick one of the tenant's coupons. The page shows the
 * amount after the coupon and submits the order to
 * `POST /api/supermarket-orders`.
 *
 * The page names the chosen coupon in a `couponId` field, while the order
 * route reads `couponCode`; `BodyAsWritten` and `RouteReads` keep that
 * behaviour, and `Request` is the body with the coupon's code under the name
 * the route reads, which the page model below uses.
 */
module CheckoutClient {
  import opened Wrappers
  import opened Money
  import opened Schema
  import OrdersApi
  import TenantManager
  import OM = SupermarketOrderManager

  /** A coupon option is greyed out while the entered amount is below its minimum spend. */
  predicate OptionDisabled(entered: Option<Cents>, c: Coupon)
  {
    entered.Some? && entered.value < c.minSpend
  }

  /**
   * `calculateTotal`: the entered amount (0 when empty or not a number),
   * less the chosen coupon's amount, never below 0.
   */
  function ShownTotal(entered: Option<Cents>, selected: Option<Coupon>): (t: Cents)
    ensures t >= 0
    ensures selected.None? ==> t == (if entered.GetOr(0) > 0 then entered.GetOr(0) else 0)
    ensures selected.Some? && entered.GetOr(0) >= selected.value.amount ==> t == entered.GetOr(0) - selected.value.amount
    ensures selected.Some? && entered.GetOr(0) < selected.value.amount ==> t == 0
  {
    var total := entered.GetOr(0) - (if selected.Some? then selected.value.amount else 0);
    if total > 0 then total else 0
  }

  /** The body the page sends, as written: the coupon goes under `couponId`, only when one is chosen. */
  datatype CheckoutBody = CheckoutBody(tenantId: Id, totalAmount: Cents, items: string, couponId: Option<Id>)

  function BodyAsWritten(tenantId: Id, amount: Cents, items: string, selected: Option<Coupon>): (b: CheckoutBody)
    ensures b.tenantId == tenantId && b.totalAmount == amount && b.items == items
    ensures b.couponId.Some? <==> selected.Some?
    ensures selected.Some? ==> b.couponId == Some(selected.value.id)
  {
    CheckoutBody(tenantId, amount, items, if selected.Some? then Some(selected.value.id) else None)
  }

  /** What the order route reads from that body: `couponCode`, which the body does not have. */
  function RouteReads(b: CheckoutBody): (req: OrdersApi.OrderRequest)
    ensures req.tenantId == Some(b.tenantId) && req.totalAmount == Some(b.totalAmount) && req.items == Some(b.items)
    ensures req.couponCode.None?
  {
    OrdersApi.OrderRequest(Some(b.tenantId), Some(b.totalAmount), Some(b.items), None)
  }

  /** As written, no coupon chosen on the page is ever applied to the order. */
  lemma CouponIgnoredAsWritten(coupons: seq<Coupon>, tenantId: Id, amount: Cents, items: string, selected: Option<Coupon>)
    ensures OM.AppliedCoupon(coupons, amount, RouteReads(BodyAsWritten(tenantId, amount, items, selected)).couponCode).None?
  {
  }

  /**
   * The discrepancy on one input: an active 10.00 coupon with a 30.00
   * minimum on a 50.00 purchase. The page shows 40.00 due, but the order is
   * stored with no coupon and 50.00 paid, and the coupon stays active.
   */
  lemma ShownTotalIsNotChargedAsWritten()
    ensures var c := Coupon(7, 1, None, "CB1", 1000, 3000, None, Active, None);
            var req := RouteReads(BodyAsWritten(1, 5000, "[]", Some(c)));
            var applied := OM.AppliedCoupon([c], 5000, req.couponCode);
            && ShownTotal(Some(5000), Some(c)) == 4000
            && applied.None?
            && OM.NewOrder(0, 1, "N1", 5000, "[]", OM.CouponAmount(applied)).paidAmount == 5000
  {
  }

  /** The request with the coupon's code under `couponCode`, the field the route reads. */
  function Request(tenantId: Id, amount: Cents, items: string, selected: Option<Coupon>): (req: OrdersApi.OrderRequest)
    ensures req.tenantId == Some(tenantId) && req.totalAmount == Some(amount) && req.items == Some(items)
    ensures req.couponCode == if selected.Some? then Some(selected.value.code) else None
  {
    OrdersApi.OrderRequest(Some(tenantId), Some(amount), Some(items), if selected.Some? then Some(selected.value.code) else None)
  }

  /**
   * With the code sent, a chosen coupon that is stored, active and reached
   * is applied, and the order's paid amount is the total the page showed.
   */
  lemma ChosenCouponIsApplied(coupons: seq<Coupon>, tenantId: Id, amount: Cents, items: string, c: Coupon, id: Id, number: string)
    requires UniqueCouponCodes(coupons)
    requires c in coupons && c.code != "" && c.status == Active && c.amount >= 0
    requires amount >= c.minSpend && c.minSpend >= 3 * c.amount
    ensures OM.AppliedCoupon(coupons, amount, Request(tenantId, amount, items, Some(c)).couponCode) == Some(c)
    ensures OM.NewOrder(id, tenantId, number, amount, items, c.amount).paidAmount == ShownTotal(Some(amount), Some(c))
  {
    var applied := OM.AppliedCoupon(coupons, amount, Some(c.code));
    assert applied.Some?;
    var i :| 0 <= i < |coupons| && coupons[i] == c;
    var j :| 0 <= j < |coupons| && coupons[j] == applied.value;
    assert !(i < j) && !(j < i);
  }

  /** Without a coupon the order is paid in full: the page's total again. */
  lemma NoCouponPaysInFull(tenantId: Id, amount: Cents, items: string, coupons: seq<Coupon>, id: Id, number: string)
    requires amount > 0
    ensures OM.AppliedCoupon(coupons, amount, Request(tenantId, amount, items, None).couponCode).None?
    ensures OM.NewOrder(id, tenantId, number, amount, items, 0).paidAmount == ShownTotal(Some(amount), None)
  {
  }

  /** What pressing "pay" does. */
  datatype PayOutcome = NoTenant | InvalidAmount | BelowMinSpend(minSpend: Cents) | Submitted(req: OrdersApi.OrderRequest)

  /**
   * `handlePay`'s guards in order: no tenant (nothing happens), an amount
   * that is not a positive number, a chosen coupon whose minimum is not reached.
   */
  function PayDecision(tenant: Option<Id>, entered: Option<Cents>, selected: Option<Coupon>, items: string): (o: PayOutcome)
    ensures tenant.None? ==> o == NoTenant
    ensures tenant.Some? && (entered.None? || entered.value <= 0) ==> o == InvalidAmount
    ensures (&& tenant.Some? && entered.Some? && entered.value > 0
             && selected.Some? && entered.value < selected.value.minSpend) ==> o == BelowMinSpend(selected.value.minSpend)
    ensures o.Submitted? <==> (&& tenant.Some? && entered.Some? && entered.value > 0
                               && (selected.Some? ==> entered.value >= selected.value.minSpend))
    ensures o.Submitted? ==> o.req == Request(tenant.value, entered.value, items, selected)
  {
    if tenant.None? then NoTenant
    else if entered.None? || entered.value <= 0 then InvalidAmount
    else if selected.Some? && entered.value < selected.value.minSpend then BelowMinSpend(selected.value.minSpend)
    else Submitted(Request(tenant.value, entered.value, items, selected))
  }

  /** A coupon chosen before the amount dropped below its minimum is refused at payment. */
  lemma DisabledCouponIsRefused(tenant: Id, entered: Option<Cents>, c: Coupon, items: string)
    requires entered.Some? && entered.value > 0 && OptionDisabled(entered, c)
    ensures PayDecision(Some(tenant), entered, Some(c), items) == BelowMinSpend(c.minSpend)
  {
  }

  /** A submitted request passes the order route's field check. */
  lemma SubmittedRequestIsComplete(tenant: Option<Id>, entered: Option<Cents>, selected: Option<Coupon>, items: string,
                                   tenants: seq<Tenant>)
    requires PayDecision(tenant, entered, selected, items).Submitted?
    requires TenantManager.TenantById(tenants, tenant.value).Some?
    ensures OrdersApi.Guard(tenants, PayDecision(tenant, entered, selected, items).req).None?
  {
  }

  datatype Step = PhoneStep | PayStep | SuccessStep

  /** The page's state. */
  class CheckoutPage {
    var step: Step
    var tenant: Option<Id>
    var entered: Option<Cents>
    var selected: Option<Coupon>
    var orderId: Option<Id>

    constructor ()
      ensures step == PhoneStep && tenant.None? && entered.None? && selected.None? && orderId.None?
    {
      step, tenant, entered, selected, orderId := PhoneStep, None, None, None, None;
    }

    /** Choosing an option: a greyed-out coupon cannot be clicked; "no coupon" always can. */
    method SelectCoupon(c: Option<Coupon>)
      modifies this`selected
      ensures selected == if c.Some? && OptionDisabled(entered, c.value) then old(selected) else c
    {
      if !(c.Some? && OptionDisabled(entered, c.value)) {
        selected := c;
      }
    }

    /**
     * `handlePay`. `serve` is the order route: the id of the stored order,
     * or none when it answers with an error.
     */
    method Pay(items: string, serve: OrdersApi.OrderRequest -> Option<Id>) returns (outcome: PayOutcome)
      modifies this`step, this`orderId
      ensures outcome == PayDecision(tenant, entered, selected, items)
      ensures outcome.Submitted? && serve(outcome.req).Some? ==> orderId == serve(outcome.req) && step == SuccessStep
      ensures !(outcome.Submitted? && serve(outcome.req).Some?) ==> orderId == old(orderId) && step == old(step)
    {
      outcome := PayDecision(tenant, entered, selected, items);
      if outcome.Submitted? {
        var stored := serve(outcome.req);
        if stored.Some? {
          orderId := stored;
          step := SuccessStep;
        }
      }
    }

    /** The "done" button: back to the phone step with everything cleared. */
    method Finish()
      modifies this`step, this`entered, this`selected, this`orderId, this`tenant
      ensures step == PhoneStep && entered.None? && selected.None? && orderId.None? && tenant.None?
    {
      step, entered, selected, orderId, tenant := PhoneStep, None, None, None, None;
    }
  }
}

=== FILE: confirm_api.dfy ===
/**
 * `POST /api/payments/confirm`: an administrator confirms a pending
 * payment. The payment becomes completed with a timestamped remark, its
 * bill becomes paid, and an electricity payment earns a cashback coupon.
 * The guard chain here is shared with the reject handler.
 */
module ConfirmApi {
  import opened Wrappers
  import opened Money
  import opened Tables
  import opened Schema
  import opened Store
  import opened Http
  import opened CouponRules
  import opened AdminAuth
  import BillManager
  import CouponManager
  import PaymentManager

  /** The request body: the payment id (absent or empty is `None`) and the caller's phone (`None` only when absent). */
  datatype ApprovalRequest = ApprovalRequest(paymentId: Option<Id>, adminPhone: Option<string>)

  /** What a successful confirm or reject returns. */
  datatype Approval = Approval(message: string, coupon: Option<Coupon>)

  const NO_PERMISSION := "无权限操作"
  const MISSING_ID := "缺少支付ID"
  const UNKNOWN_PAYMENT := "支付记录不存在"
  const ALREADY_HANDLED := "该支付已处理"
  const CONFIRMED := "确认成功"
  const CONFIRM_NOTE := "商户确认收款"

  /**
   * The guards in the handlers' order: the caller must be on the allow-list
   * (403), name a payment (400) that exists (404) and is still pending (400).
   */
  function Guard(payments: seq<Payment>, env: Option<string>, req: ApprovalRequest): (r: Option<Response<Approval>>)
    ensures !Authorized(ConfirmAllowList(env), req.adminPhone) ==> r == Some(Fail(403, NO_PERMISSION))
    ensures Authorized(ConfirmAllowList(env), req.adminPhone) && req.paymentId.None? ==> r == Some(Fail(400, MISSING_ID))
    ensures (Authorized(ConfirmAllowList(env), req.adminPhone) && req.paymentId.Some?
             && PaymentManager.PaymentById(payments, req.paymentId.value).None?) ==> r == Some(Fail(404, UNKNOWN_PAYMENT))
    ensures (&& Authorized(ConfirmAllowList(env), req.adminPhone) && req.paymentId.Some?
             && PaymentManager.PaymentById(payments, req.paymentId.value).Some?
             && PaymentManager.PaymentById(payments, req.paymentId.value).value.status != PaymentPending)
            ==> r == Some(Fail(400, ALREADY_HANDLED))
    ensures r.None? <==> Authorized(ConfirmAllowList(env), req.adminPhone) && req.paymentId.Some?
                         && PaymentManager.PaymentById(payments, req.paymentId.value).Some?
                         && PaymentManager.PaymentById(payments, req.paymentId.value).value.status == PaymentPending
    ensures r.Some? ==> r.value.Fail?
  {
    if !Authorized(ConfirmAllowList(env), req.adminPhone) then Some(Fail(403, NO_PERMISSION))
    else if req.paymentId.None? then Some(Fail(400, MISSING_ID))
    else
      var p := PaymentManager.PaymentById(payments, req.paymentId.value);
      if p.None? then Some(Fail(404, UNKNOWN_PAYMENT))
      else if p.value.status != PaymentPending then Some(Fail(400, ALREADY_HANDLED))
      else None
  }

  /** The remark appended by an approval step: the old remarks (or ""), a newline, the stamped note. */
  function AppendNote(remarks: Option<string>, stamp: string, note: string): (r: string)
    ensures |r| > |remarks.GetOr("")| && r[..|remarks.GetOr("")|] == remarks.GetOr("")
    ensures r[|remarks.GetOr("")|..] == "\n[" + stamp + "] " + note
  {
    remarks.GetOr("") + "\n[" + stamp + "] " + note
  }

  /** The columns the confirm handler writes on the payment. */
  function ConfirmPatch(remarks: Option<string>, stamp: string): (patch: PaymentManager.PaymentPatch)
    ensures patch.status == Some(Completed)
    ensures patch.remarks == Some(Some(AppendNote(remarks, stamp, CONFIRM_NOTE)))
    ensures patch.tenantId.None? && patch.billId.None? && patch.amount.None? && patch.kind.None?
    ensures patch.paymentMethod.None? && patch.transactionId.None?
  {
    PaymentManager.PaymentPatch(None, None, None, None, None, None, Some(Completed),
                                Some(Some(AppendNote(remarks, stamp, CONFIRM_NOTE))))
  }

  /** The payment table after the confirm handler's payment update. */
  function ConfirmedPayments(payments: seq<Payment>, id: Id, stamp: string): (r: seq<Payment>)
    requires PaymentManager.PaymentById(payments, id).Some?
  {
    var p := PaymentManager.PaymentById(payments, id).value;
    UpdateWhere(payments, PaymentManager.IdIs(id), (x: Payment) => PaymentManager.ApplyPatch(x, ConfirmPatch(p.remarks, stamp)))
  }

  /**
   * Once confirmed, a payment is no longer pending: the same request, or a
   * reject of it, is refused with 400.
   */
  lemma ConfirmedAtMostOnce(payments: seq<Payment>, env: Option<string>, req: ApprovalRequest, stamp: string)
    requires DistinctBy(payments, (p: Payment) => p.id)
    requires Guard(payments, env, req).None?
    ensures Guard(ConfirmedPayments(payments, req.paymentId.value, stamp), env, req) == Some(Fail(400, ALREADY_HANDLED))
  {
    var id := req.paymentId.value;
    var p := PaymentManager.PaymentById(payments, id).value;
    var f := (x: Payment) => PaymentManager.ApplyPatch(x, ConfirmPatch(p.remarks, stamp));
    UpdateFinds(payments, PaymentManager.IdIs(id), f);
  }

  /**
   * The handler. `env` is `ADMIN_PHONES`, `now` the clock and `stamp` its
   * local-time text, `parse` the JSON reader of the rule table and `code`
   * the code for a possible coupon.
   */
  method Confirm(db: Db, env: Option<string>, req: ApprovalRequest, now: Time, stamp: string,
                 parse: string -> Option<seq<Rule>>, code: string)
    returns (resp: Response<Approval>)
    requires db.Valid()
    requires forall c :: c in db.coupons ==> c.code != code
    modifies db`payments, db`bills, db`coupons, db`nextId
    ensures db.Valid()
    ensures var g := Guard(old(db.payments), env, req);
            && (g.Some? ==> resp == g.value && db.payments == old(db.payments) && db.bills == old(db.bills)
                            && db.coupons == old(db.coupons) && db.nextId == old(db.nextId))
            && (g.None? ==>
                  var p := PaymentManager.PaymentById(old(db.payments), req.paymentId.value).value;
                  && resp.Ok? && resp.body.message == CONFIRMED
                  && db.payments == ConfirmedPayments(old(db.payments), p.id, stamp)
                  && db.bills == (if p.billId.Some?
                                  then BillManager.UpdateStatusWhere(old(db.bills), p.billId.value, Paid, Some(p.amount), Some(now))
                                  else old(db.bills))
                  && (p.billId.None? || p.kind != Electricity ==> resp.body.coupon.None? && db.coupons == old(db.coupons))
                  && (p.billId.Some? && p.kind == Electricity ==>
                        var d := CouponManager.IssueDecision(old(db.configs), old(db.coupons), parse,
                                                             p.tenantId, p.billId.value, p.amount);
                        && (d.None? ==> resp.body.coupon.None? && db.coupons == old(db.coupons))
                        && (d.Some? ==> resp.body.coupon == Some(CouponManager.IssuedCoupon(old(db.nextId), p.tenantId,
                                                                                             p.billId.value, code, d.value, now))
                                        && db.coupons == old(db.coupons) + [resp.body.coupon.value])))
  {
    var g := Guard(db.payments, env, req);
    if g.Some? {
      return g.value;
    }
    var p := PaymentManager.PaymentById(db.payments, req.paymentId.value).value;
    MarkConfirmed(db, p, stamp);
    var coupon := SettleConfirmed(db, p, now, parse, code);
    resp := Ok(Approval(CONFIRMED, coupon));
  }

  /** The payment step: completed, with the confirmation remark. */
  method MarkConfirmed(db: Db, p: Payment, stamp: string)
    requires db.Valid() && p in db.payments
    modifies db`payments
    ensures db.Valid()
    ensures db.payments == ConfirmedPayments(old(db.payments), p.id, stamp)
  {
    PaymentManager.PaymentByIdUnique(db.payments, p);
    var _ := PaymentManager.UpdatePayment(db, p.id, ConfirmPatch(p.remarks, stamp));
  }

  /** The bill and coupon steps: the bill becomes paid, and an electricity payment earns a coupon. */
  method SettleConfirmed(db: Db, p: Payment, now: Time, parse: string -> Option<seq<Rule>>, code: string)
    returns (coupon: Option<Coupon>)
    requires db.Valid()
    requires forall c :: c in db.coupons ==> c.code != code
    modifies db`bills, db`coupons, db`nextId
    ensures db.Valid()
    ensures db.bills == (if p.billId.Some?
                         then BillManager.UpdateStatusWhere(old(db.bills), p.billId.value, Paid, Some(p.amount), Some(now))
                         else old(db.bills))
    ensures p.billId.None? || p.kind != Electricity ==> coupon.None? && db.coupons == old(db.coupons)
    ensures p.billId.Some? && p.kind == Electricity ==>
              var d := CouponManager.IssueDecision(old(db.configs), old(db.coupons), parse, p.tenantId, p.billId.value, p.amount);
              && (d.None? ==> coupon.None? && db.coupons == old(db.coupons))
              && (d.Some? ==> coupon == Some(CouponManager.IssuedCoupon(old(db.nextId), p.tenantId, p.billId.value, code, d.value, now))
                              && db.coupons == old(db.coupons) + [coupon.value])
  {
    coupon := None;
    if p.billId.Some? {
      var _ := BillManager.UpdateBillStatus(db, p.billId.value, Paid, Some(p.amount), Some(now));
      if p.kind == Electricity {
        coupon := CouponManager.GenerateCouponByBill(db, p.tenantId, p.billId.value, p.amount, parse, now, code);
      }
    }
  }
}

=== FILE: coupon_manager.dfy ===
/**
 * The coupon manager: coupon queries, the cashback issuer that runs after an
 * electricity bill is paid, and redemption (`useCoupon`), all over the
 * coupon and coupon-usage tables of the store.
 */
module CouponManager {
  import opened Wrappers
  import opened Money
  import opened Tables
  import opened Schema
  import opened Store
  import opened CouponRules

  /** How long an issued coupon stays valid. */
  const COUPON_VALID_DAYS: int := 30

  predicate CouponMatches(c: Coupon, tenantId: Option<Id>, status: Option<CouponStatus>)
  {
    (tenantId.None? || c.tenantId == tenantId.value) && (status.None? || c.status == status.value)
  }

  /** `getCoupons`: the coupons matching every supplied filter, oldest first. */
  function GetCoupons(db: Db, tenantId: Option<Id>, status: Option<CouponStatus>): (r: seq<Coupon>)
    reads db
    ensures forall c :: c in r <==> c in db.coupons && CouponMatches(c, tenantId, status)
    ensures SubseqOf(r, db.coupons)
    ensures tenantId.None? && status.None? ==> r == db.coupons
  {
    var r := Filter(db.coupons, (c: Coupon) => CouponMatches(c, tenantId, status));
    if tenantId.None? && status.None? then
      FilterAll(db.coupons, (c: Coupon) => CouponMatches(c, tenantId, status));
      r
    else r
  }

  /** `getCouponById`: the coupon with that id, or none. */
  function CouponById(coupons: seq<Coupon>, id: Id): (r: Option<Coupon>)
    ensures r.None? <==> forall c :: c in coupons ==> c.id != id
    ensures r.Some? ==> r.value in coupons && r.value.id == id
  {
    FirstWhere(coupons, (c: Coupon) => c.id == id)
  }

  /** Ids are the primary key: the coupon found for a coupon's id is that coupon. */
  lemma CouponByIdFindsRow(coupons: seq<Coupon>, c: Coupon)
    requires UniqueCouponIds(coupons) && c in coupons
    ensures CouponById(coupons, c.id) == Some(c)
  {
    var i :| 0 <= i < |coupons| && coupons[i] == c;
    var found := CouponById(coupons, c.id).value;
    var j :| 0 <= j < |coupons| && coupons[j] == found;
    assert i == j by {
      assert UniqueCouponIds(coupons);
    }
  }

  /** `getCouponByCode`: codes are unique, so the coupon found is the only one with that code. */
  function CouponByCode(db: Db, code: string): (r: Option<Coupon>)
    reads db
    requires db.Valid()
    ensures r.None? <==> forall c :: c in db.coupons ==> c.code != code
    ensures r.Some? ==> r.value in db.coupons && r.value.code == code
    ensures r.Some? ==> forall c :: c in db.coupons && c.code == code ==> c == r.value
  {
    var r := FirstWhere(db.coupons, (c: Coupon) => c.code == code);
    assert r.Some? ==> forall c :: c in db.coupons && c.code == code ==> c == r.value by {
      if r.Some? {
        forall c | c in db.coupons && c.code == code ensures c == r.value {
          var i :| 0 <= i < |db.coupons| && db.coupons[i] == c;
          var j :| 0 <= j < |db.coupons| && db.coupons[j] == r.value;
          assert !(i < j) && !(j < i) by {
            assert UniqueCouponCodes(db.coupons);
          }
        }
      }
    }
    r
  }

  /** `createCoupon`: inserts one coupon, defaults applied, and returns it. */
  method CreateCoupon(db: Db, data: CouponInput) returns (coupon: Coupon)
    requires db.Valid()
    requires forall c :: c in db.coupons ==> c.code != data.code
    modifies db`coupons, db`nextId
    ensures db.Valid()
    ensures coupon == CouponRow(old(db.nextId), data)
    ensures db.coupons == old(db.coupons) + [coupon] && db.nextId == old(db.nextId) + 1
  {
    var id := db.FreshId();
    coupon := CouponRow(id, data);
    db.AddCoupon(coupon);
  }

  /** The coupon table after setting the status of the coupon with that id. */
  function SetStatus(coupons: seq<Coupon>, id: Id, status: CouponStatus): (r: seq<Coupon>)
    ensures |r| == |coupons|
    ensures forall i :: 0 <= i < |coupons| ==>
              r[i] == if coupons[i].id == id then coupons[i].(status := status) else coupons[i]
  {
    UpdateWhere(coupons, (c: Coupon) => c.id == id, (c: Coupon) => c.(status := status))
  }

  /** Setting a status keeps every code, so codes stay unique; setting it twice is setting it once. */
  lemma SetStatusSpec(coupons: seq<Coupon>, id: Id, status: CouponStatus)
    ensures UniqueCouponCodes(coupons) ==> UniqueCouponCodes(SetStatus(coupons, id, status))
    ensures SetStatus(SetStatus(coupons, id, status), id, status) == SetStatus(coupons, id, status)
    ensures forall c :: c in SetStatus(coupons, id, status) && c.id == id ==> c.status == status
  {
    var r := SetStatus(coupons, id, status);
    if UniqueCouponCodes(coupons) {
      forall i, j | 0 <= i < j < |r| ensures r[i].code != r[j].code {
        assert r[i].code == coupons[i].code && r[j].code == coupons[j].code;
      }
    }
  }

  /** The ids in a coupon table. */
  ghost function CouponIds(coupons: seq<Coupon>): set<Id>
  {
    set c | c in coupons :: c.id
  }

  /** Setting a status keeps the set of ids; with no coupon of that id it changes nothing. */
  lemma SetStatusSameIds(coupons: seq<Coupon>, id: Id, status: CouponStatus)
    ensures CouponIds(SetStatus(coupons, id, status)) == CouponIds(coupons)
    ensures id !in CouponIds(coupons) ==> SetStatus(coupons, id, status) == coupons
  {
    var r := SetStatus(coupons, id, status);
    forall x | x in CouponIds(r) ensures x in CouponIds(coupons) {
      var c :| c in r && c.id == x;
      var i :| 0 <= i < |r| && r[i] == c;
      assert coupons[i] in coupons;
    }
    forall x | x in CouponIds(coupons) ensures x in CouponIds(r) {
      var c :| c in coupons && c.id == x;
      var i :| 0 <= i < |coupons| && coupons[i] == c;
      assert r[i] in r;
    }
    if id !in CouponIds(coupons) {
      forall i | 0 <= i < |coupons| ensures r[i] == coupons[i] {
        assert coupons[i] in coupons;
      }
    }
  }

  /** With unique ids, the coupon found after a status change is the one found before, with the new status. */
  lemma SetStatusFinds(coupons: seq<Coupon>, id: Id, status: CouponStatus)
    requires UniqueCouponIds(coupons)
    ensures CouponById(SetStatus(coupons, id, status), id)
         == if CouponById(coupons, id).Some? then Some(CouponById(coupons, id).value.(status := status)) else None
  {
    var r := SetStatus(coupons, id, status);
    SetStatusSameIds(coupons, id, status);
    var before := CouponById(coupons, id);
    if before.Some? {
      var i :| 0 <= i < |coupons| && coupons[i] == before.value;
      assert r[i] == before.value.(status := status);
      var after := CouponById(r, id);
      var j :| 0 <= j < |r| && r[j] == after.value;
      assert coupons[j].id == id;
      assert i == j by {
        assert UniqueCouponIds(coupons);
      }
    }
  }

  /** `updateCouponStatus`: sets the status of the coupon with that id and returns the updated row. */
  method UpdateCouponStatus(db: Db, id: Id, status: CouponStatus) returns (coupon: Option<Coupon>)
    requires db.Valid()
    modifies db`coupons
    ensures db.Valid()
    ensures db.coupons == SetStatus(old(db.coupons), id, status)
    ensures coupon == CouponById(db.coupons, id)
    ensures coupon.None? <==> forall c :: c in old(db.coupons) ==> c.id != id
    ensures coupon.Some? ==> coupon.value.status == status
  {
    SetStatusSpec(db.coupons, id, status);
    SetStatusSameIds(db.coupons, id, status);
    db.SetCoupons(SetStatus(db.coupons, id, status));
    coupon := CouponById(db.coupons, id);
  }

  /** A usage row names the coupon: `coupon_usages.coupon_id` is a foreign key on coupons. */
  predicate CouponUsed(usages: seq<CouponUsage>, id: Id)
  {
    exists u :: u in usages && u.couponId == id
  }

  /**
   * `deleteCoupon`: removes the coupon with that id; true iff a row was
   * removed. The foreign key has no cascade, so once the coupon has a usage
   * row the database refuses the delete and nothing changes.
   */
  method DeleteCoupon(db: Db, id: Id) returns (r: Outcome<bool>)
    requires db.Valid()
    modifies db`coupons
    ensures db.Valid()
    ensures r.Refused? <==> CouponById(old(db.coupons), id).Some? && CouponUsed(db.usages, id)
    ensures r.Refused? ==> db.coupons == old(db.coupons)
    ensures r.Done? ==> db.coupons == DeleteWhere(old(db.coupons), (c: Coupon) => c.id == id)
    ensures r.Done? ==> (r.value <==> exists c :: c in old(db.coupons) && c.id == id)
    ensures r.Done? ==> forall c :: c in db.coupons <==> c in old(db.coupons) && c.id != id
  {
    if CouponById(db.coupons, id).Some? && CouponUsed(db.usages, id) {
      return Refused;
    }
    var before := db.coupons;
    var after := DeleteWhere(before, (c: Coupon) => c.id == id);
    DistinctBySubseq(after, before, (c: Coupon) => c.id);
    DistinctBySubseq(after, before, (c: Coupon) => c.code);
    db.SetCoupons(after);
    r := Done(|after| < |before|);
  }

  // ---------------------------------------------------------------------------
  // Issuing a cashback coupon for a paid electricity bill.

  /**
   * The tier the configured rule table awards for `amount`: none when the
   * `electricity_return_rule` row is missing, its text does not parse, or no
   * tier is reached; otherwise the reached tier with the highest minimum.
   */
  function AwardedRule(configs: seq<ConfigRow>, parse: string -> Option<seq<Rule>>, amount: Cents): (r: Option<Rule>)
    ensures ConfigByKey(configs, RULE_CONFIG_KEY).None? ==> r.None?
    ensures r.Some? ==>
              var rules := parse(ConfigByKey(configs, RULE_CONFIG_KEY).value.value);
              && rules.Some? && r.value in rules.value && r.value.minAmount <= amount
              && forall x :: x in rules.value && x.minAmount <= amount ==> x.minAmount <= r.value.minAmount
    ensures r.None? && ConfigByKey(configs, RULE_CONFIG_KEY).Some? ==>
              var rules := parse(ConfigByKey(configs, RULE_CONFIG_KEY).value.value);
              rules.None? || forall x :: x in rules.value ==> amount < x.minAmount
  {
    match ConfigByKey(configs, RULE_CONFIG_KEY)
    case None => None
    case Some(config) =>
      match parse(config.value)
      case None => None
      case Some(rules) =>
        BestRuleSpec(rules, amount);
        BestRule(rules, amount)
  }

  /** Whether the tenant holds an active coupon issued for this bill. */
  predicate HasActiveBillCoupon(coupons: seq<Coupon>, tenantId: Id, billId: Id)
  {
    exists c :: c in coupons && c.tenantId == tenantId && c.status == Active && c.billId == Some(billId)
  }

  /**
   * What `generateCouponByBill` decides: the tier to issue a coupon for, or
   * none. A coupon is issued exactly when a tier is awarded and the tenant
   * holds no active coupon for the bill.
   */
  function IssueDecision(configs: seq<ConfigRow>, coupons: seq<Coupon>, parse: string -> Option<seq<Rule>>,
                         tenantId: Id, billId: Id, amount: Cents): (r: Option<Rule>)
    ensures r.Some? <==> AwardedRule(configs, parse, amount).Some? && !HasActiveBillCoupon(coupons, tenantId, billId)
    ensures r.Some? ==> r == AwardedRule(configs, parse, amount)
  {
    if HasActiveBillCoupon(coupons, tenantId, billId) then None else AwardedRule(configs, parse, amount)
  }

  /** The coupon issued for a tier. */
  function IssuedCoupon(id: Id, tenantId: Id, billId: Id, code: string, rule: Rule, now: Time): (c: Coupon)
    ensures c.id == id && c.tenantId == tenantId && c.billId == Some(billId) && c.code == code
    ensures c.status == Active
    ensures c.amount == rule.returnAmount
    ensures c.minSpend % CENTS_PER_YUAN == 0 && 3 * c.amount <= c.minSpend < 3 * c.amount + CENTS_PER_YUAN
    ensures c.validUntil == Some(now + COUPON_VALID_DAYS * DAY_MS)
    ensures c.description == Some(Description(YuanText(c.amount), c.minSpend / CENTS_PER_YUAN))
  {
    var minSpend := MinSpendFor(rule.returnAmount);
    Coupon(id, tenantId, Some(billId), code, rule.returnAmount, minSpend,
           Some(Description(YuanText(rule.returnAmount), minSpend / CENTS_PER_YUAN)),
           Active, Some(now + COUPON_VALID_DAYS * DAY_MS))
  }

  /**
   * `generateCouponByBill`. The rule table is read from the config row and
   * parsed by `parse` (none when the text is not valid JSON); `now` is the
   * clock and `code` the generated coupon code, which the unique constraint
   * requires to be unused.
   */
  method GenerateCouponByBill(db: Db, tenantId: Id, billId: Id, billAmount: Cents,
                              parse: string -> Option<seq<Rule>>, now: Time, code: string)
    returns (coupon: Option<Coupon>)
    requires db.Valid()
    requires forall c :: c in db.coupons ==> c.code != code
    modifies db`coupons, db`nextId
    ensures db.Valid()
    ensures var d := IssueDecision(old(db.configs), old(db.coupons), parse, tenantId, billId, billAmount);
            && (d.None? ==> coupon.None? && db.coupons == old(db.coupons) && db.nextId == old(db.nextId))
            && (d.Some? ==> coupon == Some(IssuedCoupon(old(db.nextId), tenantId, billId, code, d.value, now))
                            && db.coupons == old(db.coupons) + [coupon.value] && db.nextId == old(db.nextId) + 1)
  {
    var rule := DecideIssue(db, tenantId, billId, billAmount, parse);
    if rule.None? {
      return None;
    }
    var id := db.FreshId();
    var issued := IssuedCoupon(id, tenantId, billId, code, rule.value, now);
    db.AddCoupon(issued);
    coupon := Some(issued);
  }

  /**
   * The checks of `generateCouponByBill` before its insert: read and parse
   * the rule table, match the tier, then look for an active coupon the
   * tenant already holds for the bill.
   */
  method DecideIssue(db: Db, tenantId: Id, billId: Id, billAmount: Cents, parse: string -> Option<seq<Rule>>)
    returns (rule: Option<Rule>)
    ensures rule == IssueDecision(db.configs, db.coupons, parse, tenantId, billId, billAmount)
  {
    var config := ConfigByKey(db.configs, RULE_CONFIG_KEY);
    if config.None? {
      return None;
    }
    var rules := parse(config.value.value);
    if rules.None? {
      return None;
    }
    var matched := MatchRule(rules.value, billAmount);
    if matched.None? {
      return None;
    }
    var existing := GetCoupons(db, Some(tenantId), Some(Active));
    if exists c :: c in existing && c.billId == Some(billId) {
      return None;
    }
    rule := matched;
  }

  /** At most one active coupon per (tenant, bill). */
  ghost predicate OneActiveCouponPerBill(coupons: seq<Coupon>)
  {
    forall i, j ::
      (0 <= i < j < |coupons| && coupons[i].status == Active && coupons[j].status == Active
       && coupons[i].tenantId == coupons[j].tenantId && coupons[i].billId.Some?)
      ==> coupons[i].billId != coupons[j].billId
  }

  /** Issuing keeps at most one active coupon per bill, and a repeated call for the same bill issues nothing. */
  lemma IssueKeepsOneActivePerBill(configs: seq<ConfigRow>, coupons: seq<Coupon>, parse: string -> Option<seq<Rule>>,
                                   tenantId: Id, billId: Id, amount: Cents, id: Id, code: string, now: Time)
    requires OneActiveCouponPerBill(coupons)
    requires IssueDecision(configs, coupons, parse, tenantId, billId, amount).Some?
    ensures var c := IssuedCoupon(id, tenantId, billId, code, IssueDecision(configs, coupons, parse, tenantId, billId, amount).value, now);
            && OneActiveCouponPerBill(coupons + [c])
            && IssueDecision(configs, coupons + [c], parse, tenantId, billId, amount).None?
  {
    var c := IssuedCoupon(id, tenantId, billId, code, IssueDecision(configs, coupons, parse, tenantId, billId, amount).value, now);
    var t := coupons + [c];
    forall i, j | 0 <= i < j < |t| && t[i].status == Active && t[j].status == Active
        && t[i].tenantId == t[j].tenantId && t[i].billId.Some?
      ensures t[i].billId != t[j].billId
    {
      if j == |coupons| {
        assert t[i] in coupons;
      }
    }
    assert c in t;
  }

  /** Used coupons do not block issuance: only an active coupon for the bill does. */
  lemma UsedCouponsDoNotBlock(configs: seq<ConfigRow>, coupons: seq<Coupon>, parse: string -> Option<seq<Rule>>,
                              tenantId: Id, billId: Id, amount: Cents)
    requires forall c :: c in coupons && c.tenantId == tenantId && c.billId == Some(billId) ==> c.status == Used
    ensures IssueDecision(configs, coupons, parse, tenantId, billId, amount) == AwardedRule(configs, parse, amount)
  {
  }

  /** Once the issued coupon is used, paying the same bill again issues a second coupon. */
  lemma ReissueAfterUse(configs: seq<ConfigRow>, coupons: seq<Coupon>, parse: string -> Option<seq<Rule>>,
                        tenantId: Id, billId: Id, amount: Cents, id: Id, code: string, now: Time)
    requires forall c :: c in coupons ==> c.id != id
    requires IssueDecision(configs, coupons, parse, tenantId, billId, amount).Some?
    ensures var c := IssuedCoupon(id, tenantId, billId, code, IssueDecision(configs, coupons, parse, tenantId, billId, amount).value, now);
            IssueDecision(configs, SetStatus(coupons + [c], id, Used), parse, tenantId, billId, amount).Some?
  {
    var c := IssuedCoupon(id, tenantId, billId, code, IssueDecision(configs, coupons, parse, tenantId, billId, amount).value, now);
    var t := SetStatus(coupons + [c], id, Used);
    forall x | x in t && x.tenantId == tenantId && x.billId == Some(billId) ensures x.status != Active {
      var i :| 0 <= i < |t| && t[i] == x;
      if i < |coupons| {
        assert (coupons + [c])[i] == coupons[i];
        assert coupons[i] in coupons;
        if coupons[i].id != id {
          assert coupons[i] in coupons;
        }
      }
    }
  }

  // ---------------------------------------------------------------------------
  // Redemption.

  /** The usage row `useCoupon` records for a coupon redeemed on an order. */
  function UsageFor(id: Id, coupon: Coupon, orderId: Id): (u: CouponUsage)
    ensures u.id == id && u.couponId == coupon.id && u.tenantId == coupon.tenantId
    ensures u.orderId == Some(orderId) && u.amount == coupon.amount
  {
    CouponUsage(id, coupon.id, coupon.tenantId, Some(orderId), coupon.amount)
  }

  /**
   * `useCoupon`: marks the coupon used whatever its status was, then, if it
   * exists, records one usage row with the coupon's tenant and amount.
   * Returns the updated coupon, or none for an unknown id.
   */
  method UseCoupon(db: Db, couponId: Id, orderId: Id) returns (coupon: Option<Coupon>)
    requires db.Valid()
    modifies db`coupons, db`usages, db`nextId
    ensures db.Valid()
    ensures db.coupons == SetStatus(old(db.coupons), couponId, Used)
    ensures coupon.None? <==> forall c :: c in old(db.coupons) ==> c.id != couponId
    ensures coupon.None? ==> db.usages == old(db.usages) && db.coupons == old(db.coupons) && db.nextId == old(db.nextId)
    ensures coupon.Some? ==>
              && coupon == Some(CouponById(old(db.coupons), couponId).value.(status := Used))
              && db.usages == old(db.usages) + [UsageFor(old(db.nextId), coupon.value, orderId)]
              && db.nextId == old(db.nextId) + 1
  {
    SetStatusFinds(db.coupons, couponId, Used);
    SetStatusSameIds(db.coupons, couponId, Used);
    coupon := UpdateCouponStatus(db, couponId, Used);
    var current := CouponById(db.coupons, couponId);
    RecordUsage(db, current, orderId);
  }

  /** The usage insert of `useCoupon`, made only when the coupon was found. */
  method RecordUsage(db: Db, coupon: Option<Coupon>, orderId: Id)
    requires db.Valid()
    modifies db`usages, db`nextId
    ensures db.Valid()
    ensures coupon.None? ==> db.usages == old(db.usages) && db.nextId == old(db.nextId)
    ensures coupon.Some? ==> db.usages == old(db.usages) + [UsageFor(old(db.nextId), coupon.value, orderId)]
                             && db.nextId == old(db.nextId) + 1
  {
    if coupon.Some? {
      var id := db.FreshId();
      db.AddUsage(UsageFor(id, coupon.value, orderId));
    }
  }
}

=== FILE: coupon_rules.dfy ===
/**
 * Resolution of a paid amount against the cashback rule table stored under
 * `electricity_return_rule`: the rules are sorted by `minAmount`, highest
 * first, and the first rule whose `minAmount` the amount reaches wins.
 */
module CouponRules {
  import opened Wrappers
  import opened Money
  import opened Tables

  /** One cashback tier: paying at least `minAmount` earns a coupon worth `returnAmount`. */
  datatype Rule = Rule(minAmount: Cents, returnAmount: Cents)

  const RULE_CONFIG_KEY: string := "electricity_return_rule"

  predicate Qualifies(r: Rule, amount: Cents)
  {
    amount >= r.minAmount
  }

  ghost predicate SortedByMinDesc(s: seq<Rule>)
  {
    forall i, j :: 0 <= i < j < |s| ==> s[i].minAmount >= s[j].minAmount
  }

  /** Places `r` before the first rule of `s` whose `minAmount` is not larger (keeps ties in order). */
  function InsertByMinDesc(r: Rule, s: seq<Rule>): seq<Rule>
    decreases |s|
  {
    if s == [] then [r]
    else if s[0].minAmount > r.minAmount then [s[0]] + InsertByMinDesc(r, s[1..])
    else [r] + s
  }

  /** `rules.sort((a, b) => b.minAmount - a.minAmount)`: a stable sort, highest minimum first. */
  function SortByMinDesc(rules: seq<Rule>): seq<Rule>
    decreases |rules|
  {
    if rules == [] then [] else InsertByMinDesc(rules[0], SortByMinDesc(rules[1..]))
  }

  lemma {:induction false} InsertSameRules(r: Rule, s: seq<Rule>)
    ensures multiset(InsertByMinDesc(r, s)) == multiset(s) + multiset{r}
    decreases |s|
  {
    if s != [] && s[0].minAmount > r.minAmount {
      InsertSameRules(r, s[1..]);
      assert s == [s[0]] + s[1..];
    }
  }

  lemma {:induction false} InsertKeepsOrder(r: Rule, s: seq<Rule>)
    requires SortedByMinDesc(s)
    ensures SortedByMinDesc(InsertByMinDesc(r, s))
    decreases |s|
  {
    if s != [] && s[0].minAmount > r.minAmount {
      InsertKeepsOrder(r, s[1..]);
      var t := InsertByMinDesc(r, s[1..]);
      InsertSameRules(r, s[1..]);
      forall k | 0 <= k < |t| ensures s[0].minAmount >= t[k].minAmount {
        assert t[k] in multiset(t);
        if t[k] != r {
          assert t[k] in multiset(s[1..]);
          var m :| 0 <= m < |s[1..]| && s[1..][m] == t[k];
          assert s[m + 1] == t[k];
        }
      }
      assert InsertByMinDesc(r, s) == [s[0]] + t;
    }
  }

  /** The sort yields the same rules, highest minimum first. */
  lemma {:induction false} SortByMinDescSpec(rules: seq<Rule>)
    ensures SortedByMinDesc(SortByMinDesc(rules))
    ensures multiset(SortByMinDesc(rules)) == multiset(rules)
    decreases |rules|
  {
    if rules != [] {
      SortByMinDescSpec(rules[1..]);
      InsertKeepsOrder(rules[0], SortByMinDesc(rules[1..]));
      InsertSameRules(rules[0], SortByMinDesc(rules[1..]));
      assert rules == [rules[0]] + rules[1..];
    }
  }

  /**
   * The reference choice, read off the rules in their configured order: the
   * qualifying rule with the largest `minAmount`, the earliest one among equals.
   */
  function BestRule(rules: seq<Rule>, amount: Cents): Option<Rule>
    decreases |rules|
  {
    if rules == [] then None
    else Prefer(rules[0], BestRule(rules[1..], amount), amount)
  }

  /** `r` if it qualifies and is at least as high as the current choice, else the current choice. */
  function Prefer(r: Rule, current: Option<Rule>, amount: Cents): Option<Rule>
  {
    if Qualifies(r, amount) && (current.None? || r.minAmount >= current.value.minAmount)
    then Some(r) else current
  }

  /** The reference choice is a configured, qualifying rule no qualifying rule outranks; none only if no rule qualifies. */
  lemma {:induction false} BestRuleSpec(rules: seq<Rule>, amount: Cents)
    ensures BestRule(rules, amount).None? <==> forall r :: r in rules ==> !Qualifies(r, amount)
    ensures BestRule(rules, amount).Some? ==>
              var b := BestRule(rules, amount).value;
              b in rules && Qualifies(b, amount) &&
              forall r :: r in rules && Qualifies(r, amount) ==> r.minAmount <= b.minAmount
    decreases |rules|
  {
    if rules != [] {
      BestRuleSpec(rules[1..], amount);
      assert forall r :: r in rules ==> r == rules[0] || r in rules[1..];
    }
  }

  /** Scanning the descending sort for the first qualifying rule picks the reference choice. */
  lemma {:induction false} ScanOfSortedIsBest(rules: seq<Rule>, amount: Cents)
    ensures FirstWhere(SortByMinDesc(rules), (r: Rule) => Qualifies(r, amount)) == BestRule(rules, amount)
    decreases |rules|
  {
    if rules != [] {
      SortByMinDescSpec(rules[1..]);
      ScanOfSortedIsBest(rules[1..], amount);
      ScanOfInsert(rules[0], SortByMinDesc(rules[1..]), amount);
    }
  }

  lemma {:induction false} ScanOfInsert(r: Rule, s: seq<Rule>, amount: Cents)
    requires SortedByMinDesc(s)
    ensures FirstWhere(InsertByMinDesc(r, s), (x: Rule) => Qualifies(x, amount))
         == Prefer(r, FirstWhere(s, (x: Rule) => Qualifies(x, amount)), amount)
    decreases |s|
  {
    var q := (x: Rule) => Qualifies(x, amount);
    if s != [] {
      if s[0].minAmount > r.minAmount {
        ScanOfInsert(r, s[1..], amount);
        assert InsertByMinDesc(r, s)[1..] == InsertByMinDesc(r, s[1..]);
      } else {
        var f := FirstWhere(s, q);
        if f.Some? {
          var i :| 0 <= i < |s| && s[i] == f.value;
          assert s[0].minAmount >= s[i].minAmount;
        }
        assert ([r] + s)[1..] == s;
      }
    }
  }

  /**
   * The tier lookup of `generateCouponByBill`: sort a copy of the rules,
   * highest minimum first, then take the first rule the amount reaches.
   */
  method MatchRule(rules: seq<Rule>, amount: Cents) returns (matched: Option<Rule>)
    ensures matched == BestRule(rules, amount)
    ensures matched.None? <==> forall r :: r in rules ==> amount < r.minAmount
    ensures matched.Some? ==> matched.value in rules && matched.value.minAmount <= amount
    ensures matched.Some? ==> forall r :: r in rules && r.minAmount <= amount ==> r.minAmount <= matched.value.minAmount
  {
    var sorted := SortByMinDesc(rules);
    matched := None;
    for i := 0 to |sorted|
      invariant matched.None?
      invariant forall j :: 0 <= j < i ==> !Qualifies(sorted[j], amount)
    {
      if amount >= sorted[i].minAmount {
        matched := Some(sorted[i]);
        assert matched == FirstWhere(sorted, (r: Rule) => Qualifies(r, amount)) by {
          FirstAfterMisses(sorted, (r: Rule) => Qualifies(r, amount), i);
        }
        break;
      }
    }
    if matched.None? {
      FirstAfterMisses(sorted, (r: Rule) => Qualifies(r, amount), |sorted|);
    }
    ScanOfSortedIsBest(rules, amount);
    BestRuleSpec(rules, amount);
  }

  /** When the rows before `i` all miss, the first match is at `i` (or there is none when `i` is the end). */
  lemma {:induction false} FirstAfterMisses(s: seq<Rule>, p: Rule -> bool, i: nat)
    requires i <= |s|
    requires forall j :: 0 <= j < i ==> !p(s[j])
    requires i < |s| ==> p(s[i])
    ensures FirstWhere(s, p) == if i < |s| then Some(s[i]) else None
    decreases i
  {
    if i > 0 {
      FirstAfterMisses(s[1..], p, i - 1);
    }
  }

  /** The coupon amount a rule awards and the minimum spend the issuer derives from it. */
  function CouponMinSpend(r: Rule): (m: Cents)
    ensures 3 * r.returnAmount <= m < 3 * r.returnAmount + 100
  {
    MinSpendFor(r.returnAmount)
  }
}

=== FILE: debug_rooms_api.dfy ===
/**
 * `GET /api/debug/rooms`: the same fetch and grouping as the check-in page,
 * reported with the number of rooms fetched and the number of groups. It
 * only reads the store.
 */
module DebugRoomsApi {
  import opened Schema
  import opened Store
  import opened RoomGrouping
  import RM = RoomManager
  import CheckInPage

  datatype DebugReply =
    | Debug(totalRooms: nat, groupedRooms: nat, groups: seq<RoomGroup>)
    | Failed(status: int)

  /**
   * A failed fetch is a 500. Otherwise the groups are the check-in page's,
   * `totalRooms` is the number of available rooms, `groupedRooms` the number
   * of distinct room types among them, and the group sizes add up to
   * `totalRooms`.
   */
  method GetDebugRooms(db: Db, fetchFailed: bool) returns (reply: DebugReply)
    ensures fetchFailed <==> reply == Failed(500)
    ensures reply.Debug? ==>
      && reply.groups == Grouping(CheckInPage.AvailableRooms(db, false))
      && reply.totalRooms == |RM.GetRooms(db, RM.AVAILABLE_ROOMS)|
      && reply.groupedRooms == |reply.groups|
      && reply.groupedRooms == |set r | r in RM.GetRooms(db, RM.AVAILABLE_ROOMS) :: GroupKey(r)|
      && TotalSize(reply.groups) == reply.totalRooms
  {
    if fetchFailed {
      return Failed(500);
    }
    var rooms := RM.GetRooms(db, RM.AVAILABLE_ROOMS);
    var groups := GroupByRoomType(rooms);
    GroupSizesSum(rooms);
    GroupCountIsKeyCount(rooms);
    reply := Debug(|rooms|, |groups|, groups);
  }
}

=== FILE: electricity_rules_page.dfy ===
/**
 * The admin page that edits the cashback rule table: an editable list of
 * tiers, an input tier, and the index of the tier being edited. Adding
 * checks positivity and a repeated minimum, updating and deleting work by
 * index, the list is shown sorted (the sort rearranges the page's own list),
 * and saving writes the whole list under `electricity_return_rule`.
 */
module ElectricityRulesPage {
  import opened Wrappers
  import opened Money
  import opened Tables
  import opened Schema
  import opened CouponRules
  import CouponManager
  import SystemConfigApi

  /** The tiers shown before anything is loaded: 200 → 20, 300 → 30, 500 → 50. */
  const DEFAULT_RULES: seq<Rule> := [Rule(20000, 2000), Rule(30000, 3000), Rule(50000, 5000)]
  /** The cleared input. */
  const BLANK := Rule(0, 0)
  const SAVE_DESCRIPTION := "电费满返规则（单次支付）"

  /** What pressing "add" does. */
  datatype AddOutcome = Added | Duplicate | Ignored

  /** One row of the rule list: the tier and the minimum spend its coupon will carry. */
  datatype RuleRow = RuleRow(minAmount: Cents, returnAmount: Cents, minSpend: Cents)

  predicate Positive(r: Rule)
  {
    r.minAmount > 0 && r.returnAmount > 0
  }

  predicate HasMinimum(rules: seq<Rule>, m: Cents)
  {
    exists x :: x in rules && x.minAmount == m
  }

  /** Positive tiers are added unless one with the same minimum exists; others are ignored. */
  function AddOutcomeOf(rules: seq<Rule>, r: Rule): (o: AddOutcome)
    ensures o == Added <==> Positive(r) && forall x :: x in rules ==> x.minAmount != r.minAmount
    ensures o == Duplicate <==> Positive(r) && HasMinimum(rules, r.minAmount)
    ensures o == Ignored <==> !Positive(r)
  {
    if !Positive(r) then Ignored
    else if HasMinimum(rules, r.minAmount) then Duplicate
    else Added
  }

  /** The list after pressing "add" with input `r`. */
  function AfterAdd(rules: seq<Rule>, r: Rule): (s: seq<Rule>)
    ensures AddOutcomeOf(rules, r) == Added ==> s == rules + [r]
    ensures AddOutcomeOf(rules, r) != Added ==> s == rules
  {
    if AddOutcomeOf(rules, r) == Added then rules + [r] else rules
  }

  /**
   * `newRules[i] = r`: the tier at `i` is replaced, whatever its values;
   * an index at or past the end (left stale by a delete) appends.
   */
  function ReplaceAt(rules: seq<Rule>, i: nat, r: Rule): (s: seq<Rule>)
    ensures i < |rules| ==> |s| == |rules| && s[i] == r && forall j :: 0 <= j < |rules| && j != i ==> s[j] == rules[j]
    ensures i >= |rules| ==> s == rules + [r]
  {
    if i < |rules| then rules[i := r] else rules + [r]
  }

  /** `rules.filter((_, j) => j !== i)`. */
  function RemoveAt(rules: seq<Rule>, i: nat): (s: seq<Rule>)
    ensures i < |rules| ==> |s| == |rules| - 1
    ensures i < |rules| ==> forall j :: 0 <= j < |s| ==> s[j] == if j < i then rules[j] else rules[j + 1]
    ensures i >= |rules| ==> s == rules
  {
    if i < |rules| then rules[..i] + rules[i + 1..] else rules
  }

  /** Deleting takes out exactly the tier at the index. */
  lemma RemoveAtTakesOne(rules: seq<Rule>, i: nat)
    requires i < |rules|
    ensures multiset(RemoveAt(rules, i)) + multiset{rules[i]} == multiset(rules)
  {
    assert rules == rules[..i] + [rules[i]] + rules[i + 1..];
  }

  /** Adding and deleting never produce two tiers with the same minimum; updating can. */
  lemma AddKeepsMinimaDistinct(rules: seq<Rule>, r: Rule)
    requires DistinctBy(rules, (x: Rule) => x.minAmount)
    ensures DistinctBy(AfterAdd(rules, r), (x: Rule) => x.minAmount)
  {
    if AddOutcomeOf(rules, r) == Added {
      DistinctByAppend(rules, (x: Rule) => x.minAmount, r);
    }
  }

  lemma RemoveKeepsMinimaDistinct(rules: seq<Rule>, i: nat)
    requires DistinctBy(rules, (x: Rule) => x.minAmount)
    ensures DistinctBy(RemoveAt(rules, i), (x: Rule) => x.minAmount)
  {
    var s := RemoveAt(rules, i);
    forall a, b | 0 <= a < b < |s| ensures s[a].minAmount != s[b].minAmount {
      var a', b' := if a < i then a else a + 1, if b < i then b else b + 1;
      assert s[a] == rules[a'] && s[b] == rules[b'] && a' < b';
    }
  }

  /** The update has no duplicate check: it can give two tiers the same minimum. */
  lemma UpdateCanRepeatMinimum()
    ensures var rules := DEFAULT_RULES;
            && DistinctBy(rules, (x: Rule) => x.minAmount)
            && !DistinctBy(ReplaceAt(rules, 0, Rule(30000, 1)), (x: Rule) => x.minAmount)
  {
    var after := ReplaceAt(DEFAULT_RULES, 0, Rule(30000, 1));
    assert after[0].minAmount == after[1].minAmount;
  }

  /** Deleting the tier just added gives back the list as it was. */
  lemma AddThenDeleteRestores(rules: seq<Rule>, r: Rule)
    requires AddOutcomeOf(rules, r) == Added
    ensures RemoveAt(AfterAdd(rules, r), |rules|) == rules
  {
    assert (rules + [r])[..|rules|] == rules;
  }

  /** The rows shown for the list: each tier with `Math.ceil(3 × returnAmount)` as its minimum spend. */
  function RowsOf(rules: seq<Rule>): (rows: seq<RuleRow>)
    ensures |rows| == |rules|
    ensures forall i :: 0 <= i < |rules| ==>
              rows[i].minAmount == rules[i].minAmount && rows[i].returnAmount == rules[i].returnAmount
    ensures forall i :: 0 <= i < |rules| ==>
              rows[i].minSpend % CENTS_PER_YUAN == 0
              && 3 * rules[i].returnAmount <= rows[i].minSpend < 3 * rules[i].returnAmount + CENTS_PER_YUAN
  {
    seq(|rules|, i requires 0 <= i < |rules| => RuleRow(rules[i].minAmount, rules[i].returnAmount, CouponMinSpend(rules[i])))
  }

  /** The minimum spend a row shows is the one the coupon issued for that tier carries. */
  lemma ShownMinSpendIsIssued(rules: seq<Rule>, i: nat, id: Id, tenantId: Id, billId: Id, code: string, now: Time)
    requires i < |rules|
    ensures RowsOf(rules)[i].minSpend == CouponManager.IssuedCoupon(id, tenantId, billId, code, rules[i], now).minSpend
  {
  }

  /**
   * The `POST /api/system-config` body the save button sends; `encode` is
   * `JSON.stringify`. The page hides the button while the list is empty; the
   * model builds the body for any list.
   */
  function SaveRequest(rules: seq<Rule>, encode: seq<Rule> -> string): (req: SystemConfigApi.ConfigPost)
    ensures req.key == Some(RULE_CONFIG_KEY) && req.value == Some(encode(rules))
    ensures req.description == Some(SAVE_DESCRIPTION)
  {
    SystemConfigApi.ConfigPost(Some(RULE_CONFIG_KEY), Some(encode(rules)), Some(SAVE_DESCRIPTION))
  }

  /**
   * Once saved, the list is the table the coupon issuer resolves against:
   * for every paid amount it awards the tier `BestRule` picks from the list.
   */
  lemma SavedRulesDriveIssuing(configs: seq<ConfigRow>, rules: seq<Rule>, encode: seq<Rule> -> string,
                               parse: string -> Option<seq<Rule>>, id: Id, amount: Cents)
    requires UniqueConfigKeys(configs)
    requires parse(encode(rules)) == Some(rules)
    ensures CouponManager.AwardedRule(SystemConfigApi.Upserted(configs, RULE_CONFIG_KEY, encode(rules),
                                                               Some(SAVE_DESCRIPTION), id), parse, amount)
            == BestRule(rules, amount)
  {
    SystemConfigApi.UpsertFinds(configs, RULE_CONFIG_KEY, encode(rules), Some(SAVE_DESCRIPTION), id);
  }

  /** The page's state. */
  class RulesEditor {
    var rules: seq<Rule>
    var current: Rule
    var editIndex: Option<nat>

    constructor ()
      ensures rules == DEFAULT_RULES && current == BLANK && editIndex == None
    {
      rules, current, editIndex := DEFAULT_RULES, BLANK, None;
    }

    /** `loadRules`: a stored table that parses replaces the list; otherwise the list stays. */
    method Load(stored: Option<seq<Rule>>)
      modifies this`rules
      ensures rules == if stored.Some? then stored.value else old(rules)
    {
      if stored.Some? {
        rules := stored.value;
      }
    }

    /** Typing into the two inputs. */
    method SetInput(r: Rule)
      modifies this`current
      ensures current == r
    {
      current := r;
    }

    /**
     * `handleAddRule`. The page hides the add button while a tier is being
     * edited; the model allows an add in either mode.
     */
    method AddRule() returns (outcome: AddOutcome)
      modifies this`rules, this`current
      ensures outcome == AddOutcomeOf(old(rules), old(current))
      ensures rules == AfterAdd(old(rules), old(current))
      ensures current == if outcome == Added then BLANK else old(current)
    {
      outcome := AddOutcomeOf(rules, current);
      if outcome == Added {
        rules := rules + [current];
        current := BLANK;
      }
    }

    /** `handleEditRule`: the row's tier goes into the inputs. */
    method EditRule(index: nat)
      requires index < |rules|
      modifies this`editIndex, this`current
      ensures editIndex == Some(index) && current == rules[index]
    {
      editIndex := Some(index);
      current := rules[index];
    }

    /** `handleUpdateRule`: writes the inputs over the edited tier, unchecked, and leaves edit mode. */
    method UpdateRule()
      modifies this`rules, this`editIndex, this`current
      ensures old(editIndex).None? ==> rules == old(rules) && editIndex == old(editIndex) && current == old(current)
      ensures old(editIndex).Some? ==>
                rules == ReplaceAt(old(rules), old(editIndex).value, old(current)) && editIndex == None && current == BLANK
    {
      if editIndex.Some? {
        rules := ReplaceAt(rules, editIndex.value, current);
        editIndex := None;
        current := BLANK;
      }
    }

    /** `handleDeleteRule`: only after the confirmation dialog is accepted. */
    method DeleteRule(index: nat, confirmed: bool)
      modifies this`rules
      ensures rules == if confirmed then RemoveAt(old(rules), index) else old(rules)
    {
      if confirmed {
        rules := RemoveAt(rules, index);
      }
    }

    /** `handleCancelEdit`. */
    method CancelEdit()
      modifies this`editIndex, this`current
      ensures editIndex == None && current == BLANK
    {
      editIndex, current := None, BLANK;
    }

    /**
     * Rendering the list: `rules.sort(...)` reorders the page's own list,
     * highest minimum first, and each tier is shown with its minimum spend.
     */
    method Render() returns (rows: seq<RuleRow>)
      modifies this`rules
      ensures rules == SortByMinDesc(old(rules))
      ensures SortedByMinDesc(rules) && multiset(rules) == multiset(old(rules))
      ensures rows == RowsOf(rules)
    {
      SortByMinDescSpec(rules);
      rules := SortByMinDesc(rules);
      rows := RowsOf(rules);
    }
  }
}

=== FILE: http.dfy ===
/** What a route handler answers. */
module Http {
  /** Success with a body, or an HTTP error status with its message. */
  datatype Response<T> = Ok(body: T) | Fail(status: int, error: string)
}

=== FILE: mock_data.dfy ===
/**
 * The fixed cashback table of the demo data: three tiers keyed on the bill
 * value, each coupon worth half its minimum spend. It is not the rule the
 * coupon manager applies (that one reads its tiers from the config and
 * derives a minimum spend of three times the amount).
 */
module MockData {
  import opened Wrappers
  import opened Money

  /** A demo coupon: amount and minimum spend in whole yuan, and its label. */
  datatype MockCoupon = MockCoupon(amount: int, minSpend: int, description: string)

  /** `calculateCoupon` on a bill of `bill` cents. */
  function CalculateCoupon(bill: Cents): (r: Option<MockCoupon>)
    ensures r.None? <==> bill < 10000
    ensures r.Some? ==> r.value.amount > 0 && r.value.minSpend == 2 * r.value.amount
    ensures r.Some? ==> r.value.description == Description(IntToString(r.value.amount), r.value.minSpend)
  {
    if bill >= 50000 then Some(MockCoupon(70, 140, "70元券(满140用)"))
    else if bill >= 30000 then Some(MockCoupon(30, 60, "30元券(满60用)"))
    else if bill >= 10000 then Some(MockCoupon(5, 10, "5元券(满10用)"))
    else None
  }

  /** The reward of a bill, zero when there is none. */
  function Reward(bill: Cents): int
  {
    match CalculateCoupon(bill)
    case None => 0
    case Some(c) => c.amount
  }

  /** The three tiers, each threshold belonging to the higher tier. */
  lemma CalculateCouponTiers(bill: Cents)
    ensures bill >= 50000 ==> Reward(bill) == 70
    ensures 30000 <= bill < 50000 ==> Reward(bill) == 30
    ensures 10000 <= bill < 30000 ==> Reward(bill) == 5
    ensures bill < 10000 ==> Reward(bill) == 0
  {
  }

  /** A larger bill never earns a smaller reward. */
  lemma RewardMonotone(a: Cents, b: Cents)
    requires a <= b
    ensures Reward(a) <= Reward(b)
  {
  }
}

=== FILE: money.dfy ===
/**
 * Amounts and their text. Every `numeric(10,2)` column of the schema is held
 * here as a whole number of cents; timestamps are milliseconds.
 */
module Money {

  /** A `numeric(10,2)` money value, in cents. */
  type Cents = int

  /** A timestamp in milliseconds. */
  type Time = int

  const CENTS_PER_YUAN: int := 100
  const DAY_MS: int := 86_400_000

  /** `Math.ceil(3 * amount)` in whole yuan, returned in cents: the minimum spend of a coupon. */
  function MinSpendFor(amount: Cents): (m: Cents)
    ensures m % CENTS_PER_YUAN == 0
    ensures 3 * amount <= m < 3 * amount + CENTS_PER_YUAN
  {
    ((3 * amount + 99) / CENTS_PER_YUAN) * CENTS_PER_YUAN
  }

  /**
   * `toFixed(2)` of a value given in ten-thousandths, in cents: the nearest
   * hundredth, a tie going away from zero (`toFixed` rounds the magnitude
   * and keeps the sign).
   */
  function RoundToCents(x: int): (c: Cents)
    ensures x >= 0 ==> -50 < CENTS_PER_YUAN * c - x <= 50
    ensures x < 0 ==> -50 <= CENTS_PER_YUAN * c - x < 50
  {
    if x >= 0 then (x + 50) / CENTS_PER_YUAN else -((-x + 50) / CENTS_PER_YUAN)
  }

  /** A value already in whole cents is left as it is. */
  lemma RoundWholeCents(c: Cents)
    ensures RoundToCents(CENTS_PER_YUAN * c) == c
  {
  }

  /** Rounding commutes with negation: a tie goes away from zero on either side. */
  lemma RoundToCentsOdd(x: int)
    ensures RoundToCents(-x) == -RoundToCents(x)
  {
  }

  /** Decimal digits of `n`, most significant first, without leading zeros. */
  function NatToString(n: nat): (s: string)
    ensures |s| >= 1
    ensures forall i :: 0 <= i < |s| ==> '0' <= s[i] <= '9'
    decreases n
  {
    if n < 10 then [DigitChar(n)] else NatToString(n / 10) + [DigitChar(n % 10)]
  }

  function DigitChar(d: nat): (c: char)
    requires d < 10
    ensures '0' <= c <= '9'
  {
    (d + '0' as int) as char
  }

  /** The value of a string of decimal digits. */
  function ParseNat(s: string): nat
    requires forall i :: 0 <= i < |s| ==> '0' <= s[i] <= '9'
    decreases |s|
  {
    if s == [] then 0
    else 10 * ParseNat(s[..|s| - 1]) + (s[|s| - 1] as int - '0' as int)
  }

  /** Reading back the digits of `n` gives `n`: the text of a number identifies it. */
  lemma {:induction false} NatToStringRoundTrip(n: nat)
    ensures ParseNat(NatToString(n)) == n
    decreases n
  {
    if n >= 10 {
      var s := NatToString(n);
      assert s[..|s| - 1] == NatToString(n / 10);
      NatToStringRoundTrip(n / 10);
    }
  }

  /** Distinct numbers have distinct texts. */
  lemma NatToStringInjective(a: nat, b: nat)
    requires NatToString(a) == NatToString(b)
    ensures a == b
  {
    NatToStringRoundTrip(a);
    NatToStringRoundTrip(b);
  }

  function IntToString(i: int): string
  {
    if i < 0 then "-" + NatToString(-i) else NatToString(i)
  }

  /**
   * How JavaScript prints a number with at most two decimals (`String(2.5)` is
   * "2.5", `String(30)` is "30"): the yuan value of `c` without trailing zeros.
   */
  function YuanText(c: Cents): (s: string)
    ensures c % CENTS_PER_YUAN == 0 ==> s == IntToString(c / CENTS_PER_YUAN)
  {
    if c < 0 then "-" + UnsignedYuanText(-c) else UnsignedYuanText(c)
  }

  function UnsignedYuanText(c: nat): (s: string)
    ensures c % CENTS_PER_YUAN == 0 ==> s == NatToString(c / CENTS_PER_YUAN)
  {
    var whole := NatToString(c / CENTS_PER_YUAN);
    var frac := c % CENTS_PER_YUAN;
    if frac == 0 then whole
    else if frac % 10 == 0 then whole + "." + [DigitChar(frac / 10)]
    else whole + "." + [DigitChar(frac / 10), DigitChar(frac % 10)]
  }

  /** The coupon description `<amount>元券(满<minSpend>用)` (amount as printed, min spend in yuan). */
  function Description(amountText: string, minSpendYuan: int): string
  {
    amountText + "元券(满" + IntToString(minSpendYuan) + "用)"
  }

  /** The description starts with the amount text and ends with the min-spend digits, so it determines both. */
  lemma DescriptionDetermines(t1: string, m1: nat, t2: string, m2: nat)
    requires |t1| == |t2|
    requires Description(t1, m1) == Description(t2, m2)
    ensures t1 == t2 && m1 == m2
  {
    var d := Description(t1, m1);
    assert t1 == d[..|t1|] == t2;
    var n1 := NatToString(m1);
    var n2 := NatToString(m2);
    var k := |t1 + "元券(满"|;
    assert d == (t1 + "元券(满") + n1 + "用)";
    assert d == (t1 + "元券(满") + n2 + "用)";
    assert |n1| == |n2|;
    assert d[k..k + |n1|] == n1;
    assert d[k..k + |n2|] == n2;
    NatToStringInjective(m1, m2);
  }
}

=== FILE: order_manager.dfy ===
/**
 * Supermarket orders: the order listing and `createOrderWithCoupon`, which
 * records an order and redeems a coupon given by its code when the coupon
 * is active and the order reaches its minimum spend.
 */
module SupermarketOrderManager {
  import opened Wrappers
  import opened Money
  import opened Tables
  import opened Schema
  import opened Store
  import CouponManager

  predicate OrderMatches(o: Order, tenantId: Option<Id>, status: Option<OrderStatus>)
  {
    (tenantId.None? || o.tenantId == tenantId.value) && (status.None? || o.status == status.value)
  }

  /** `getOrders`: the orders matching every supplied filter, newest first. */
  function GetOrders(db: Db, tenantId: Option<Id>, status: Option<OrderStatus>): (r: seq<Order>)
    reads db
    ensures forall o :: o in r <==> o in db.orders && OrderMatches(o, tenantId, status)
    ensures SubseqOf(Reverse(r), db.orders)
  {
    var selected := Filter(db.orders, (o: Order) => OrderMatches(o, tenantId, status));
    ReverseSameRows(selected);
    ReverseReverse(selected);
    Reverse(selected)
  }

  /** What `createOrderWithCoupon` returns. */
  datatype OrderResult = OrderResult(order: Order, couponUsed: bool, discountAmount: Cents)

  /**
   * The coupon an order redeems: the coupon with the given (non-empty) code,
   * if it is active and the total reaches its minimum spend. The coupon's
   * owner and expiry play no part.
   */
  function AppliedCoupon(coupons: seq<Coupon>, totalAmount: Cents, couponCode: Option<string>): (r: Option<Coupon>)
    ensures r.Some? ==> && couponCode.Some? && couponCode.value != ""
                        && r.value in coupons && r.value.code == couponCode.value
                        && r.value.status == Active && totalAmount >= r.value.minSpend
    ensures UniqueCouponCodes(coupons) ==>
              (r.Some? <==> couponCode.Some? && couponCode.value != "" &&
                            exists c :: c in coupons && c.code == couponCode.value && c.status == Active && totalAmount >= c.minSpend)
  {
    if couponCode.None? || couponCode.value == "" then None
    else
      var found := FirstWhere(coupons, (c: Coupon) => c.code == couponCode.value);
      assert UniqueCouponCodes(coupons) && found.Some? ==>
               forall c :: c in coupons && c.code == couponCode.value ==> c == found.value by {
        if UniqueCouponCodes(coupons) && found.Some? {
          forall c | c in coupons && c.code == couponCode.value ensures c == found.value {
            var i :| 0 <= i < |coupons| && coupons[i] == c;
            var j :| 0 <= j < |coupons| && coupons[j] == found.value;
            assert !(i < j) && !(j < i);
          }
        }
      }
      if found.Some? && found.value.status == Active && totalAmount >= found.value.minSpend then found else None
  }

  /** The coupon amount an order is credited with: the redeemed coupon's amount, else zero. */
  function CouponAmount(applied: Option<Coupon>): Cents
  {
    if applied.Some? then applied.value.amount else 0
  }

  /** The order row `createOrderWithCoupon` inserts. */
  function NewOrder(id: Id, tenantId: Id, orderNumber: string, totalAmount: Cents, items: string, couponAmount: Cents): (o: Order)
    ensures o.id == id && o.tenantId == tenantId && o.orderNumber == orderNumber && o.items == items
    ensures o.status == OrderPending && o.discountAmount == 0
    ensures o.totalAmount == totalAmount && o.couponAmount == couponAmount
    ensures o.paidAmount + o.couponAmount == o.totalAmount
  {
    Order(id, tenantId, orderNumber, totalAmount, 0, couponAmount, totalAmount - couponAmount, items, OrderPending)
  }

  /**
   * `createOrderWithCoupon`. `orderNumber` is the generated order number,
   * which the unique constraint requires to be unused; `items` is the item
   * list as stored JSON text.
   */
  method CreateOrderWithCoupon(db: Db, tenantId: Id, totalAmount: Cents, items: string,
                               couponCode: Option<string>, orderNumber: string)
    returns (result: OrderResult)
    requires db.Valid()
    requires forall o :: o in db.orders ==> o.orderNumber != orderNumber
    modifies db`orders, db`coupons, db`usages, db`nextId
    ensures db.Valid()
    ensures var applied := AppliedCoupon(old(db.coupons), totalAmount, couponCode);
            && result.order == NewOrder(old(db.nextId), tenantId, orderNumber, totalAmount, items, CouponAmount(applied))
            && db.orders == old(db.orders) + [result.order]
            && (result.couponUsed <==> applied.Some?)
            && result.discountAmount == result.order.couponAmount
            && (applied.None? ==> db.coupons == old(db.coupons) && db.usages == old(db.usages)
                                  && db.nextId == old(db.nextId) + 1)
            && (applied.Some? ==>
                  && db.coupons == CouponManager.SetStatus(old(db.coupons), applied.value.id, Used)
                  && db.usages == old(db.usages) + [CouponManager.UsageFor(old(db.nextId) + 1, applied.value, result.order.id)]
                  && db.nextId == old(db.nextId) + 2)
  {
    var applied := FindApplicableCoupon(db, totalAmount, couponCode);
    var couponAmount := CouponAmount(applied);
    var order := PlaceOrder(db, tenantId, orderNumber, totalAmount, items, couponAmount);
    Redeem(db, applied, order.id);
    result := OrderResult(order, applied.Some?, couponAmount);
  }

  /** The order insert of `createOrderWithCoupon`, under a fresh id. */
  method PlaceOrder(db: Db, tenantId: Id, orderNumber: string, totalAmount: Cents, items: string, couponAmount: Cents)
    returns (order: Order)
    requires db.Valid()
    requires forall o :: o in db.orders ==> o.orderNumber != orderNumber
    modifies db`orders, db`nextId
    ensures db.Valid()
    ensures order == NewOrder(old(db.nextId), tenantId, orderNumber, totalAmount, items, couponAmount)
    ensures db.orders == old(db.orders) + [order] && db.nextId == old(db.nextId) + 1
  {
    var id := db.FreshId();
    order := NewOrder(id, tenantId, orderNumber, totalAmount, items, couponAmount);
    db.AddOrder(order);
  }

  /** The `useCoupon` call of `createOrderWithCoupon`, made only when a coupon was applied. */
  method Redeem(db: Db, applied: Option<Coupon>, orderId: Id)
    requires db.Valid()
    requires applied.Some? ==> applied.value in db.coupons
    modifies db`coupons, db`usages, db`nextId
    ensures db.Valid()
    ensures applied.None? ==> db.coupons == old(db.coupons) && db.usages == old(db.usages) && db.nextId == old(db.nextId)
    ensures applied.Some? ==>
              && db.coupons == CouponManager.SetStatus(old(db.coupons), applied.value.id, Used)
              && db.usages == old(db.usages) + [CouponManager.UsageFor(old(db.nextId), applied.value, orderId)]
              && db.nextId == old(db.nextId) + 1
  {
    if applied.Some? {
      CouponManager.CouponByIdFindsRow(db.coupons, applied.value);
      var used := CouponManager.UseCoupon(db, applied.value.id, orderId);
      assert used == Some(applied.value.(status := Used));
      assert CouponManager.UsageFor(old(db.nextId), used.value, orderId)
          == CouponManager.UsageFor(old(db.nextId), applied.value, orderId);
    }
  }

  /**
   * The coupon check of `createOrderWithCoupon`: with a non-empty code, look
   * the coupon up by code and keep it if it is active and the total reaches
   * its minimum spend.
   */
  method FindApplicableCoupon(db: Db, totalAmount: Cents, couponCode: Option<string>) returns (applied: Option<Coupon>)
    requires db.Valid()
    ensures applied == AppliedCoupon(db.coupons, totalAmount, couponCode)
  {
    applied := None;
    if couponCode.Some? && couponCode.value != "" {
      var coupon := CouponManager.CouponByCode(db, couponCode.value);
      if coupon.Some? && coupon.value.status == Active {
        if totalAmount >= coupon.value.minSpend {
          applied := coupon;
        }
      }
    }
  }

  /** With coupons whose minimum spend covers their amount, no order is paid a negative amount. */
  lemma PaidAmountNonNegative(coupons: seq<Coupon>, totalAmount: Cents, couponCode: Option<string>)
    requires forall c :: c in coupons ==> c.amount <= c.minSpend
    requires totalAmount >= 0
    ensures totalAmount - CouponAmount(AppliedCoupon(coupons, totalAmount, couponCode)) >= 0
  {
  }

  /** Neither the coupon's owner nor its expiry decides whether it is redeemed. */
  lemma OwnerAndExpiryIgnored(c: Coupon, totalAmount: Cents, couponCode: Option<string>, owner: Id, expiry: Option<Time>)
    ensures AppliedCoupon([c], totalAmount, couponCode).Some?
        <==> AppliedCoupon([c.(tenantId := owner, validUntil := expiry)], totalAmount, couponCode).Some?
  {
    var d := c.(tenantId := owner, validUntil := expiry);
    assert UniqueCouponCodes([c]) && UniqueCouponCodes([d]);
  }
}

=== FILE: orders_api.dfy ===
/**
 * `POST /api/supermarket-orders`: validates the request, checks the tenant
 * and records the order through `createOrderWithCoupon` with the body's
 * coupon code.
 */
module OrdersApi {
  import opened Wrappers
  import opened Money
  import opened Schema
  import opened Store
  import opened Http
  import TenantManager
  import CouponManager
  import OM = SupermarketOrderManager

  /** The request body; an absent or falsy field is `None`. */
  datatype OrderRequest = OrderRequest(tenantId: Option<Id>, totalAmount: Option<Cents>, items: Option<string>,
                                       couponCode: Option<string>)

  /** The reply: the fields of the order result and the message. */
  datatype OrderReply = OrderReply(order: Order, couponUsed: bool, discountAmount: Cents, message: string)

  const MISSING_FIELDS := "缺少必填字段：tenantId, totalAmount, items"
  const UNKNOWN_TENANT := "租户不存在"
  const PAID_WITH_COUPON := "支付成功，已使用优惠券"
  const PAID := "支付成功"

  /** The guards in the handler's order: required fields (400), then the tenant (404). */
  function Guard(tenants: seq<Tenant>, req: OrderRequest): (r: Option<Response<OrderReply>>)
    ensures req.tenantId.None? || req.totalAmount.None? || req.items.None? ==> r == Some(Fail(400, MISSING_FIELDS))
    ensures r.None? <==> req.tenantId.Some? && req.totalAmount.Some? && req.items.Some?
                         && TenantManager.TenantById(tenants, req.tenantId.value).Some?
    ensures r.Some? ==> r.value.Fail?
  {
    if req.tenantId.None? || req.totalAmount.None? || req.items.None? then Some(Fail(400, MISSING_FIELDS))
    else if TenantManager.TenantById(tenants, req.tenantId.value).None? then Some(Fail(404, UNKNOWN_TENANT))
    else None
  }

  /** The message says a coupon was used exactly when one was. */
  function OrderMessage(couponUsed: bool): (m: string)
    ensures m == PAID_WITH_COUPON <==> couponUsed
  {
    if couponUsed then PAID_WITH_COUPON else PAID
  }

  /** The handler. `orderNumber` is the generated order number, which must be unused. */
  method PostOrder(db: Db, req: OrderRequest, orderNumber: string) returns (resp: Response<OrderReply>)
    requires db.Valid()
    requires forall o :: o in db.orders ==> o.orderNumber != orderNumber
    modifies db`orders, db`coupons, db`usages, db`nextId
    ensures db.Valid()
    ensures var g := Guard(old(db.tenants), req);
            && (g.Some? ==> resp == g.value && db.orders == old(db.orders) && db.coupons == old(db.coupons)
                            && db.usages == old(db.usages) && db.nextId == old(db.nextId))
            && (g.None? ==>
                  var applied := OM.AppliedCoupon(old(db.coupons), req.totalAmount.value, req.couponCode);
                  && resp.Ok?
                  && resp.body.order == OM.NewOrder(old(db.nextId), req.tenantId.value, orderNumber, req.totalAmount.value,
                                                    req.items.value, OM.CouponAmount(applied))
                  && db.orders == old(db.orders) + [resp.body.order]
                  && (resp.body.couponUsed <==> applied.Some?)
                  && resp.body.discountAmount == resp.body.order.couponAmount
                  && resp.body.message == OrderMessage(resp.body.couponUsed)
                  && (applied.None? ==> db.coupons == old(db.coupons) && db.usages == old(db.usages))
                  && (applied.Some? ==>
                        && db.coupons == CouponManager.SetStatus(old(db.coupons), applied.value.id, Used)
                        && db.usages == old(db.usages) + [CouponManager.UsageFor(old(db.nextId) + 1, applied.value,
                                                                                 resp.body.order.id)]))
  {
    var g := Guard(db.tenants, req);
    if g.Some? {
      return g.value;
    }
    var result := OM.CreateOrderWithCoupon(db, req.tenantId.value, req.totalAmount.value, req.items.value,
                                           req.couponCode, orderNumber);
    resp := Ok(OrderReply(result.order, result.couponUsed, result.discountAmount, OrderMessage(result.couponUsed)));
  }
}

=== FILE: pay_client.dfy ===
/**
 * The tenant's pay page: the unpaid bills are listed, the tenant selects
 * some (one by one or all at once), sees their total, and on confirming the
 * page sends one `POST /api/payments` per selected bill, then shows a
 * result screen from the replies.
 */
module PayClient {
  import opened Wrappers
  import opened Money
  import opened Tables
  import opened Schema
  import BillManager
  import PaymentsApi
  import Http

  /** `handleSelectBill`: a selected id is taken out, any other id is appended. */
  function Toggle(selected: seq<Id>, id: Id): (r: seq<Id>)
    ensures id in selected ==> r == Filter(selected, (x: Id) => x != id)
    ensures id !in selected ==> r == selected + [id]
    ensures id in r <==> id !in selected
    ensures forall x :: x != id ==> (x in r <==> x in selected)
  {
    if id in selected then Filter(selected, (x: Id) => x != id) else selected + [id]
  }

  /** Toggling an unselected bill twice gives back the selection exactly. */
  lemma ToggleTwiceRestores(selected: seq<Id>, id: Id)
    requires id !in selected
    ensures Toggle(Toggle(selected, id), id) == selected
  {
    FilterConcat(selected, [id], (x: Id) => x != id);
    FilterAll(selected, (x: Id) => x != id);
  }

  /** Toggling a selected bill twice gives back the same set of bills, that bill now last. */
  lemma ToggleTwiceMovesLast(selected: seq<Id>, id: Id)
    requires id in selected
    ensures Toggle(Toggle(selected, id), id) == Filter(selected, (x: Id) => x != id) + [id]
    ensures forall x :: x in Toggle(Toggle(selected, id), id) <==> x in selected
  {
  }

  /** Toggling never selects a bill twice. */
  lemma ToggleKeepsDistinct(selected: seq<Id>, id: Id)
    requires DistinctBy(selected, (x: Id) => x)
    ensures DistinctBy(Toggle(selected, id), (x: Id) => x)
  {
    if id in selected {
      DistinctBySubseq(Filter(selected, (x: Id) => x != id), selected, (x: Id) => x);
    } else {
      DistinctByAppend(selected, (x: Id) => x, id);
    }
  }

  /** `handlePayAll`: the ids of all listed bills, in list order. */
  function PayAll(bills: seq<Bill>): (ids: seq<Id>)
    ensures |ids| == |bills| && forall i :: 0 <= i < |bills| ==> ids[i] == bills[i].id
  {
    seq(|bills|, i requires 0 <= i < |bills| => bills[i].id)
  }

  /** `bills.find(b => b.id === id)`. */
  function FindBill(bills: seq<Bill>, id: Id): Option<Bill>
  {
    BillManager.BillById(bills, id)
  }

  /** What a selected id adds to the total: its bill's amount, or 0 when no listed bill has it. */
  function AmountOf(bills: seq<Bill>, id: Id): (a: Cents)
    ensures (forall b :: b in bills ==> b.id != id) ==> a == 0
    ensures (exists b :: b in bills && b.id == id) ==> exists b :: b in bills && b.id == id && a == b.amount
  {
    if FindBill(bills, id).Some? then FindBill(bills, id).value.amount else 0
  }

  /** `totalAmount`: the reduce over the selection, in selection order. */
  function Total(selected: seq<Id>, bills: seq<Bill>): Cents
    decreases |selected|
  {
    if selected == [] then 0
    else Total(selected[..|selected| - 1], bills) + AmountOf(bills, selected[|selected| - 1])
  }

  /** The total of two selections one after the other is the sum of their totals. */
  lemma {:induction false} TotalAppend(a: seq<Id>, b: seq<Id>, bills: seq<Bill>)
    ensures Total(a + b, bills) == Total(a, bills) + Total(b, bills)
    decreases |b|
  {
    if b == [] {
      assert a + b == a;
    } else {
      var init := b[..|b| - 1];
      assert (a + b)[..|a + b| - 1] == a + init;
      TotalAppend(a, init, bills);
    }
  }

  /** Selecting a bill adds its amount to the total. */
  lemma ToggleOnAddsAmount(selected: seq<Id>, bills: seq<Bill>, id: Id)
    requires id !in selected
    ensures Total(Toggle(selected, id), bills) == Total(selected, bills) + AmountOf(bills, id)
  {
    assert (selected + [id])[..|selected|] == selected;
  }

  /** In a selection without repeats, deselecting a selected bill takes its amount off the total. */
  lemma {:induction false} ToggleOffSubtractsAmount(selected: seq<Id>, bills: seq<Bill>, id: Id)
    requires DistinctBy(selected, (x: Id) => x)
    ensures Total(Filter(selected, (x: Id) => x != id), bills)
            == Total(selected, bills) - (if id in selected then AmountOf(bills, id) else 0)
    decreases |selected|
  {
    if selected != [] {
      var keep := (x: Id) => x != id;
      var init, last := selected[..|selected| - 1], selected[|selected| - 1];
      assert selected == init + [last];
      assert DistinctBy(init, (x: Id) => x);
      ToggleOffSubtractsAmount(init, bills, id);
      FilterConcat(init, [last], keep);
      var kept := Filter(init, keep);
      if last != id {
        assert Filter([last], keep) == [last];
        assert (kept + [last])[..|kept|] == kept;
        assert id in selected <==> id in init;
      } else {
        assert Filter([last], keep) == [];
        assert kept + [] == kept;
        assert id !in init by {
          forall j | 0 <= j < |init| ensures init[j] != id {
            assert selected[j] == init[j];
          }
        }
      }
    }
  }

  /** Paying all bills of a list with distinct ids totals the list's amounts. */
  lemma PayAllTotal(bills: seq<Bill>)
    requires DistinctBy(bills, (b: Bill) => b.id)
    ensures Total(PayAll(bills), bills) == SumAmounts(bills)
  {
    forall b | b in bills ensures AmountOf(bills, b.id) == b.amount {
      var i :| 0 <= i < |bills| && bills[i] == b;
      FirstWhereAt(bills, BillManager.IdIs(b.id), i);
    }
    TotalOfOwnIds(bills, bills);
  }

  function SumAmounts(bills: seq<Bill>): Cents
    decreases |bills|
  {
    if bills == [] then 0 else SumAmounts(bills[..|bills| - 1]) + bills[|bills| - 1].amount
  }

  lemma {:induction false} TotalOfOwnIds(part: seq<Bill>, bills: seq<Bill>)
    requires forall b :: b in part ==> AmountOf(bills, b.id) == b.amount
    ensures Total(PayAll(part), bills) == SumAmounts(part)
    decreases |part|
  {
    if part != [] {
      var init := part[..|part| - 1];
      assert PayAll(part)[..|part| - 1] == PayAll(init);
      assert part[|part| - 1] in part;
      TotalOfOwnIds(init, bills);
    }
  }

  /** `handlePay`: the QR code is shown only for a non-empty selection. */
  function PayAccepted(selected: seq<Id>): (shown: bool)
    ensures shown <==> |selected| > 0
  {
    selected != []
  }

  /** The request body sent for one selected id that matches a listed bill, paid by WeChat. */
  function RequestFor(tenantId: Id, bill: Bill): (req: PaymentsApi.PaymentRequest)
    ensures req.tenantId == Some(tenantId) && req.billId == Some(bill.id)
    ensures req.amount == Some(bill.amount) && req.kind == Some(bill.kind) && req.paymentMethod == Some("wechat")
  {
    PaymentsApi.PaymentRequest(Some(tenantId), Some(bill.id), Some(bill.amount), Some(bill.kind), Some("wechat"), None, None)
  }

  /** The requests sent for a selection: one per selected id with a listed bill, in selection order. */
  function Requests(tenantId: Id, selected: seq<Id>, bills: seq<Bill>): seq<PaymentsApi.PaymentRequest>
    decreases |selected|
  {
    if selected == [] then []
    else
      var id := selected[|selected| - 1];
      Requests(tenantId, selected[..|selected| - 1], bills)
      + (if FindBill(bills, id).Some? then [RequestFor(tenantId, FindBill(bills, id).value)] else [])
  }

  /** Every request names its bill's own amount and type, so none is refused for a missing field. */
  lemma {:induction false} RequestsAreComplete(tenantId: Id, selected: seq<Id>, bills: seq<Bill>)
    ensures |Requests(tenantId, selected, bills)| <= |selected|
    ensures forall r :: r in Requests(tenantId, selected, bills) ==>
              !PaymentsApi.MissingField(r) && r.billId.Some? && r.billId.value in selected
              && exists b :: b in bills && b.id == r.billId.value && r.amount == Some(b.amount) && r.kind == Some(b.kind)
    decreases |selected|
  {
    if selected != [] {
      var init := selected[..|selected| - 1];
      RequestsAreComplete(tenantId, init, bills);
      assert forall x :: x in init ==> x in selected;
    }
  }

  /** What the page reads from a reply. */
  datatype PayReply = PayReply(needsConfirmation: bool, coupon: Option<Coupon>)

  /** The result screen: awaiting the merchant, a coupon won, or plainly paid. */
  datatype ResultView = AwaitingConfirmation | CouponIssued(coupon: Coupon) | Recorded

  /** The coupon of the last reply, among the first `n`, that carries one. */
  function LastCoupon(reply: nat -> PayReply, n: nat): (c: Option<Coupon>)
    ensures c.None? <==> forall k :: 0 <= k < n ==> reply(k).coupon.None?
    ensures c.Some? ==> exists k :: 0 <= k < n && reply(k).coupon == c && forall j :: k < j < n ==> reply(j).coupon.None?
  {
    if n == 0 then None
    else if reply(n - 1).coupon.Some? then reply(n - 1).coupon
    else LastCoupon(reply, n - 1)
  }

  /** Whether any of the first `n` replies asks for the merchant's confirmation. */
  function AnyConfirmation(reply: nat -> PayReply, n: nat): (b: bool)
    ensures b <==> exists k :: 0 <= k < n && reply(k).needsConfirmation
  {
    if n == 0 then false else reply(n - 1).needsConfirmation || AnyConfirmation(reply, n - 1)
  }

  /** The screen: a pending confirmation wins over a coupon. */
  function View(needsConfirmation: bool, coupon: Option<Coupon>): ResultView
  {
    if needsConfirmation then AwaitingConfirmation
    else if coupon.Some? then CouponIssued(coupon.value)
    else Recorded
  }

  /**
   * `handleConfirmPayment`. `reply(k)` is the answer to the `k`-th request
   * sent. The requests are the ones `Requests` lists, the confirmation flag
   * is the OR of the replies' flags, and the coupon is the last one returned.
   */
  method ConfirmPayment(tenantId: Id, selected: seq<Id>, bills: seq<Bill>, reply: nat -> PayReply)
    returns (sent: seq<PaymentsApi.PaymentRequest>, needsConfirmation: bool, coupon: Option<Coupon>, view: ResultView)
    ensures sent == Requests(tenantId, selected, bills)
    ensures needsConfirmation == AnyConfirmation(reply, |sent|)
    ensures coupon == LastCoupon(reply, |sent|)
    ensures view == View(needsConfirmation, coupon)
  {
    sent, needsConfirmation, coupon := [], false, None;
    for i := 0 to |selected|
      invariant sent == Requests(tenantId, selected[..i], bills)
      invariant needsConfirmation == AnyConfirmation(reply, |sent|)
      invariant coupon == LastCoupon(reply, |sent|)
    {
      RequestsStep(tenantId, selected, bills, i);
      var bill := FindBill(bills, selected[i]);
      if bill.Some? {
        var answer := reply(|sent|);
        sent := sent + [RequestFor(tenantId, bill.value)];
        if answer.needsConfirmation {
          needsConfirmation := true;
        }
        if answer.coupon.Some? {
          coupon := answer.coupon;
        }
      }
    }
    assert selected[..|selected|] == selected;
    view := View(needsConfirmation, coupon);
  }

  lemma RequestsStep(tenantId: Id, selected: seq<Id>, bills: seq<Bill>, i: nat)
    requires i < |selected|
    ensures Requests(tenantId, selected[..i + 1], bills)
            == Requests(tenantId, selected[..i], bills)
               + (if FindBill(bills, selected[i]).Some? then [RequestFor(tenantId, FindBill(bills, selected[i]).value)] else [])
  {
    assert selected[..i + 1][..i] == selected[..i];
  }

  /** The settlement handler's reply as the page reads it: it never asks for confirmation. */
  function ReadReply(resp: Http.Response<PaymentsApi.Settlement>): (r: PayReply)
    ensures !r.needsConfirmation
    ensures r.coupon == (if resp.Ok? then resp.body.coupon else None)
  {
    PayReply(false, if resp.Ok? then resp.body.coupon else None)
  }

  /** With replies from the settlement handler the "awaiting confirmation" screen is never shown. */
  lemma NoConfirmationScreen(needsConfirmation: bool, coupon: Option<Coupon>, reply: nat -> PayReply, n: nat)
    requires forall k :: 0 <= k < n ==> !reply(k).needsConfirmation
    requires needsConfirmation == AnyConfirmation(reply, n)
    ensures View(needsConfirmation, coupon) != AwaitingConfirmation
    ensures View(needsConfirmation, coupon) == if coupon.Some? then CouponIssued(coupon.value) else Recorded
  {
  }
}

=== FILE: payment_manager.dfy ===
/**
 * The payment manager: insert, the filtered listing (newest first), lookup
 * by id, partial update and delete over the payments table.
 */
module PaymentManager {
  import opened Wrappers
  import opened Money
  import opened Tables
  import opened Schema
  import opened Store

  /** The predicate `WHERE id = ?` on payments. */
  function IdIs(id: Id): Payment -> bool
  {
    (p: Payment) => p.id == id
  }

  /** `getPaymentById`: the payment with that id, or none. */
  function PaymentById(payments: seq<Payment>, id: Id): (r: Option<Payment>)
    ensures r.None? <==> forall p :: p in payments ==> p.id != id
    ensures r.Some? ==> r.value in payments && r.value.id == id
  {
    FirstWhere(payments, IdIs(id))
  }

  /** Ids are the primary key: the payment found for a payment's id is that payment. */
  lemma PaymentByIdUnique(payments: seq<Payment>, p: Payment)
    requires DistinctBy(payments, (x: Payment) => x.id) && p in payments
    ensures PaymentById(payments, p.id) == Some(p)
  {
    var i :| 0 <= i < |payments| && payments[i] == p;
    var found := PaymentById(payments, p.id).value;
    var j :| 0 <= j < |payments| && payments[j] == found;
    assert i == j by {
      assert DistinctBy(payments, (x: Payment) => x.id);
    }
  }

  predicate PaymentMatches(p: Payment, tenantId: Option<Id>, billId: Option<Id>, kind: Option<ChargeType>,
                           status: Option<PaymentStatus>)
  {
    && (tenantId.None? || p.tenantId == tenantId.value)
    && (billId.None? || p.billId == Some(billId.value))
    && (kind.None? || p.kind == kind.value)
    && (status.None? || p.status == status.value)
  }

  /** `getPayments`: the payments matching every supplied filter, newest first. */
  function GetPayments(db: Db, tenantId: Option<Id>, billId: Option<Id>, kind: Option<ChargeType>,
                       status: Option<PaymentStatus>): (r: seq<Payment>)
    reads db
    ensures forall p :: p in r <==> p in db.payments && PaymentMatches(p, tenantId, billId, kind, status)
    ensures SubseqOf(Reverse(r), db.payments)
  {
    Selected(db.payments, tenantId, billId, kind, status)
  }

  /** The query of `getPayments` on a payment table: the matching rows, newest first. */
  function Selected(payments: seq<Payment>, tenantId: Option<Id>, billId: Option<Id>, kind: Option<ChargeType>,
                    status: Option<PaymentStatus>): (r: seq<Payment>)
    ensures forall p :: p in r <==> p in payments && PaymentMatches(p, tenantId, billId, kind, status)
    ensures SubseqOf(Reverse(r), payments)
  {
    var selected := Filter(payments, (p: Payment) => PaymentMatches(p, tenantId, billId, kind, status));
    ReverseSameRows(selected);
    ReverseReverse(selected);
    Reverse(selected)
  }

  /** `createPayment`: inserts exactly one payment, defaults applied, and returns it. */
  method CreatePayment(db: Db, data: PaymentInput) returns (payment: Payment)
    requires db.Valid()
    modifies db`payments, db`nextId
    ensures db.Valid()
    ensures payment == PaymentRow(old(db.nextId), data)
    ensures db.payments == old(db.payments) + [payment] && db.nextId == old(db.nextId) + 1
  {
    var id := db.FreshId();
    payment := PaymentRow(id, data);
    db.AddPayment(payment);
  }

  /**
   * The columns an update supplies; `None` leaves a column as it is, and for
   * a nullable column `Some(None)` sets it to null.
   */
  datatype PaymentPatch = PaymentPatch(
    tenantId: Option<Id>, billId: Option<Option<Id>>, amount: Option<Cents>, kind: Option<ChargeType>,
    paymentMethod: Option<Option<string>>, transactionId: Option<Option<string>>,
    status: Option<PaymentStatus>, remarks: Option<Option<string>>)

  /** A payment with the supplied columns of `patch` written over it; its id is kept. */
  function ApplyPatch(p: Payment, patch: PaymentPatch): (r: Payment)
    ensures r.id == p.id
    ensures r.tenantId == patch.tenantId.GetOr(p.tenantId) && r.billId == patch.billId.GetOr(p.billId)
    ensures r.amount == patch.amount.GetOr(p.amount) && r.kind == patch.kind.GetOr(p.kind)
    ensures r.paymentMethod == patch.paymentMethod.GetOr(p.paymentMethod)
    ensures r.transactionId == patch.transactionId.GetOr(p.transactionId)
    ensures r.status == patch.status.GetOr(p.status) && r.remarks == patch.remarks.GetOr(p.remarks)
  {
    Payment(p.id, patch.tenantId.GetOr(p.tenantId), patch.billId.GetOr(p.billId), patch.amount.GetOr(p.amount),
            patch.kind.GetOr(p.kind), patch.paymentMethod.GetOr(p.paymentMethod),
            patch.transactionId.GetOr(p.transactionId), patch.status.GetOr(p.status), patch.remarks.GetOr(p.remarks))
  }

  /** An empty patch changes nothing, and applying a patch twice is applying it once. */
  lemma ApplyPatchSpec(p: Payment, patch: PaymentPatch)
    ensures ApplyPatch(p, PaymentPatch(None, None, None, None, None, None, None, None)) == p
    ensures ApplyPatch(ApplyPatch(p, patch), patch) == ApplyPatch(p, patch)
  {
  }

  /**
   * `updatePayment`: writes the supplied columns of the payment with that id
   * and returns the updated row; an unknown id changes nothing and gives none.
   */
  method UpdatePayment(db: Db, id: Id, patch: PaymentPatch) returns (payment: Option<Payment>)
    requires db.Valid()
    modifies db`payments
    ensures db.Valid()
    ensures db.payments == UpdateWhere(old(db.payments), IdIs(id), (p: Payment) => ApplyPatch(p, patch))
    ensures payment.None? <==> forall p :: p in old(db.payments) ==> p.id != id
    ensures payment.None? ==> db.payments == old(db.payments)
    ensures payment.Some? ==> payment == Some(ApplyPatch(PaymentById(old(db.payments), id).value, patch))
  {
    var f := (p: Payment) => ApplyPatch(p, patch);
    UpdateFinds(db.payments, IdIs(id), f);
    UpdateKeepsKeys(db.payments, IdIs(id), f, (p: Payment) => p.id);
    db.SetPayments(UpdateWhere(db.payments, IdIs(id), f));
    payment := PaymentById(db.payments, id);
  }

  /** `deletePayment`: removes the payment with that id; true iff a row was removed. */
  method DeletePayment(db: Db, id: Id) returns (deleted: bool)
    requires db.Valid()
    modifies db`payments
    ensures db.Valid()
    ensures forall p :: p in db.payments <==> p in old(db.payments) && p.id != id
    ensures SubseqOf(db.payments, old(db.payments))
    ensures deleted <==> exists p :: p in old(db.payments) && p.id == id
  {
    var before := db.payments;
    var after := DeleteWhere(before, IdIs(id));
    DistinctBySubseq(after, before, (p: Payment) => p.id);
    db.SetPayments(after);
    deleted := |after| < |before|;
  }
}

=== FILE: payments_api.dfy ===
/**
 * `POST /api/payments`, the settlement handler: it validates the request,
 * marks an electricity or rent bill paid, issues a cashback coupon for an
 * electricity bill and always records one completed payment. `GET` lists
 * payments through the payment manager's filters.
 */
module PaymentsApi {
  import opened Wrappers
  import opened Money
  import opened Tables
  import opened Schema
  import opened Store
  import opened Http
  import opened CouponRules
  import TenantManager
  import BillManager
  import CouponManager
  import PaymentManager

  /**
   * The request body. A field that is absent or falsy (an empty string, a
   * zero number) is `None`.
   */
  datatype PaymentRequest = PaymentRequest(
    tenantId: Option<Id>, billId: Option<Id>, amount: Option<Cents>, kind: Option<ChargeType>,
    paymentMethod: Option<string>, transactionId: Option<string>, remarks: Option<string>)

  /** What a successful settlement returns: the payment, the coupon issued (if any) and the message. */
  datatype Settlement = Settlement(payment: Payment, coupon: Option<Coupon>, message: string)

  const MISSING_FIELDS := "缺少必填字段：tenantId, amount, type"
  const UNKNOWN_TENANT := "租户不存在"
  const UNKNOWN_BILL := "账单不存在"
  const PAID_WITH_COUPON := "支付成功，已自动发放返现券"
  const PAID := "支付成功"

  predicate MissingField(req: PaymentRequest)
  {
    req.tenantId.None? || req.amount.None? || req.kind.None?
  }

  /** The bill is looked up and marked paid only for an electricity or rent payment that names one. */
  predicate SettlesBill(req: PaymentRequest)
  {
    req.billId.Some? && req.kind.Some? && req.kind.value in {Electricity, Rent}
  }

  /** A coupon is attempted only for an electricity payment that names a bill. */
  predicate IssuesCoupon(req: PaymentRequest)
  {
    req.billId.Some? && req.kind == Some(Electricity)
  }

  /**
   * The guards in the handler's order: required fields (400), tenant (404),
   * bill (404). A water, deposit or refund payment naming a bill that does
   * not exist gets past them, and the payment insert then violates the
   * `bill_id` foreign key: the `catch` answers 500 before anything is stored.
   */
  function Guard(tenants: seq<Tenant>, bills: seq<Bill>, req: PaymentRequest): (r: Option<Response<Settlement>>)
    ensures r.Some? ==> r.value.Fail?
    ensures MissingField(req) ==> r == Some(Fail(400, MISSING_FIELDS))
    ensures !MissingField(req) && TenantManager.TenantById(tenants, req.tenantId.value).None?
            ==> r == Some(Fail(404, UNKNOWN_TENANT))
    ensures (&& !MissingField(req) && TenantManager.TenantById(tenants, req.tenantId.value).Some?
             && req.billId.Some? && BillManager.BillById(bills, req.billId.value).None?)
            ==> r.Some? && r.value.status == (if SettlesBill(req) then 404 else 500)
    ensures r.None? <==> !MissingField(req) && TenantManager.TenantById(tenants, req.tenantId.value).Some?
                         && (req.billId.Some? ==> BillManager.BillById(bills, req.billId.value).Some?)
  {
    if MissingField(req) then Some(Fail(400, MISSING_FIELDS))
    else if TenantManager.TenantById(tenants, req.tenantId.value).None? then Some(Fail(404, UNKNOWN_TENANT))
    else if SettlesBill(req) && BillManager.BillById(bills, req.billId.value).None? then Some(Fail(404, UNKNOWN_BILL))
    else if req.billId.Some? && BillManager.BillById(bills, req.billId.value).None? then Some(Fail(500, ""))
    else None
  }

  /**
   * For a water, deposit or refund payment the bill table plays no part
   * beyond whether the named bill exists.
   */
  lemma GuardIgnoresBillsOfOtherTypes(tenants: seq<Tenant>, bills1: seq<Bill>, bills2: seq<Bill>, req: PaymentRequest)
    requires req.kind.Some? && req.kind.value !in {Electricity, Rent}
    requires req.billId.Some? ==> (BillManager.BillById(bills1, req.billId.value).Some?
                                   <==> BillManager.BillById(bills2, req.billId.value).Some?)
    ensures Guard(tenants, bills1, req) == Guard(tenants, bills2, req)
  {
  }

  /** The payment row the handler inserts: always completed, paid by WeChat unless another method is named. */
  function SettlementInput(req: PaymentRequest): (p: PaymentInput)
    requires !MissingField(req)
    ensures p.status == Some(Completed)
    ensures p.tenantId == req.tenantId.value && p.billId == req.billId
    ensures p.amount == req.amount.value && p.kind == req.kind.value
    ensures p.paymentMethod == Some(if req.paymentMethod.Some? then req.paymentMethod.value else "wechat")
    ensures p.transactionId == req.transactionId && p.remarks == req.remarks
  {
    PaymentInput(req.tenantId.value, req.billId, req.amount.value, req.kind.value,
                 Some(req.paymentMethod.GetOr("wechat")), req.transactionId, Some(Completed), req.remarks)
  }

  /** The stored payment is completed whatever the request, so settlement has no pending path. */
  lemma SettledPaymentIsCompleted(id: Id, req: PaymentRequest)
    requires !MissingField(req)
    ensures PaymentRow(id, SettlementInput(req)).status == Completed
    ensures PaymentRow(id, SettlementInput(req)).amount == req.amount.value
  {
  }

  /** The reply's message depends only on whether a coupon was issued. */
  function SettlementMessage(coupon: Option<Coupon>): (m: string)
    ensures m == PAID_WITH_COUPON <==> coupon.Some?
    ensures m == PAID <==> coupon.None?
  {
    if coupon.Some? then PAID_WITH_COUPON else PAID
  }

  /**
   * The handler. `now` is the clock, `parse` the JSON reader of the rule
   * table, and `code` the coupon code generated for a possible coupon.
   */
  method PostPayment(db: Db, req: PaymentRequest, now: Time, parse: string -> Option<seq<Rule>>, code: string)
    returns (resp: Response<Settlement>)
    requires db.Valid()
    requires forall c :: c in db.coupons ==> c.code != code
    modifies db`bills, db`payments, db`coupons, db`nextId
    ensures db.Valid()
    ensures var g := Guard(old(db.tenants), old(db.bills), req);
            && (g.Some? ==> resp == g.value)
            && (g.None? ==> resp.Ok?)
    ensures resp.Fail? ==> db.bills == old(db.bills) && db.payments == old(db.payments)
                           && db.coupons == old(db.coupons) && db.nextId == old(db.nextId)
    ensures resp.Ok? ==>
              && db.bills == (if SettlesBill(req)
                              then BillManager.UpdateStatusWhere(old(db.bills), req.billId.value, Paid, req.amount, Some(now))
                              else old(db.bills))
              && (!IssuesCoupon(req) ==> resp.body.coupon.None? && db.coupons == old(db.coupons))
              && (IssuesCoupon(req) ==>
                    var d := CouponManager.IssueDecision(old(db.configs), old(db.coupons), parse,
                                                         req.tenantId.value, req.billId.value, req.amount.value);
                    && (d.None? ==> resp.body.coupon.None? && db.coupons == old(db.coupons))
                    && (d.Some? ==> resp.body.coupon == Some(CouponManager.IssuedCoupon(old(db.nextId), req.tenantId.value,
                                                                                         req.billId.value, code, d.value, now))
                                    && db.coupons == old(db.coupons) + [resp.body.coupon.value]))
              && resp.body.payment == PaymentRow(if resp.body.coupon.Some? then old(db.nextId) + 1 else old(db.nextId),
                                                 SettlementInput(req))
              && db.payments == old(db.payments) + [resp.body.payment]
              && resp.body.message == SettlementMessage(resp.body.coupon)
  {
    var g := Guard(db.tenants, db.bills, req);
    if g.Some? {
      return g.value;
    }
    var settlement := Settle(db, req, now, parse, code);
    resp := Ok(settlement);
  }

  /** The handler once every guard has passed: the tenant and any named bill exist. */
  method Settle(db: Db, req: PaymentRequest, now: Time, parse: string -> Option<seq<Rule>>, code: string)
    returns (s: Settlement)
    requires db.Valid() && !MissingField(req)
    requires exists t :: t in db.tenants && t.id == req.tenantId.value
    requires req.billId.Some? ==> exists b :: b in db.bills && b.id == req.billId.value
    requires forall c :: c in db.coupons ==> c.code != code
    modifies db`bills, db`payments, db`coupons, db`nextId
    ensures db.Valid()
    ensures db.bills == (if SettlesBill(req)
                         then BillManager.UpdateStatusWhere(old(db.bills), req.billId.value, Paid, req.amount, Some(now))
                         else old(db.bills))
    ensures !IssuesCoupon(req) ==> s.coupon.None? && db.coupons == old(db.coupons)
    ensures IssuesCoupon(req) ==>
              var d := CouponManager.IssueDecision(old(db.configs), old(db.coupons), parse,
                                                   req.tenantId.value, req.billId.value, req.amount.value);
              && (d.None? ==> s.coupon.None? && db.coupons == old(db.coupons))
              && (d.Some? ==> s.coupon == Some(CouponManager.IssuedCoupon(old(db.nextId), req.tenantId.value,
                                                                         req.billId.value, code, d.value, now))
                              && db.coupons == old(db.coupons) + [s.coupon.value])
    ensures s.payment == PaymentRow(if s.coupon.Some? then old(db.nextId) + 1 else old(db.nextId), SettlementInput(req))
    ensures db.payments == old(db.payments) + [s.payment]
    ensures s.message == SettlementMessage(s.coupon)
  {
    SettleBill(db, req, now);
    var coupon := IssueFor(db, req, now, parse, code);
    var payment := PaymentManager.CreatePayment(db, SettlementInput(req));
    s := Settlement(payment, coupon, SettlementMessage(coupon));
  }

  /** The bill step of the handler: an electricity or rent bill named by the request becomes paid. */
  method SettleBill(db: Db, req: PaymentRequest, now: Time)
    requires db.Valid() && !MissingField(req)
    modifies db`bills
    ensures db.Valid()
    ensures db.bills == (if SettlesBill(req)
                         then BillManager.UpdateStatusWhere(old(db.bills), req.billId.value, Paid, req.amount, Some(now))
                         else old(db.bills))
  {
    if SettlesBill(req) {
      var _ := BillManager.UpdateBillStatus(db, req.billId.value, Paid, req.amount, Some(now));
    }
  }

  /** The coupon step of the handler: issuance is attempted only for an electricity bill. */
  method IssueFor(db: Db, req: PaymentRequest, now: Time, parse: string -> Option<seq<Rule>>, code: string)
    returns (coupon: Option<Coupon>)
    requires db.Valid() && !MissingField(req)
    requires forall c :: c in db.coupons ==> c.code != code
    modifies db`coupons, db`nextId
    ensures db.Valid()
    ensures db.nextId == if coupon.Some? then old(db.nextId) + 1 else old(db.nextId)
    ensures !IssuesCoupon(req) ==> coupon.None? && db.coupons == old(db.coupons)
    ensures IssuesCoupon(req) ==>
              var d := CouponManager.IssueDecision(old(db.configs), old(db.coupons), parse,
                                                   req.tenantId.value, req.billId.value, req.amount.value);
              && (d.None? ==> coupon.None? && db.coupons == old(db.coupons))
              && (d.Some? ==> coupon == Some(CouponManager.IssuedCoupon(old(db.nextId), req.tenantId.value,
                                                                       req.billId.value, code, d.value, now))
                              && db.coupons == old(db.coupons) + [coupon.value])
  {
    coupon := None;
    if IssuesCoupon(req) {
      coupon := CouponManager.GenerateCouponByBill(db, req.tenantId.value, req.billId.value, req.amount.value,
                                                   parse, now, code);
    }
  }

  /** `GET` with no filter lists every payment, newest first. */
  lemma ListWithoutFiltersIsEverything(db: Db)
    ensures PaymentManager.GetPayments(db, None, None, None, None) == Reverse(db.payments)
  {
    FilterAll(db.payments, (p: Payment) => PaymentManager.PaymentMatches(p, None, None, None, None));
  }
}

=== FILE: pending_api.dfy ===
/**
 * `GET /api/payments/pending`: the pending payments, oldest first, each
 * joined (left join) with its tenant's name and phone and its bill's type.
 */
module PendingApi {
  import opened Wrappers
  import opened Tables
  import opened Schema
  import TenantManager
  import BillManager

  /** One row of the listing; the joined columns are null when the tenant or bill is missing. */
  datatype PendingRow = PendingRow(
    id: Id, tenantId: Id, billId: Option<Id>, amount: int, kind: ChargeType,
    tenantName: Option<string>, tenantPhone: Option<string>, billType: Option<ChargeType>)

  /** A payment joined with its tenant and bill. */
  function JoinRow(p: Payment, tenants: seq<Tenant>, bills: seq<Bill>): (r: PendingRow)
    ensures r.id == p.id && r.tenantId == p.tenantId && r.billId == p.billId && r.amount == p.amount && r.kind == p.kind
    ensures var t := TenantManager.TenantById(tenants, p.tenantId);
            && (r.tenantName.None? <==> t.None?) && (r.tenantPhone.None? <==> t.None?)
            && (t.Some? ==> r.tenantName == Some(t.value.name) && r.tenantPhone == Some(t.value.phone))
    ensures r.billType.None? <==> p.billId.None? || BillManager.BillById(bills, p.billId.value).None?
    ensures r.billType.Some? ==> exists b :: b in bills && Some(b.id) == p.billId && r.billType == Some(b.kind)
  {
    var t := TenantManager.TenantById(tenants, p.tenantId);
    var b := if p.billId.Some? then BillManager.BillById(bills, p.billId.value) else None;
    PendingRow(p.id, p.tenantId, p.billId, p.amount, p.kind,
               if t.Some? then Some(t.value.name) else None,
               if t.Some? then Some(t.value.phone) else None,
               if b.Some? then Some(b.value.kind) else None)
  }

  /** The listing: one row per pending payment, in creation order, every payment column carried over. */
  function PendingPayments(payments: seq<Payment>, tenants: seq<Tenant>, bills: seq<Bill>): (r: seq<PendingRow>)
    ensures var pending := Filter(payments, (p: Payment) => p.status == PaymentPending);
            && |r| == |pending|
            && forall i :: 0 <= i < |r| ==> r[i] == JoinRow(pending[i], tenants, bills)
  {
    var pending := Filter(payments, (p: Payment) => p.status == PaymentPending);
    seq(|pending|, i requires 0 <= i < |pending| => JoinRow(pending[i], tenants, bills))
  }

  /** Only pending payments are listed. */
  lemma ListedArePending(payments: seq<Payment>, tenants: seq<Tenant>, bills: seq<Bill>, i: nat)
    requires i < |PendingPayments(payments, tenants, bills)|
    ensures exists p :: p in payments && p.status == PaymentPending && p.id == PendingPayments(payments, tenants, bills)[i].id
  {
    var pending := Filter(payments, (x: Payment) => x.status == PaymentPending);
    assert pending[i] in pending;
  }

  /** Every pending payment appears, even one whose tenant and bill rows are gone. */
  lemma PendingAreListed(payments: seq<Payment>, tenants: seq<Tenant>, bills: seq<Bill>, p: Payment)
    requires p in payments && p.status == PaymentPending
    ensures JoinRow(p, tenants, bills) in PendingPayments(payments, tenants, bills)
  {
    var pending := Filter(payments, (x: Payment) => x.status == PaymentPending);
    var i :| 0 <= i < |pending| && pending[i] == p;
    assert PendingPayments(payments, tenants, bills)[i] == JoinRow(p, tenants, bills);
  }
}

=== FILE: reject_api.dfy ===
/**
 * `POST /api/payments/reject`: an administrator rejects a pending payment.
 * The guards are those of the confirm handler; the payment becomes
 * rejected with a timestamped reason, its bill is reset to unpaid with no
 * paid amount and no paid date, and no coupon is touched.
 */
module RejectApi {
  import opened Wrappers
  import opened Tables
  import opened Schema
  import opened Store
  import opened Http
  import opened ConfirmApi
  import BillManager
  import PaymentManager

  const REJECTED := "已拒绝该支付"
  const DEFAULT_REASON := "商户拒绝"

  /** The note for the remark: the given reason, or the default one when none (or an empty one) is given. */
  function RejectNote(reason: Option<string>): (note: string)
    ensures reason.Some? && reason.value != "" ==> note == "拒绝原因：" + reason.value
    ensures reason.None? || reason.value == "" ==> note == DEFAULT_REASON
  {
    if reason.Some? && reason.value != "" then "拒绝原因：" + reason.value else DEFAULT_REASON
  }

  /** The columns the reject handler writes on the payment. */
  function RejectPatch(remarks: Option<string>, stamp: string, reason: Option<string>): (patch: PaymentManager.PaymentPatch)
    ensures patch.status == Some(Rejected)
    ensures patch.remarks == Some(Some(AppendNote(remarks, stamp, RejectNote(reason))))
    ensures patch.tenantId.None? && patch.billId.None? && patch.amount.None? && patch.kind.None?
    ensures patch.paymentMethod.None? && patch.transactionId.None?
  {
    PaymentManager.PaymentPatch(None, None, None, None, None, None, Some(Rejected),
                                Some(Some(AppendNote(remarks, stamp, RejectNote(reason)))))
  }

  /** The payment table after the reject handler's payment update. */
  function RejectedPayments(payments: seq<Payment>, id: Id, stamp: string, reason: Option<string>): seq<Payment>
    requires PaymentManager.PaymentById(payments, id).Some?
  {
    var p := PaymentManager.PaymentById(payments, id).value;
    UpdateWhere(payments, PaymentManager.IdIs(id), (x: Payment) => PaymentManager.ApplyPatch(x, RejectPatch(p.remarks, stamp, reason)))
  }

  /** The bill row the reject handler writes: unpaid, nothing paid, the paid date cleared. */
  function Unpay(b: Bill): (r: Bill)
    ensures r.status == Unpaid && r.paidAmount == 0 && r.paidDate == None
    ensures r.(status := b.status, paidAmount := b.paidAmount, paidDate := b.paidDate) == b
  {
    b.(status := Unpaid, paidAmount := 0, paidDate := None)
  }

  /** A rejected payment is no longer pending: a later confirm or reject of it is refused with 400. */
  lemma RejectedIsFinal(payments: seq<Payment>, env: Option<string>, req: ApprovalRequest, stamp: string, reason: Option<string>)
    requires DistinctBy(payments, (p: Payment) => p.id)
    requires Guard(payments, env, req).None?
    ensures Guard(RejectedPayments(payments, req.paymentId.value, stamp, reason), env, req) == Some(Fail(400, ALREADY_HANDLED))
  {
    var id := req.paymentId.value;
    var p := PaymentManager.PaymentById(payments, id).value;
    var f := (x: Payment) => PaymentManager.ApplyPatch(x, RejectPatch(p.remarks, stamp, reason));
    UpdateFinds(payments, PaymentManager.IdIs(id), f);
  }

  /** Rejecting a bill that had been marked paid undoes the paid marking entirely. */
  lemma UnpayUndoesPaid(b: Bill, amount: int, now: int)
    requires b.status == Unpaid && b.paidAmount == 0 && b.paidDate == None
    ensures Unpay(BillManager.StatusUpdate(b, Paid, Some(amount), Some(now))) == b
  {
  }

  /** The handler. `env` is `ADMIN_PHONES` and `stamp` the local-time text of the clock. */
  method Reject(db: Db, env: Option<string>, req: ApprovalRequest, reason: Option<string>, stamp: string)
    returns (resp: Response<Approval>)
    requires db.Valid()
    modifies db`payments, db`bills
    ensures db.Valid()
    ensures var g := Guard(old(db.payments), env, req);
            && (g.Some? ==> resp == g.value && db.payments == old(db.payments) && db.bills == old(db.bills))
            && (g.None? ==>
                  var p := PaymentManager.PaymentById(old(db.payments), req.paymentId.value).value;
                  && resp == Ok(Approval(REJECTED, None))
                  && db.payments == RejectedPayments(old(db.payments), p.id, stamp, reason)
                  && db.bills == (if p.billId.Some? then UpdateWhere(old(db.bills), BillManager.IdIs(p.billId.value), Unpay)
                                  else old(db.bills)))
  {
    var g := Guard(db.payments, env, req);
    if g.Some? {
      return g.value;
    }
    var p := PaymentManager.PaymentById(db.payments, req.paymentId.value).value;
    MarkRejected(db, p, stamp, reason);
    UnpayRejected(db, p);
    resp := Ok(Approval(REJECTED, None));
  }

  /** The payment step: the payment becomes rejected with the reject line appended. */
  method MarkRejected(db: Db, p: Payment, stamp: string, reason: Option<string>)
    requires db.Valid() && p in db.payments
    modifies db`payments
    ensures db.Valid()
    ensures PaymentManager.PaymentById(old(db.payments), p.id) == Some(p)
    ensures db.payments == RejectedPayments(old(db.payments), p.id, stamp, reason)
  {
    PaymentManager.PaymentByIdUnique(db.payments, p);
    var _ := PaymentManager.UpdatePayment(db, p.id, RejectPatch(p.remarks, stamp, reason));
  }

  /** The bill step: the payment's bill, when it names one, is reset to unpaid. */
  method UnpayRejected(db: Db, p: Payment)
    requires db.Valid()
    modifies db`bills
    ensures db.Valid()
    ensures db.bills == if p.billId.Some? then UpdateWhere(old(db.bills), BillManager.IdIs(p.billId.value), Unpay)
                        else old(db.bills)
  {
    if p.billId.Some? {
      var _ := BillManager.UpdateBillWith(db, p.billId.value, Unpay);
    }
  }
}

=== FILE: room_grouping.dfy ===
/**
 * Grouping of rooms by room type, as the room manager, the check-in page
 * and the debug route each do it: a dictionary from type to rooms is filled
 * room by room (a missing or empty type counts as 'single'), then turned
 * into a list of groups in the order the types first appear.
 */
module RoomGrouping {
  import opened Tables
  import opened Schema

  datatype RoomGroup = RoomGroup(roomType: string, rooms: seq<Room>)

  const DEFAULT_GROUP := "single"

  /** `room.roomType || 'single'`. */
  function GroupKey(r: Room): (k: string)
    ensures k != ""
    ensures r.roomType.Some? && r.roomType.value != "" ==> k == r.roomType.value
  {
    if r.roomType.None? || r.roomType.value == "" then DEFAULT_GROUP else r.roomType.value
  }

  function HasKey(k: string): Room -> bool
  {
    (r: Room) => GroupKey(r) == k
  }

  /** The group keys of `rooms`, each once, in order of first appearance. */
  function KeysOf(rooms: seq<Room>): seq<string>
    decreases |rooms|
  {
    if rooms == [] then []
    else
      var prev := KeysOf(rooms[..|rooms| - 1]);
      var k := GroupKey(rooms[|rooms| - 1]);
      if k in prev then prev else prev + [k]
  }

  /** The keys are exactly the rooms' keys, without repeats. */
  lemma {:induction false} KeysOfSpec(rooms: seq<Room>)
    ensures forall r :: r in rooms ==> GroupKey(r) in KeysOf(rooms)
    ensures forall k :: k in KeysOf(rooms) ==> exists r :: r in rooms && GroupKey(r) == k
    ensures DistinctBy(KeysOf(rooms), (k: string) => k)
    decreases |rooms|
  {
    if rooms != [] {
      var init := rooms[..|rooms| - 1];
      var last := rooms[|rooms| - 1];
      KeysOfSpec(init);
      assert rooms == init + [last];
      assert forall r :: r in rooms <==> r in init || r == last;
      if GroupKey(last) !in KeysOf(init) {
        DistinctByAppend(KeysOf(init), (k: string) => k, GroupKey(last));
      }
    }
  }

  /** One group per key of `ks`, holding the rooms with that key in their order. */
  function GroupsFor(rooms: seq<Room>, ks: seq<string>): (gs: seq<RoomGroup>)
    ensures |gs| == |ks|
    ensures forall i :: 0 <= i < |ks| ==> gs[i] == RoomGroup(ks[i], Filter(rooms, HasKey(ks[i])))
  {
    seq(|ks|, i requires 0 <= i < |ks| => RoomGroup(ks[i], Filter(rooms, HasKey(ks[i]))))
  }

  /** The grouping of the specification: one group per distinct key, in first-appearance order. */
  function Grouping(rooms: seq<Room>): seq<RoomGroup>
  {
    GroupsFor(rooms, KeysOf(rooms))
  }

  /**
   * The `forEach` that fills the dictionary and the `Object.entries(...).map`
   * that lists it: the result is the grouping of the specification.
   */
  method GroupByRoomType(rooms: seq<Room>) returns (groups: seq<RoomGroup>)
    ensures groups == Grouping(rooms)
  {
    var keys: seq<string> := [];
    var grouped: map<string, seq<Room>> := map[];
    for i := 0 to |rooms|
      invariant GroupedSoFar(rooms[..i], keys, grouped)
    {
      var room := rooms[i];
      var k := GroupKey(room);
      PlaceStep(rooms[..i], room, keys, grouped);
      if k !in grouped {
        keys := keys + [k];
        grouped := grouped[k := [room]];
      } else {
        grouped := grouped[k := grouped[k] + [room]];
      }
      assert rooms[..i + 1] == rooms[..i] + [room];
    }
    assert rooms[..|rooms|] == rooms;
    groups := seq(|keys|, j requires 0 <= j < |keys| => RoomGroup(keys[j], grouped[keys[j]]));
  }

  /** The loop state after the rooms of `prefix`: keys in first-appearance order, each mapped to its rooms. */
  ghost predicate GroupedSoFar(prefix: seq<Room>, keys: seq<string>, grouped: map<string, seq<Room>>)
  {
    && keys == KeysOf(prefix)
    && (forall k :: k in grouped <==> k in keys)
    && (forall k :: k in keys ==> grouped[k] == Filter(prefix, HasKey(k)))
  }

  /** One iteration of the grouping loop keeps its invariant. */
  lemma PlaceStep(prefix: seq<Room>, room: Room, keys: seq<string>, grouped: map<string, seq<Room>>)
    requires GroupedSoFar(prefix, keys, grouped)
    ensures var k := GroupKey(room);
      if k !in grouped then GroupedSoFar(prefix + [room], keys + [k], grouped[k := [room]])
      else GroupedSoFar(prefix + [room], keys, grouped[k := grouped[k] + [room]])
  {
    if GroupKey(room) !in grouped {
      PlaceNew(prefix, room, keys, grouped);
    } else {
      PlaceExisting(prefix, room, keys, grouped);
    }
  }

  /** A room of a type not seen yet opens a group of its own. */
  lemma PlaceNew(prefix: seq<Room>, room: Room, keys: seq<string>, grouped: map<string, seq<Room>>)
    requires GroupedSoFar(prefix, keys, grouped)
    requires GroupKey(room) !in grouped
    ensures GroupedSoFar(prefix + [room], keys + [GroupKey(room)], grouped[GroupKey(room) := [room]])
  {
    var k := GroupKey(room);
    var keys' := keys + [k];
    var grouped' := grouped[k := [room]];
    KeysStep(prefix, room);
    assert keys' == KeysOf(prefix + [room]);
    forall k' | k' in keys' ensures grouped'[k'] == Filter(prefix + [room], HasKey(k')) {
      FilterConcat(prefix, [room], HasKey(k'));
      if k' == k {
        KeysOfSpec(prefix);
        FilterNone(prefix, HasKey(k));
      }
    }
  }

  /** A room of a type seen before joins the end of that group. */
  lemma PlaceExisting(prefix: seq<Room>, room: Room, keys: seq<string>, grouped: map<string, seq<Room>>)
    requires GroupedSoFar(prefix, keys, grouped)
    requires GroupKey(room) in grouped
    ensures GroupedSoFar(prefix + [room], keys, grouped[GroupKey(room) := grouped[GroupKey(room)] + [room]])
  {
    var k := GroupKey(room);
    var grouped' := grouped[k := grouped[k] + [room]];
    assert k in keys;
    KeysStep(prefix, room);
    assert keys == KeysOf(prefix + [room]);
    assert grouped'.Keys == grouped.Keys;
    forall k' | k' in keys ensures grouped'[k'] == Filter(prefix + [room], HasKey(k')) {
      FilterConcat(prefix, [room], HasKey(k'));
    }
  }

  /** How one more room changes the list of keys. */
  lemma KeysStep(s: seq<Room>, x: Room)
    ensures KeysOf(s + [x]) == if GroupKey(x) in KeysOf(s) then KeysOf(s) else KeysOf(s) + [GroupKey(x)]
  {
    assert (s + [x])[..|s + [x]| - 1] == s;
  }

  /** How one more room changes each key's filtered rooms. */
  lemma FilterStep(s: seq<Room>, x: Room)
    ensures forall k :: Filter(s + [x], HasKey(k)) == Filter(s, HasKey(k)) + (if GroupKey(x) == k then [x] else [])
  {
    forall k ensures Filter(s + [x], HasKey(k)) == Filter(s, HasKey(k)) + (if GroupKey(x) == k then [x] else []) {
      FilterConcat(s, [x], HasKey(k));
    }
  }

  /** Every room is in exactly one group: the one for its key. */
  lemma EveryRoomInOneGroup(rooms: seq<Room>, r: Room)
    requires r in rooms
    ensures exists i :: 0 <= i < |Grouping(rooms)| && r in Grouping(rooms)[i].rooms
    ensures forall i :: 0 <= i < |Grouping(rooms)| && r in Grouping(rooms)[i].rooms ==>
              Grouping(rooms)[i].roomType == GroupKey(r)
    ensures forall i, j ::
              (0 <= i < |Grouping(rooms)| && 0 <= j < |Grouping(rooms)| &&
               r in Grouping(rooms)[i].rooms && r in Grouping(rooms)[j].rooms) ==> i == j
  {
    var ks := KeysOf(rooms);
    KeysOfSpec(rooms);
    var i :| 0 <= i < |ks| && ks[i] == GroupKey(r);
    assert r in Grouping(rooms)[i].rooms;
  }

  /** No group is empty, the group types are distinct, and each group keeps the fetch order. */
  lemma GroupsWellFormed(rooms: seq<Room>)
    ensures forall i :: 0 <= i < |Grouping(rooms)| ==> |Grouping(rooms)[i].rooms| > 0
    ensures forall i, j :: 0 <= i < j < |Grouping(rooms)| ==> Grouping(rooms)[i].roomType != Grouping(rooms)[j].roomType
    ensures forall i :: 0 <= i < |Grouping(rooms)| ==> SubseqOf(Grouping(rooms)[i].rooms, rooms)
  {
    var ks := KeysOf(rooms);
    var gs := Grouping(rooms);
    KeysOfSpec(rooms);
    forall i | 0 <= i < |gs| ensures |gs[i].rooms| > 0 {
      assert ks[i] in ks;
      var r :| r in rooms && GroupKey(r) == ks[i];
      assert r in gs[i].rooms;
    }
  }

  /** The number of rooms over all groups. */
  function TotalSize(gs: seq<RoomGroup>): nat
  {
    if gs == [] then 0 else |gs[0].rooms| + TotalSize(gs[1..])
  }

  /** Adding a room in front adds one to the group of its key, when that key is listed. */
  lemma {:induction false} TotalSizeCons(x: Room, rest: seq<Room>, ks: seq<string>)
    requires DistinctBy(ks, (k: string) => k)
    ensures TotalSize(GroupsFor([x] + rest, ks)) == TotalSize(GroupsFor(rest, ks)) + (if GroupKey(x) in ks then 1 else 0)
    decreases |ks|
  {
    if ks != [] {
      var tail := ks[1..];
      assert DistinctBy(tail, (k: string) => k);
      TotalSizeCons(x, rest, tail);
      assert GroupsFor([x] + rest, ks)[1..] == GroupsFor([x] + rest, tail);
      assert GroupsFor(rest, ks)[1..] == GroupsFor(rest, tail);
      assert ([x] + rest)[1..] == rest;
      assert GroupKey(x) in ks <==> GroupKey(x) == ks[0] || GroupKey(x) in tail;
      if GroupKey(x) == ks[0] {
        assert ks[0] !in tail by {
          forall j | 0 <= j < |tail| ensures tail[j] != ks[0] {
            assert ks[j + 1] == tail[j];
          }
        }
      }
    }
  }

  /** Over keys that are distinct and cover every room, the group sizes add up to the number of rooms. */
  lemma {:induction false} TotalSizeCovers(rooms: seq<Room>, ks: seq<string>)
    requires DistinctBy(ks, (k: string) => k)
    requires forall r :: r in rooms ==> GroupKey(r) in ks
    ensures TotalSize(GroupsFor(rooms, ks)) == |rooms|
    decreases |rooms|
  {
    if rooms == [] {
      EmptyGroups(ks);
    } else {
      assert rooms == [rooms[0]] + rooms[1..];
      TotalSizeCovers(rooms[1..], ks);
      TotalSizeCons(rooms[0], rooms[1..], ks);
    }
  }

  lemma {:induction false} EmptyGroups(ks: seq<string>)
    ensures TotalSize(GroupsFor([], ks)) == 0
    decreases |ks|
  {
    if ks != [] {
      assert GroupsFor([], ks)[1..] == GroupsFor([], ks[1..]);
      EmptyGroups(ks[1..]);
    }
  }

  /** The group sizes sum to the number of rooms grouped. */
  lemma GroupSizesSum(rooms: seq<Room>)
    ensures TotalSize(Grouping(rooms)) == |rooms|
  {
    KeysOfSpec(rooms);
    TotalSizeCovers(rooms, KeysOf(rooms));
  }

  /** There is one group per distinct room type among the rooms grouped. */
  lemma GroupCountIsKeyCount(rooms: seq<Room>)
    ensures |Grouping(rooms)| == |set r | r in rooms :: GroupKey(r)|
  {
    var ks := KeysOf(rooms);
    KeysOfSpec(rooms);
    assert (set r | r in rooms :: GroupKey(r)) == set k | k in ks;
    DistinctKeysCount(ks);
  }

  /** A list of distinct keys has as many elements as its set. */
  lemma {:induction false} DistinctKeysCount(ks: seq<string>)
    requires DistinctBy(ks, (k: string) => k)
    ensures |set k | k in ks| == |ks|
    decreases |ks|
  {
    if ks != [] {
      var tail := ks[1..];
      assert DistinctBy(tail, (k: string) => k);
      DistinctKeysCount(tail);
      assert ks[0] !in tail by {
        forall j | 0 <= j < |tail| ensures tail[j] != ks[0] {
          assert ks[j + 1] == tail[j];
        }
      }
      assert (set k | k in ks) == (set k | k in tail) + {ks[0]};
    }
  }
}

=== FILE: room_manager.dfy ===
/**
 * The room manager: insert, the filtered and ordered listing, lookups by id
 * and by room number, the status update used at check-in, the available
 * rooms grouped by room type, and the one-off seeding of the building's 20
 * rooms.
 */
module RoomManager {
  import opened Wrappers
  import opened Money
  import opened Tables
  import opened Schema
  import opened Store
  import opened RoomOrder
  import opened RoomGrouping

  /** The predicate `WHERE id = ?` on rooms. */
  function IdIs(id: Id): Room -> bool
  {
    (r: Room) => r.id == id
  }

  /** The predicate `WHERE room_number = ?`. */
  function NumberIs(number: string): Room -> bool
  {
    (r: Room) => r.roomNumber == number
  }

  /** `getRoomById`: the room with that id, or none. */
  function RoomById(rooms: seq<Room>, id: Id): (r: Option<Room>)
    ensures r.None? <==> forall x :: x in rooms ==> x.id != id
    ensures r.Some? ==> r.value in rooms && r.value.id == id
  {
    FirstWhere(rooms, IdIs(id))
  }

  /** `getRoomByNumber`: the room with that number, or none. */
  function RoomByNumber(rooms: seq<Room>, number: string): (r: Option<Room>)
    ensures r.None? <==> forall x :: x in rooms ==> x.roomNumber != number
    ensures r.Some? ==> r.value in rooms && r.value.roomNumber == number
  {
    FirstWhere(rooms, NumberIs(number))
  }

  /** Room numbers are unique, so the lookup by number finds each room of the table. */
  lemma RoomByNumberFindsEach(rooms: seq<Room>, i: nat)
    requires UniqueRoomNumbers(rooms) && i < |rooms|
    ensures RoomByNumber(rooms, rooms[i].roomNumber) == Some(rooms[i])
  {
    FirstWhereAt(rooms, NumberIs(rooms[i].roomNumber), i);
  }

  /** The optional equality filters of `getRooms`; an absent one does not filter. */
  datatype RoomQuery = RoomQuery(floor: Option<int>, kind: Option<string>, roomType: Option<string>, status: Option<RoomStatus>)

  const ALL_ROOMS := RoomQuery(None, None, None, None)

  /** The rooms `getAvailableRoomsByType` lists: rooms proper (`type = 'room'`) that are available. */
  const AVAILABLE_ROOMS := RoomQuery(None, Some("room"), None, Some(Available))

  /** A null room type equals no given value. */
  predicate RoomMatches(r: Room, q: RoomQuery)
  {
    && (q.floor.None? || r.floor == q.floor.value)
    && (q.kind.None? || r.kind == q.kind.value)
    && (q.roomType.None? || r.roomType == Some(q.roomType.value))
    && (q.status.None? || r.status == q.status.value)
  }

  /** `getRooms`: the rooms matching every given filter, ordered by floor and room number. */
  function GetRooms(db: Db, q: RoomQuery): (r: seq<Room>)
    reads db
    ensures multiset(r) == multiset(Filter(db.rooms, (x: Room) => RoomMatches(x, q)))
    ensures forall x :: x in r <==> x in db.rooms && RoomMatches(x, q)
    ensures Sorted(r)
  {
    ListingSpec(Filter(db.rooms, (x: Room) => RoomMatches(x, q)));
    SortRooms(Filter(db.rooms, (x: Room) => RoomMatches(x, q)))
  }

  /** The sort of the matching rooms is in order and holds exactly those rooms. */
  lemma ListingSpec(matching: seq<Room>)
    ensures Sorted(SortRooms(matching)) && multiset(SortRooms(matching)) == multiset(matching)
    ensures forall x :: x in SortRooms(matching) <==> x in matching
  {
    SortRoomsSpec(matching);
    SameMembers(SortRooms(matching), matching);
  }

  /** Sequences with the same multiset have the same members. */
  lemma SameMembers(a: seq<Room>, b: seq<Room>)
    requires multiset(a) == multiset(b)
    ensures forall x :: x in a <==> x in b
  {
    forall x ensures x in a <==> x in b {
      assert x in a <==> x in multiset(a);
      assert x in b <==> x in multiset(b);
    }
  }

  /** With no filter the listing holds each room of the table exactly once. */
  lemma ListingWithoutFilters(db: Db)
    ensures multiset(GetRooms(db, ALL_ROOMS)) == multiset(db.rooms)
  {
    FilterAll(db.rooms, (x: Room) => RoomMatches(x, ALL_ROOMS));
  }

  /** Room numbers are unique, so the listing is the one and only ordering of the matching rooms. */
  lemma ListingIsDetermined(db: Db, q: RoomQuery, other: seq<Room>)
    requires db.Valid()
    requires Sorted(other) && multiset(other) == multiset(Filter(db.rooms, (x: Room) => RoomMatches(x, q)))
    ensures other == GetRooms(db, q)
  {
    var matching := Filter(db.rooms, (x: Room) => RoomMatches(x, q));
    DistinctBySubseq(matching, db.rooms, (r: Room) => r.roomNumber);
    PermutationKeepsUnique(GetRooms(db, q), matching);
    SortedIsUnique(GetRooms(db, q), other);
  }

  /** A reordering of rooms with unique numbers has unique numbers. */
  lemma PermutationKeepsUnique(listed: seq<Room>, rooms: seq<Room>)
    requires UniqueRoomNumbers(rooms) && multiset(listed) == multiset(rooms)
    ensures UniqueRoomNumbers(listed)
  {
    forall i, j | 0 <= i < j < |listed| ensures listed[i].roomNumber != listed[j].roomNumber {
      DistinctInMultiset(rooms, listed, i, j);
    }
  }

  /** Two positions of a reordering of rooms with unique numbers hold different numbers. */
  lemma DistinctInMultiset(rooms: seq<Room>, listed: seq<Room>, i: nat, j: nat)
    requires UniqueRoomNumbers(rooms)
    requires multiset(listed) == multiset(rooms)
    requires i < j < |listed|
    ensures listed[i].roomNumber != listed[j].roomNumber
  {
    if listed[i].roomNumber == listed[j].roomNumber {
      assert listed[i] in rooms && listed[j] in rooms by {
        assert listed[i] in multiset(listed) && listed[j] in multiset(listed);
      }
      var a :| 0 <= a < |rooms| && rooms[a] == listed[i];
      var b :| 0 <= b < |rooms| && rooms[b] == listed[j];
      assert a == b;
      TwiceInListing(listed, i, j);
      MultiplicityOneIfUnique(rooms, a);
      assert false;
    }
  }

  lemma TwiceInListing(listed: seq<Room>, i: nat, j: nat)
    requires i < j < |listed| && listed[i] == listed[j]
    ensures multiset(listed)[listed[i]] >= 2
  {
    var x := listed[i];
    assert listed == listed[..i] + [x] + listed[i + 1..];
    assert x in listed[i + 1..] by {
      assert listed[i + 1..][j - i - 1] == listed[j];
    }
  }

  /** In a table with unique numbers each room occurs once. */
  lemma MultiplicityOneIfUnique(rooms: seq<Room>, a: nat)
    requires UniqueRoomNumbers(rooms) && a < |rooms|
    ensures multiset(rooms)[rooms[a]] == 1
  {
    var r := rooms[a];
    assert rooms == rooms[..a] + [r] + rooms[a + 1..];
    assert r !in rooms[..a] by {
      forall x | x in rooms[..a] ensures x != r {
        var k :| 0 <= k < a && rooms[..a][k] == x;
        assert rooms[k] == x;
      }
    }
    assert r !in rooms[a + 1..] by {
      var tail := rooms[a + 1..];
      forall x | x in tail ensures x != r {
        var k :| 0 <= k < |tail| && tail[k] == x;
        assert rooms[a + 1 + k] == x;
      }
    }
  }

  /**
   * `createRoom`: inserts one room, defaults applied, and returns it. A room
   * number already in use violates the unique constraint: nothing is inserted.
   */
  method CreateRoom(db: Db, data: RoomInput) returns (room: Option<Room>)
    requires db.Valid()
    modifies db`rooms, db`nextId
    ensures db.Valid()
    ensures room.None? <==> exists r :: r in old(db.rooms) && r.roomNumber == data.roomNumber
    ensures room.None? ==> db.rooms == old(db.rooms) && db.nextId == old(db.nextId)
    ensures room.Some? ==> room.value == RoomRow(old(db.nextId), data) && db.rooms == old(db.rooms) + [room.value]
    ensures room.Some? ==> db.nextId == old(db.nextId) + 1
  {
    if RoomByNumber(db.rooms, data.roomNumber).Some? {
      return None;
    }
    var id := db.FreshId();
    var row := RoomRow(id, data);
    db.AddRoom(row);
    room := Some(row);
  }

  /** The status of the room `updateRoomStatus` writes; nothing else changes. */
  function WithStatus(status: RoomStatus): Room -> Room
  {
    (r: Room) => r.(status := status)
  }

  /**
   * `updateRoomStatus`: sets the status of the room with that id and returns
   * it; an unknown id changes nothing and gives none.
   */
  method UpdateRoomStatus(db: Db, id: Id, status: RoomStatus) returns (room: Option<Room>)
    requires db.Valid()
    modifies db`rooms
    ensures db.Valid()
    ensures db.rooms == UpdateWhere(old(db.rooms), IdIs(id), WithStatus(status))
    ensures room.None? <==> forall r :: r in old(db.rooms) ==> r.id != id
    ensures room.None? ==> db.rooms == old(db.rooms)
    ensures room.Some? ==> room == Some(RoomById(old(db.rooms), id).value.(status := status))
  {
    UpdateFinds(db.rooms, IdIs(id), WithStatus(status));
    UpdateKeepsKeys(db.rooms, IdIs(id), WithStatus(status), (r: Room) => r.id);
    UpdateKeepsKeys(db.rooms, IdIs(id), WithStatus(status), (r: Room) => r.roomNumber);
    db.SetRooms(UpdateWhere(db.rooms, IdIs(id), WithStatus(status)));
    room := RoomById(db.rooms, id);
  }

  /** A status update leaves every other room and every other column as it was. */
  lemma StatusUpdateChangesOnlyStatus(rooms: seq<Room>, id: Id, status: RoomStatus, i: nat)
    requires i < |rooms|
    ensures UpdateWhere(rooms, IdIs(id), WithStatus(status))[i].(status := rooms[i].status) == rooms[i]
    ensures rooms[i].id != id ==> UpdateWhere(rooms, IdIs(id), WithStatus(status))[i] == rooms[i]
  {
  }

  /**
   * `getAvailableRoomsByType`: the available rooms, in listing order,
   * grouped by room type.
   */
  method GetAvailableRoomsByType(db: Db) returns (groups: seq<RoomGroup>)
    ensures groups == Grouping(GetRooms(db, AVAILABLE_ROOMS))
  {
    var available := GetRooms(db, AVAILABLE_ROOMS);
    groups := GroupByRoomType(available);
  }

  /** Each grouped room is an available room of the table, filed under its own type. */
  lemma AvailableGroupsHoldAvailableRooms(db: Db, g: nat, r: Room)
    requires g < |Grouping(GetRooms(db, AVAILABLE_ROOMS))|
    requires r in Grouping(GetRooms(db, AVAILABLE_ROOMS))[g].rooms
    ensures r in db.rooms && r.kind == "room" && r.status == Available
    ensures Grouping(GetRooms(db, AVAILABLE_ROOMS))[g].roomType == GroupKey(r)
  {
  }

  // Seeding.

  /** One room of the building as `initializeRooms` inserts it. */
  datatype Seed = Seed(floor: int, unit: int, roomType: string, area: int, rent: Cents)

  function Digit(n: int): (c: char)
    requires 0 <= n <= 9
    ensures '0' <= c <= '9'
  {
    (48 + n) as char
  }

  predicate OneDigit(s: Seed)
  {
    1 <= s.floor <= 9 && 1 <= s.unit <= 9
  }

  /** The room number: the floor digit, `0`, then the unit digit (`30${i}`). */
  function SeedNumber(s: Seed): (n: string)
    requires OneDigit(s)
    ensures |n| == 3 && n[0] == Digit(s.floor)
  {
    [Digit(s.floor), '0', Digit(s.unit)]
  }

  /**
   * The 20 rooms, in insert order: 201-204 on the second floor, 301-308 on
   * the third, 401-408 on the fourth, each with its room type, area and rent
   * in cents; the two loops of the source are the two runs.
   */
  const SEED: seq<Seed> :=
    [Seed(2, 1, "二房", 50, 80000), Seed(2, 2, "二房", 50, 80000),
     Seed(2, 3, "二房一厅", 60, 70000), Seed(2, 4, "二房一厅", 60, 70000)]
    + SeedRun(3, 1, 4, "小单间", 25, 30000)
    + [Seed(3, 5, "单间", 30, 40000), Seed(3, 6, "单间", 30, 40000),
       Seed(3, 7, "大单间", 35, 50000), Seed(3, 8, "大单间", 35, 50000),
       Seed(4, 1, "小复式", 45, 40000)]
    + SeedRun(4, 2, 6, "复式", 55, 50000)
    + [Seed(4, 7, "大复式", 70, 70000), Seed(4, 8, "大复式", 70, 70000)]

  /** The rooms a `for (let i = first; i <= last; i++)` loop inserts: units `first` to `last` of one floor, all alike. */
  function SeedRun(floor: int, first: int, last: int, roomType: string, area: int, rent: Cents): (run: seq<Seed>)
    ensures |run| == if first <= last then last - first + 1 else 0
    ensures forall k :: 0 <= k < |run| ==> run[k] == Seed(floor, first + k, roomType, area, rent)
    decreases last - first
  {
    if first > last then [] else [Seed(floor, first, roomType, area, rent)] + SeedRun(floor, first + 1, last, roomType, area, rent)
  }

  /** Floor and unit as one number: `floor * 10 + unit`. */
  function SeedKey(s: Seed): int
  {
    10 * s.floor + s.unit
  }

  /** Each seed has a one-digit floor and unit, and floor and unit go up together through the list. */
  ghost predicate WellFormedSeeds(seeds: seq<Seed>)
  {
    && (forall i :: 0 <= i < |seeds| ==> OneDigit(seeds[i]))
    && (forall i, j :: 0 <= i < j < |seeds| ==> SeedKey(seeds[i]) < SeedKey(seeds[j]))
  }

  /** The key of the `i`-th seed: units 1-4 of floor 2, then 1-8 of floor 3, then 1-8 of floor 4. */
  function KeyAt(i: nat): int
  {
    if i < 4 then 21 + i else if i < 12 then 31 + (i - 4) else 41 + (i - 12)
  }

  lemma SeedAt(i: nat)
    requires i < |SEED|
    ensures 2 <= SEED[i].floor <= 4 && 1 <= SEED[i].unit <= 8 && SeedKey(SEED[i]) == KeyAt(i)
  {
    assert i == 0 || i == 1 || i == 2 || i == 3 || i == 4 || i == 5 || i == 6 || i == 7 || i == 8 || i == 9
        || i == 10 || i == 11 || i == 12 || i == 13 || i == 14 || i == 15 || i == 16 || i == 17 || i == 18 || i == 19;
  }

  /** The seed list has 20 rooms, with one-digit floors and units, in increasing floor and unit. */
  lemma SeedIsWellFormed()
    ensures |SEED| == 20
    ensures WellFormedSeeds(SEED)
  {
    assert |SEED| == 20;
    forall i | 0 <= i < |SEED| ensures 2 <= SEED[i].floor <= 4 && 1 <= SEED[i].unit <= 8 && SeedKey(SEED[i]) == KeyAt(i) {
      SeedAt(i);
    }
  }

  /** Floors 2, 3 and 4 hold 4, 8 and 8 rooms, in that order. */
  lemma SeedFloors()
    ensures |SEED| == 20
    ensures forall i :: 0 <= i < 4 ==> SEED[i].floor == 2
    ensures forall i :: 4 <= i < 12 ==> SEED[i].floor == 3
    ensures forall i :: 12 <= i < 20 ==> SEED[i].floor == 4
  {
    SeedIsWellFormed();
    forall i | 0 <= i < 20 ensures SeedKey(SEED[i]) == KeyAt(i) && 1 <= SEED[i].unit <= 8 {
      SeedAt(i);
    }
  }

  /** Seeds with different keys get different room numbers. */
  lemma NumbersDistinct(s: Seed, t: Seed)
    requires OneDigit(s) && OneDigit(t) && SeedKey(s) != SeedKey(t)
    ensures SeedNumber(s) != SeedNumber(t)
  {
    if s.floor == t.floor {
      assert SeedNumber(s)[2] != SeedNumber(t)[2];
    }
  }

  /** On one floor a lower unit gets a lower room number. */
  lemma NumbersOrdered(s: Seed, t: Seed)
    requires OneDigit(s) && OneDigit(t) && s.floor == t.floor && s.unit < t.unit
    ensures StrLeq(SeedNumber(s), SeedNumber(t))
  {
    var x := SeedNumber(s);
    var y := SeedNumber(t);
    assert StrLeq(x[2..], y[2..]);
    assert StrLeq(x[1..], y[1..]) by { assert x[1..][1..] == x[2..] && y[1..][1..] == y[2..]; }
  }

  /** The insert `initializeRooms` makes for a seed: a room proper, available, its price its base rent. */
  function SeedInput(s: Seed): (data: RoomInput)
    requires OneDigit(s)
    ensures data.roomNumber == SeedNumber(s) && data.floor == s.floor && data.kind == "room"
    ensures data.status == Some(Available) && data.roomType == Some(s.roomType)
    ensures data.baseRent == Some(s.rent) && data.price == Some(s.rent) && data.area == Some(s.area)
  {
    RoomInput(SeedNumber(s), s.floor, "room", Some(s.area), Some(s.rent), Some(Available), Some(s.roomType), Some(s.rent))
  }

  /** The rooms inserted for `seeds` into an empty table whose id counter stood at `base`. */
  function RowsOf(seeds: seq<Seed>, base: Id): (rows: seq<Room>)
    requires forall i :: 0 <= i < |seeds| ==> OneDigit(seeds[i])
    ensures |rows| == |seeds|
    ensures forall i :: 0 <= i < |seeds| ==> rows[i] == RoomRow(base + i, SeedInput(seeds[i]))
  {
    seq(|seeds|, i requires 0 <= i < |seeds| => RoomRow(base + i, SeedInput(seeds[i])))
  }

  /** The rooms table after seeding an empty one whose id counter stood at `base`. */
  function SeedRows(base: Id): (rows: seq<Room>)
    ensures |rows| == 20
  {
    SeedIsWellFormed();
    RowsOf(SEED, base)
  }

  /** Every seeded room is an available room proper whose price is its base rent, numbered after its floor. */
  lemma SeededRoomFacts(base: Id, i: nat)
    requires i < 20
    ensures var r := SeedRows(base)[i];
      && r.id == base + i && r.kind == "room" && r.status == Available
      && r.price == r.baseRent == Some(SEED[i].rent)
      && r.roomType == Some(SEED[i].roomType) && r.floor == SEED[i].floor
      && |r.roomNumber| == 3 && r.roomNumber[0] == Digit(r.floor)
  {
    SeedIsWellFormed();
  }

  /** Rows seeded from well-formed seeds have unique numbers. */
  lemma RowsUnique(seeds: seq<Seed>, base: Id)
    requires WellFormedSeeds(seeds)
    ensures UniqueRoomNumbers(RowsOf(seeds, base))
  {
    var rows := RowsOf(seeds, base);
    forall i, j | 0 <= i < j < |rows| ensures rows[i].roomNumber != rows[j].roomNumber {
      NumbersDistinct(seeds[i], seeds[j]);
    }
  }

  /** Rows seeded from well-formed seeds are in listing order. */
  lemma RowsSorted(seeds: seq<Seed>, base: Id)
    requires WellFormedSeeds(seeds)
    ensures Sorted(RowsOf(seeds, base))
  {
    var rows := RowsOf(seeds, base);
    forall i, j | 0 <= i < j < |rows| ensures RoomLeq(rows[i], rows[j]) {
      assert SeedKey(seeds[i]) < SeedKey(seeds[j]);
      if seeds[i].floor == seeds[j].floor {
        NumbersOrdered(seeds[i], seeds[j]);
      }
    }
  }

  /** The seeded table has unique numbers and is in listing order. */
  lemma SeededRowsSortedAndUnique(base: Id)
    ensures UniqueRoomNumbers(SeedRows(base)) && Sorted(SeedRows(base))
  {
    SeedIsWellFormed();
    RowsUnique(SEED, base);
    RowsSorted(SEED, base);
  }

  /** Inserts the rooms of `seeds`, one by one and in order, into an empty table. */
  method InsertSeeds(db: Db, seeds: seq<Seed>)
    requires db.Valid() && db.rooms == [] && WellFormedSeeds(seeds)
    modifies db`rooms, db`nextId
    ensures db.Valid()
    ensures db.rooms == RowsOf(seeds, old(db.nextId)) && db.nextId == old(db.nextId) + |seeds|
  {
    ghost var base := db.nextId;
    ghost var rows := RowsOf(seeds, base);
    RowsUnique(seeds, base);
    for i := 0 to |seeds|
      invariant db.Valid()
      invariant db.nextId == base + i
      invariant db.rooms == rows[..i]
    {
      NumberNotSeededYet(rows, i);
      var room := CreateRoom(db, SeedInput(seeds[i]));
      assert rows[..i + 1] == rows[..i] + [rows[i]];
    }
    assert rows[..|seeds|] == rows;
  }

  /** In a table with unique numbers, no room before position `i` has the number of the room at `i`. */
  lemma NumberNotSeededYet(rows: seq<Room>, i: nat)
    requires UniqueRoomNumbers(rows) && i < |rows|
    ensures forall r :: r in rows[..i] ==> r.roomNumber != rows[i].roomNumber
  {
    forall r | r in rows[..i] ensures r.roomNumber != rows[i].roomNumber {
      var k :| 0 <= k < i && rows[..i][k] == r;
    }
  }

  /**
   * `initializeRooms`: seeds the 20 rooms when the table is empty, inserting
   * them one by one in the source's order; a table that holds any room is
   * left alone.
   */
  method InitializeRooms(db: Db)
    requires db.Valid()
    modifies db`rooms, db`nextId
    ensures db.Valid()
    ensures old(db.rooms) != [] ==> db.rooms == old(db.rooms) && db.nextId == old(db.nextId)
    ensures old(db.rooms) == [] ==> db.rooms == SeedRows(old(db.nextId)) && db.nextId == old(db.nextId) + 20
  {
    if db.rooms != [] {
      return;
    }
    SeedIsWellFormed();
    InsertSeeds(db, SEED);
  }

  /** Right after seeding, the unfiltered listing is the 20 rooms in seed order. */
  lemma SeededListing(db: Db, base: Id)
    requires db.rooms == SeedRows(base)
    ensures GetRooms(db, ALL_ROOMS) == db.rooms
  {
    FilterAll(db.rooms, (x: Room) => RoomMatches(x, ALL_ROOMS));
    SeededRowsSortedAndUnique(base);
    SortSortedIsIdentity(db.rooms);
  }
}

=== FILE: room_order.dfy ===
/**
 * The order of the room listing, `ORDER BY floor, room_number`: by floor,
 * then by room number compared character by character (code-point order,
 * as under the C collation),
 * computed here as a stable insertion sort.
 */
module RoomOrder {
  import opened Tables
  import opened Schema

  /** `a` sorts before or equal to `b`, comparing characters by code point and a prefix first. */
  predicate StrLeq(a: string, b: string)
    decreases |a|
  {
    a == [] || (b != [] && (a[0] < b[0] || (a[0] == b[0] && StrLeq(a[1..], b[1..]))))
  }

  lemma {:induction false} StrLeqTotal(a: string, b: string)
    ensures StrLeq(a, b) || StrLeq(b, a)
    decreases |a|
  {
    if a != [] && b != [] && a[0] == b[0] {
      StrLeqTotal(a[1..], b[1..]);
    }
  }

  lemma {:induction false} StrLeqTrans(a: string, b: string, c: string)
    requires StrLeq(a, b) && StrLeq(b, c)
    ensures StrLeq(a, c)
    decreases |a|
  {
    if a != [] && a[0] == b[0] && b[0] == c[0] {
      StrLeqTrans(a[1..], b[1..], c[1..]);
    }
  }

  lemma {:induction false} StrLeqAntisym(a: string, b: string)
    requires StrLeq(a, b) && StrLeq(b, a)
    ensures a == b
    decreases |a|
  {
    if a != [] {
      StrLeqAntisym(a[1..], b[1..]);
      assert a == [a[0]] + a[1..] && b == [b[0]] + b[1..];
    }
  }

  /** `x` is listed no later than `y`: lower floor first, then lower room number. */
  predicate RoomLeq(x: Room, y: Room)
  {
    x.floor < y.floor || (x.floor == y.floor && StrLeq(x.roomNumber, y.roomNumber))
  }

  lemma RoomLeqTotal(x: Room, y: Room)
    ensures RoomLeq(x, y) || RoomLeq(y, x)
  {
    StrLeqTotal(x.roomNumber, y.roomNumber);
  }

  lemma RoomLeqTrans(x: Room, y: Room, z: Room)
    requires RoomLeq(x, y) && RoomLeq(y, z)
    ensures RoomLeq(x, z)
  {
    if x.floor == y.floor == z.floor {
      StrLeqTrans(x.roomNumber, y.roomNumber, z.roomNumber);
    }
  }

  /** Two rooms each listed no later than the other share floor and room number. */
  lemma RoomLeqAntisym(x: Room, y: Room)
    requires RoomLeq(x, y) && RoomLeq(y, x)
    ensures x.floor == y.floor && x.roomNumber == y.roomNumber
  {
    StrLeqAntisym(x.roomNumber, y.roomNumber);
  }

  ghost predicate Sorted(s: seq<Room>)
  {
    forall i, j :: 0 <= i < j < |s| ==> RoomLeq(s[i], s[j])
  }

  /** Places `r` before the first room it sorts no later than. */
  function InsertRoom(r: Room, s: seq<Room>): seq<Room>
    decreases |s|
  {
    if s == [] || RoomLeq(r, s[0]) then [r] + s
    else [s[0]] + InsertRoom(r, s[1..])
  }

  function SortRooms(s: seq<Room>): seq<Room>
    decreases |s|
  {
    if s == [] then [] else InsertRoom(s[0], SortRooms(s[1..]))
  }

  lemma {:induction false} InsertSameRooms(r: Room, s: seq<Room>)
    ensures multiset(InsertRoom(r, s)) == multiset(s) + multiset{r}
    decreases |s|
  {
    if s != [] && !RoomLeq(r, s[0]) {
      InsertSameRooms(r, s[1..]);
      assert s == [s[0]] + s[1..];
    }
  }

  lemma {:induction false} InsertKeepsSorted(r: Room, s: seq<Room>)
    requires Sorted(s)
    ensures Sorted(InsertRoom(r, s))
    decreases |s|
  {
    if s == [] {
    } else if RoomLeq(r, s[0]) {
      var t := [r] + s;
      forall i, j | 0 <= i < j < |t| ensures RoomLeq(t[i], t[j]) {
        if i == 0 && j > 1 {
          RoomLeqTrans(r, s[0], s[j - 1]);
        }
      }
    } else {
      RoomLeqTotal(r, s[0]);
      InsertKeepsSorted(r, s[1..]);
      var t := InsertRoom(r, s[1..]);
      InsertSameRooms(r, s[1..]);
      forall k | 0 <= k < |t| ensures RoomLeq(s[0], t[k]) {
        assert t[k] in multiset(t);
        if t[k] != r {
          assert t[k] in multiset(s[1..]);
          var m :| 0 <= m < |s[1..]| && s[1..][m] == t[k];
          assert s[m + 1] == t[k];
        }
      }
      assert InsertRoom(r, s) == [s[0]] + t;
    }
  }

  /** The sort lists the same rooms, in listing order. */
  lemma {:induction false} SortRoomsSpec(s: seq<Room>)
    ensures Sorted(SortRooms(s))
    ensures multiset(SortRooms(s)) == multiset(s)
    decreases |s|
  {
    if s != [] {
      SortRoomsSpec(s[1..]);
      InsertKeepsSorted(s[0], SortRooms(s[1..]));
      InsertSameRooms(s[0], SortRooms(s[1..]));
      assert s == [s[0]] + s[1..];
    }
  }

  /** Rooms already in listing order are listed as they are. */
  lemma {:induction false} SortSortedIsIdentity(s: seq<Room>)
    requires Sorted(s)
    ensures SortRooms(s) == s
    decreases |s|
  {
    if s != [] {
      SortSortedIsIdentity(s[1..]);
      if |s| > 1 {
        assert RoomLeq(s[0], s[1..][0]);
      }
    }
  }

  lemma SortedTail(s: seq<Room>)
    requires Sorted(s) && s != []
    ensures Sorted(s[1..])
  {
    forall x, y | 0 <= x < y < |s[1..]| ensures RoomLeq(s[1..][x], s[1..][y]) {
      assert s[1..][x] == s[x + 1] && s[1..][y] == s[y + 1];
    }
  }

  /** Dropping the same first room from two arrangements of the same rooms leaves arrangements of the same rooms. */
  lemma SameTails(a: seq<Room>, b: seq<Room>)
    requires a != [] && b != [] && a[0] == b[0] && multiset(a) == multiset(b)
    requires DistinctBy(a, (r: Room) => r.roomNumber)
    ensures multiset(a[1..]) == multiset(b[1..])
    ensures DistinctBy(a[1..], (r: Room) => r.roomNumber)
  {
    assert a == [a[0]] + a[1..] && b == [b[0]] + b[1..];
    assert multiset(a) == multiset{a[0]} + multiset(a[1..]);
    assert multiset(b) == multiset{b[0]} + multiset(b[1..]);
    assert multiset(a[1..]) == multiset(a) - multiset{a[0]} == multiset(b) - multiset{b[0]} == multiset(b[1..]);
    forall x, y | 0 <= x < y < |a[1..]| ensures a[1..][x].roomNumber != a[1..][y].roomNumber {
      assert a[1..][x] == a[x + 1] && a[1..][y] == a[y + 1];
    }
  }

  /** Two listings in order of the same rooms, numbers unique, start with the same room. */
  lemma SortedSameHead(a: seq<Room>, b: seq<Room>)
    requires Sorted(a) && Sorted(b) && multiset(a) == multiset(b) && a != []
    requires DistinctBy(a, (r: Room) => r.roomNumber)
    ensures b != [] && a[0] == b[0]
  {
    assert |b| == |multiset(b)| == |multiset(a)| == |a|;
    assert b[0] in multiset(a) && a[0] in multiset(b);
    var i :| 0 <= i < |a| && a[i] == b[0];
    var j :| 0 <= j < |b| && b[j] == a[0];
    if a[0] != b[0] {
      assert RoomLeq(a[0], a[i]) && RoomLeq(b[0], b[j]);
      RoomLeqAntisym(a[0], b[0]);
      assert false;
    }
  }

  /**
   * Room numbers are unique, so the order is total on a table: two listings in
   * order of the same rooms are the same listing.
   */
  lemma {:induction false} SortedIsUnique(a: seq<Room>, b: seq<Room>)
    requires Sorted(a) && Sorted(b) && multiset(a) == multiset(b)
    requires DistinctBy(a, (r: Room) => r.roomNumber)
    ensures a == b
    decreases |a|
  {
    if a == [] {
      assert |b| == |multiset(b)| == 0;
    } else {
      SortedSameHead(a, b);
      SameTails(a, b);
      SortedTail(a);
      SortedTail(b);
      SortedIsUnique(a[1..], b[1..]);
    }
  }
}

=== FILE: rooms_api.dfy ===
/**
 * `/api/rooms`: `GET` lists rooms through the room manager's filters,
 * `POST` creates one room after checking the required fields and filling in
 * defaults, `PUT` seeds the building's rooms.
 */
module RoomsApi {
  import opened Wrappers
  import opened Money
  import opened Tables
  import opened Schema
  import opened Store
  import opened Http
  import opened RoomOrder
  import RM = RoomManager

  /**
   * The body of a `POST`; an absent or falsy field is `None`, so a floor of
   * 0 and an empty room number count as absent.
   */
  datatype RoomRequest = RoomRequest(
    roomNumber: Option<string>, floor: Option<int>, kind: Option<string>, roomType: Option<string>,
    area: Option<int>, baseRent: Option<Cents>, price: Option<Cents>, status: Option<RoomStatus>)

  const MISSING_FIELDS := "缺少必填字段：roomNumber, floor, type"
  const CREATED := "房间创建成功"
  const INITIALIZED := "房间数据初始化成功"

  /** `!body.roomNumber || !body.floor || !body.type`. */
  predicate MissingField(req: RoomRequest)
  {
    || req.roomNumber.None? || req.roomNumber.value == ""
    || req.floor.None? || req.floor.value == 0
    || req.kind.None? || req.kind.value == ""
  }

  /** The `roomData` literal: the given columns with the handler's own defaults. */
  function RoomData(req: RoomRequest): (data: RoomInput)
    requires !MissingField(req)
  {
    RoomInput(req.roomNumber.value, req.floor.value, req.kind.value, req.area, req.baseRent,
              Some(req.status.GetOr(Available)), Some(req.roomType.GetOr(DEFAULT_ROOM_TYPE)),
              Some(if req.price.Some? then req.price.value else if req.baseRent.Some? then req.baseRent.value else 50000))
  }

  /**
   * The stored room takes the given columns; its type defaults to 'single',
   * its status to available, and its price to the given price, else the base
   * rent, else 500.00.
   */
  lemma CreatedRoomDefaults(id: Id, req: RoomRequest)
    requires !MissingField(req)
    ensures var r := RoomRow(id, RoomData(req));
      && r.roomNumber == req.roomNumber.value && r.floor == req.floor.value && r.kind == req.kind.value
      && r.area == req.area && r.baseRent == req.baseRent
      && r.roomType == Some(if req.roomType.Some? then req.roomType.value else "single")
      && r.status == (if req.status.Some? then req.status.value else Available)
      && (req.price.Some? ==> r.price == req.price)
      && (req.price.None? && req.baseRent.Some? ==> r.price == r.baseRent)
      && (req.price.None? && req.baseRent.None? ==> r.price == Some(50000))
  {
  }

  /**
   * `POST`: 400 for a missing field; a room number already in use breaks the
   * unique constraint and the insert fails (500); otherwise one room is
   * inserted and returned.
   */
  method PostRoom(db: Db, req: RoomRequest) returns (resp: Response<Room>)
    requires db.Valid()
    modifies db`rooms, db`nextId
    ensures db.Valid()
    ensures MissingField(req) ==> resp == Fail(400, MISSING_FIELDS)
    ensures resp.Fail? ==> db.rooms == old(db.rooms) && db.nextId == old(db.nextId)
    ensures !MissingField(req) ==>
      (resp.Fail? <==> exists r :: r in old(db.rooms) && r.roomNumber == req.roomNumber.value)
    ensures resp.Fail? && !MissingField(req) ==> resp.status == 500
    ensures resp.Ok? ==> !MissingField(req) && resp.body == RoomRow(old(db.nextId), RoomData(req))
                         && db.rooms == old(db.rooms) + [resp.body]
  {
    if MissingField(req) {
      return Fail(400, MISSING_FIELDS);
    }
    var room := RM.CreateRoom(db, RoomData(req));
    if room.None? {
      return Fail(500, "");
    }
    resp := Ok(room.value);
  }

  /**
   * `PUT`: seeds the rooms through `initializeRooms`. A table that already
   * holds rooms is left as it is, and afterwards the table is never empty, so
   * calling it again changes nothing and never duplicates a room.
   */
  method PutRooms(db: Db) returns (message: string)
    requires db.Valid()
    modifies db`rooms, db`nextId
    ensures db.Valid()
    ensures message == INITIALIZED
    ensures old(db.rooms) != [] ==> db.rooms == old(db.rooms) && db.nextId == old(db.nextId)
    ensures old(db.rooms) == [] ==> db.rooms == RM.SeedRows(old(db.nextId))
    ensures db.rooms != [] && UniqueRoomNumbers(db.rooms)
  {
    RM.InitializeRooms(db);
    message := INITIALIZED;
  }

  /** The query string of a `GET`; an absent or empty parameter is `None`. */
  datatype ListParams = ListParams(floor: Option<string>, kind: Option<string>, roomType: Option<string>, status: Option<string>)

  /** The status a query-string value names. */
  function StatusNamed(s: string): (st: RoomStatus)
    ensures s == "available" <==> st == Available
    ensures s == "occupied" <==> st == Occupied
  {
    if s == "available" then Available else if s == "occupied" then Occupied else OtherRoomStatus(s)
  }

  /**
   * The filters `GET` hands to `getRooms`; `parseInt` is a parameter, with
   * `None` for NaN. A floor that does not parse still becomes a filter,
   * `floor = NaN`, which the database refuses on the integer column: that
   * query is `None` here.
   */
  function ListQuery(p: ListParams, parseInt: string -> Option<int>): (q: Option<RM.RoomQuery>)
    ensures q.None? <==> p.floor.Some? && parseInt(p.floor.value).None?
    ensures q.Some? && p.floor.None? ==> q.value.floor.None?
    ensures q.Some? && p.floor.Some? ==> q.value.floor == parseInt(p.floor.value)
    ensures q.Some? ==> q.value.kind == p.kind && q.value.roomType == p.roomType
    ensures q.Some? ==> (q.value.status.Some? <==> p.status.Some?)
    ensures q.Some? && p.status == Some("available") ==> q.value.status == Some(Available)
  {
    if p.floor.Some? && parseInt(p.floor.value).None? then None
    else
      Some(RM.RoomQuery(if p.floor.Some? then parseInt(p.floor.value) else None, p.kind, p.roomType,
                        if p.status.Some? then Some(StatusNamed(p.status.value)) else None))
  }

  /**
   * `GET`: the rooms matching the parameters, by floor then room number, or
   * 500 when the floor does not parse; nothing changes.
   */
  function GetRoomsHandler(db: Db, p: ListParams, parseInt: string -> Option<int>): (r: Response<seq<Room>>)
    reads db
    ensures r.Fail? <==> p.floor.Some? && parseInt(p.floor.value).None?
    ensures r.Fail? ==> r.status == 500
    ensures r.Ok? ==> forall x :: x in r.body <==> x in db.rooms && RM.RoomMatches(x, ListQuery(p, parseInt).value)
    ensures r.Ok? ==> Sorted(r.body)
    ensures r.Ok? && p.floor.None? && p.kind.None? && p.roomType.None? && p.status.None?
            ==> multiset(r.body) == multiset(db.rooms)
  {
    var q := ListQuery(p, parseInt);
    if q.None? then Fail(500, "")
    else
      RM.ListingWithoutFilters(db);
      Ok(RM.GetRooms(db, q.value))
  }
}

=== FILE: rooms_initialize_api.dfy ===
/**
 * `/api/rooms/initialize`: `POST` seeds the rooms only into an empty table
 * and otherwise reports how many rooms exist; `DELETE` empties the table and
 * seeds it again. Both report the number of rooms the table then holds.
 */
module RoomsInitializeApi {
  import opened Wrappers
  import opened Tables
  import opened Schema
  import opened Store
  import RM = RoomManager

  datatype InitReply =
    | Seeded(message: string, count: nat, rooms: seq<Room>)
    | AlreadySeeded(error: string, existingCount: nat)
    | Failed(status: int)

  const EXISTS := "房间数据已存在，请先清空旧数据"
  const INITIALIZED := "房间数据初始化成功"
  const RESET := "房间数据已重置"

  /** `POST`: a table with rooms is reported and left alone; an empty one gets the 20 seeded rooms. */
  method PostInitialize(db: Db) returns (reply: InitReply)
    requires db.Valid()
    modifies db`rooms, db`nextId
    ensures db.Valid()
    ensures old(db.rooms) != [] ==>
      reply == AlreadySeeded(EXISTS, |old(db.rooms)|) && db.rooms == old(db.rooms) && db.nextId == old(db.nextId)
    ensures old(db.rooms) == [] ==>
      db.rooms == RM.SeedRows(old(db.nextId)) && reply == Seeded(INITIALIZED, 20, db.rooms)
    ensures reply.Seeded? ==> reply.count == |db.rooms|
  {
    if |db.rooms| > 0 {
      return AlreadySeeded(EXISTS, |db.rooms|);
    }
    RM.InitializeRooms(db);
    reply := Seeded(INITIALIZED, |db.rooms|, db.rooms);
  }

  /**
   * Some tenant or bill refers to a room. Every reference names an existing
   * room, so deleting all rooms would break a foreign key.
   */
  predicate RoomsReferenced(tenants: seq<Tenant>, bills: seq<Bill>)
  {
    (exists t :: t in tenants && t.roomId.Some?) || (exists b :: b in bills && b.roomId.Some?)
  }

  /**
   * `DELETE`: removes every room, then seeds, so the table ends up exactly
   * the seeded rooms. While a tenant or a bill refers to a room the delete
   * is refused by the database (500) and nothing changes.
   */
  method DeleteInitialize(db: Db) returns (reply: InitReply)
    requires db.Valid()
    modifies db`rooms, db`nextId
    ensures db.Valid()
    ensures RoomsReferenced(old(db.tenants), old(db.bills)) ==>
      reply == Failed(500) && db.rooms == old(db.rooms) && db.nextId == old(db.nextId)
    ensures !RoomsReferenced(old(db.tenants), old(db.bills)) ==>
      db.rooms == RM.SeedRows(old(db.nextId)) && reply == Seeded(RESET, 20, db.rooms)
  {
    if RoomsReferenced(db.tenants, db.bills) {
      return Failed(500);
    }
    db.SetRooms([]);
    RM.InitializeRooms(db);
    reply := Seeded(RESET, |db.rooms|, db.rooms);
  }
}

=== FILE: rooms_migrate_api.dfy ===
/**
 * `POST /api/rooms/migrate`: walks a fixed table of room settings keyed by
 * room number and rewrites the type, area, base rent and price of each room
 * that exists, skipping numbers that have no room.
 */
module RoomsMigrateApi {
  import opened Wrappers
  import opened Money
  import opened Tables
  import opened Schema
  import opened Store
  import RM = RoomManager

  datatype RoomConfig = RoomConfig(roomType: string, area: int, price: Cents)

  /** One entry of the settings table: a room number and what that room should hold. */
  datatype ConfigEntry = ConfigEntry(roomNumber: string, config: RoomConfig)

  /** The settings table, in its listed (and numeric) order. */
  const MIGRATE_CONFIG: seq<ConfigEntry> := [
    ConfigEntry("201", RoomConfig("二房", 50, 80000)),
    ConfigEntry("202", RoomConfig("二房", 50, 80000)),
    ConfigEntry("203", RoomConfig("二房一厅", 60, 70000)),
    ConfigEntry("204", RoomConfig("二房一厅", 60, 70000)),
    ConfigEntry("301", RoomConfig("小单间", 25, 30000)),
    ConfigEntry("302", RoomConfig("小单间", 25, 30000)),
    ConfigEntry("303", RoomConfig("小单间", 25, 30000)),
    ConfigEntry("304", RoomConfig("小单间", 25, 30000)),
    ConfigEntry("305", RoomConfig("单间", 30, 40000)),
    ConfigEntry("306", RoomConfig("单间", 30, 40000)),
    ConfigEntry("307", RoomConfig("大单间", 35, 50000)),
    ConfigEntry("308", RoomConfig("大单间", 35, 50000)),
    ConfigEntry("401", RoomConfig("小复式", 45, 40000)),
    ConfigEntry("402", RoomConfig("复式", 55, 50000)),
    ConfigEntry("403", RoomConfig("复式", 55, 50000)),
    ConfigEntry("404", RoomConfig("复式", 55, 50000)),
    ConfigEntry("405", RoomConfig("复式", 55, 50000)),
    ConfigEntry("406", RoomConfig("复式", 55, 50000)),
    ConfigEntry("407", RoomConfig("大复式", 70, 70000)),
    ConfigEntry("408", RoomConfig("大复式", 70, 70000))]

  const NOT_FOUND := "房间不存在"
  const MIGRATED := "房间数据迁移完成"

  /** A room after its settings are written: type, area, base rent and price (the base rent is the price). */
  function Migrated(r: Room, c: RoomConfig): (m: Room)
    ensures m.roomType == Some(c.roomType) && m.area == Some(c.area)
    ensures m.baseRent == Some(c.price) && m.price == Some(c.price)
    ensures m.(roomType := r.roomType, area := r.area, baseRent := r.baseRent, price := r.price) == r
  {
    r.(roomType := Some(c.roomType), area := Some(c.area), baseRent := Some(c.price), price := Some(c.price))
  }

  /** The settings that end up written for a room number: those of the last entry for it. */
  function ConfigFor(number: string, cfg: seq<ConfigEntry>): Option<RoomConfig>
    decreases |cfg|
  {
    if cfg == [] then None
    else if cfg[|cfg| - 1].roomNumber == number then Some(cfg[|cfg| - 1].config)
    else ConfigFor(number, cfg[..|cfg| - 1])
  }

  /** A configured number gets its settings; any other room stays as it is. */
  function MigrateRoom(r: Room, cfg: seq<ConfigEntry>): Room
  {
    match ConfigFor(r.roomNumber, cfg)
    case None => r
    case Some(c) => Migrated(r, c)
  }

  /** The rooms table after the migration: each room migrated on its own, order and count kept. */
  function MigrateTable(rooms: seq<Room>, cfg: seq<ConfigEntry>): (r: seq<Room>)
    ensures |r| == |rooms|
    ensures forall i :: 0 <= i < |rooms| ==> r[i] == MigrateRoom(rooms[i], cfg)
  {
    seq(|rooms|, i requires 0 <= i < |rooms| => MigrateRoom(rooms[i], cfg))
  }

  /** A room number the table holds. */
  predicate HasRoom(rooms: seq<Room>, number: string)
  {
    exists r :: r in rooms && r.roomNumber == number
  }

  /** One entry of `updatedRooms`: the number, the room's old type, area and price, and the settings written. */
  datatype UpdatedRoom = UpdatedRoom(
    roomNumber: string, oldRoomType: Option<string>, oldArea: Option<int>, oldPrice: Option<Cents>, newConfig: RoomConfig)

  /** One entry of `skippedRooms`. */
  datatype SkippedRoom = SkippedRoom(roomNumber: string, reason: string)

  datatype MigrateReply = MigrateReply(
    message: string, updatedCount: nat, skippedCount: nat, updatedRooms: seq<UpdatedRoom>, skippedRooms: seq<SkippedRoom>)

  function UpdatedNumbers(us: seq<UpdatedRoom>): (ns: seq<string>)
    ensures |ns| == |us| && forall i :: 0 <= i < |us| ==> ns[i] == us[i].roomNumber
  {
    seq(|us|, i requires 0 <= i < |us| => us[i].roomNumber)
  }

  function SkippedNumbers(ss: seq<SkippedRoom>): (ns: seq<string>)
    ensures |ns| == |ss| && forall i :: 0 <= i < |ss| ==> ns[i] == ss[i].roomNumber
  {
    seq(|ss|, i requires 0 <= i < |ss| => ss[i].roomNumber)
  }

  function ConfigNumbers(cfg: seq<ConfigEntry>): (ns: seq<string>)
    ensures |ns| == |cfg| && forall i :: 0 <= i < |cfg| ==> ns[i] == cfg[i].roomNumber
  {
    seq(|cfg|, i requires 0 <= i < |cfg| => cfg[i].roomNumber)
  }

  /**
   * The handler: every configured number with a room is rewritten and listed
   * as updated, every other one listed as skipped, and no room is created,
   * removed or reordered.
   */
  method PostMigrate(db: Db) returns (reply: MigrateReply)
    requires db.Valid()
    modifies db`rooms
    ensures db.Valid()
    ensures db.rooms == MigrateTable(old(db.rooms), MIGRATE_CONFIG)
    ensures reply.message == MIGRATED
    ensures reply.updatedCount == |reply.updatedRooms| && reply.skippedCount == |reply.skippedRooms|
    ensures reply.updatedCount + reply.skippedCount == |MIGRATE_CONFIG|
    ensures UpdatedNumbers(reply.updatedRooms) == Filter(ConfigNumbers(MIGRATE_CONFIG), (n: string) => HasRoom(old(db.rooms), n))
    ensures SkippedNumbers(reply.skippedRooms) == Filter(ConfigNumbers(MIGRATE_CONFIG), (n: string) => !HasRoom(old(db.rooms), n))
    ensures forall s :: s in reply.skippedRooms ==> s.reason == NOT_FOUND
  {
    var updated, skipped := Migrate(db, MIGRATE_CONFIG);
    reply := MigrateReply(MIGRATED, |updated|, |skipped|, updated, skipped);
  }

  /** The `for` loop over the settings table `cfg`. */
  method Migrate(db: Db, cfg: seq<ConfigEntry>) returns (updated: seq<UpdatedRoom>, skipped: seq<SkippedRoom>)
    requires db.Valid()
    modifies db`rooms
    ensures db.Valid()
    ensures db.rooms == MigrateTable(old(db.rooms), cfg)
    ensures |updated| + |skipped| == |cfg|
    ensures UpdatedNumbers(updated) == Filter(ConfigNumbers(cfg), (n: string) => HasRoom(old(db.rooms), n))
    ensures SkippedNumbers(skipped) == Filter(ConfigNumbers(cfg), (n: string) => !HasRoom(old(db.rooms), n))
    ensures forall s :: s in skipped ==> s.reason == NOT_FOUND
  {
    ghost var rooms0 := db.rooms;
    updated, skipped := MigrateAll(db, cfg);
    assert Tally(rooms0, cfg, updated, skipped);
  }

  /** The loop over the configured rooms, one entry at a time. */
  method MigrateAll(db: Db, cfg: seq<ConfigEntry>) returns (updated: seq<UpdatedRoom>, skipped: seq<SkippedRoom>)
    requires db.Valid()
    modifies db`rooms
    ensures db.Valid() && Progress(db.rooms, old(db.rooms), cfg, updated, skipped)
  {
    ghost var rooms0 := db.rooms;
    updated, skipped := [], [];
    assert MigrateTable(rooms0, cfg[..0]) == rooms0;
    for k := 0 to |cfg|
      invariant db.Valid()
      invariant Progress(db.rooms, rooms0, cfg[..k], updated, skipped)
    {
      updated, skipped := MigrateEntry(db, rooms0, cfg, k, updated, skipped);
    }
    assert cfg[..|cfg|] == cfg;
  }

  /** The loop state after the entries `done`: the table migrated by them, and the numbers so far sorted into updated and skipped. */
  ghost predicate Progress(rooms: seq<Room>, rooms0: seq<Room>, done: seq<ConfigEntry>,
                           updated: seq<UpdatedRoom>, skipped: seq<SkippedRoom>)
  {
    rooms == MigrateTable(rooms0, done) && Tally(rooms0, done, updated, skipped)
  }

  /** The reply lists after the entries `done`: every configured number lands in exactly one of them, in order. */
  ghost predicate Tally(rooms0: seq<Room>, done: seq<ConfigEntry>, updated: seq<UpdatedRoom>, skipped: seq<SkippedRoom>)
  {
    && |updated| + |skipped| == |done|
    && UpdatedNumbers(updated) == Filter(ConfigNumbers(done), (n: string) => HasRoom(rooms0, n))
    && SkippedNumbers(skipped) == Filter(ConfigNumbers(done), (n: string) => !HasRoom(rooms0, n))
    && (forall s :: s in skipped ==> s.reason == NOT_FOUND)
  }

  /** One iteration: look the number up, then update the room or record the skip. */
  method MigrateEntry(db: Db, ghost rooms0: seq<Room>, cfg: seq<ConfigEntry>, k: nat,
                      updated: seq<UpdatedRoom>, skipped: seq<SkippedRoom>)
    returns (updated': seq<UpdatedRoom>, skipped': seq<SkippedRoom>)
    requires k < |cfg|
    requires db.Valid() && Progress(db.rooms, rooms0, cfg[..k], updated, skipped)
    modifies db`rooms
    ensures db.Valid() && Progress(db.rooms, rooms0, cfg[..k + 1], updated', skipped')
  {
    ghost var done := cfg[..k];
    var entry := cfg[k];
    assert cfg[..k + 1] == done + [entry];
    NumbersKept(rooms0, done, entry.roomNumber);
    var existing := RM.RoomByNumber(db.rooms, entry.roomNumber);
    if existing.Some? {
      ApplyEntry(db, rooms0, done, entry);
      var u := UpdatedRoom(entry.roomNumber, existing.value.roomType, existing.value.area, existing.value.price, entry.config);
      UpdatedStep(rooms0, done, entry, updated, skipped, u);
      updated', skipped' := updated + [u], skipped;
    } else {
      NoRoomNoChange(rooms0, done, entry);
      SkippedStep(rooms0, done, entry, updated, skipped);
      updated', skipped' := updated, skipped + [SkippedRoom(entry.roomNumber, NOT_FOUND)];
    }
  }

  /** A found room's number extends the updated list. */
  lemma UpdatedStep(rooms0: seq<Room>, done: seq<ConfigEntry>, entry: ConfigEntry,
                    updated: seq<UpdatedRoom>, skipped: seq<SkippedRoom>, u: UpdatedRoom)
    requires Tally(rooms0, done, updated, skipped)
    requires HasRoom(rooms0, entry.roomNumber) && u.roomNumber == entry.roomNumber
    ensures Tally(rooms0, done + [entry], updated + [u], skipped)
  {
    NumbersStep(done, entry, rooms0);
    assert UpdatedNumbers(updated + [u]) == UpdatedNumbers(updated) + [u.roomNumber];
  }

  /** A missing room's number extends the skipped list. */
  lemma SkippedStep(rooms0: seq<Room>, done: seq<ConfigEntry>, entry: ConfigEntry,
                    updated: seq<UpdatedRoom>, skipped: seq<SkippedRoom>)
    requires Tally(rooms0, done, updated, skipped)
    requires !HasRoom(rooms0, entry.roomNumber)
    ensures Tally(rooms0, done + [entry], updated, skipped + [SkippedRoom(entry.roomNumber, NOT_FOUND)])
  {
    NumbersStep(done, entry, rooms0);
    var s := SkippedRoom(entry.roomNumber, NOT_FOUND);
    assert SkippedNumbers(skipped + [s]) == SkippedNumbers(skipped) + [s.roomNumber];
  }

  /** An entry whose number has no room changes no row. */
  lemma NoRoomNoChange(rooms0: seq<Room>, done: seq<ConfigEntry>, entry: ConfigEntry)
    requires !HasRoom(rooms0, entry.roomNumber)
    ensures MigrateTable(rooms0, done + [entry]) == MigrateTable(rooms0, done)
  {
    assert (done + [entry])[..|done|] == done;
    forall i | 0 <= i < |rooms0| ensures MigrateRoom(rooms0[i], done + [entry]) == MigrateRoom(rooms0[i], done) {
      assert rooms0[i] in rooms0;
    }
  }

  /** The update of one configured room that exists: `db.rooms` moves from `cfg` to `cfg + [entry]`. */
  method ApplyEntry(db: Db, ghost rooms0: seq<Room>, ghost cfg: seq<ConfigEntry>, entry: ConfigEntry)
    requires db.Valid() && db.rooms == MigrateTable(rooms0, cfg)
    modifies db`rooms
    ensures db.Valid() && db.rooms == MigrateTable(rooms0, cfg + [entry])
  {
    var f := (r: Room) => Migrated(r, entry.config);
    UpdateKeepsKeys(db.rooms, RM.NumberIs(entry.roomNumber), f, (r: Room) => r.id);
    UpdateKeepsKeys(db.rooms, RM.NumberIs(entry.roomNumber), f, (r: Room) => r.roomNumber);
    EntryStep(rooms0, cfg, entry);
    db.SetRooms(UpdateWhere(db.rooms, RM.NumberIs(entry.roomNumber), f));
  }

  /** Writing one more entry is the update of the rooms with that number. */
  lemma EntryStep(rooms0: seq<Room>, cfg: seq<ConfigEntry>, entry: ConfigEntry)
    ensures UpdateWhere(MigrateTable(rooms0, cfg), RM.NumberIs(entry.roomNumber), (r: Room) => Migrated(r, entry.config))
         == MigrateTable(rooms0, cfg + [entry])
  {
    var before := MigrateTable(rooms0, cfg);
    var after := UpdateWhere(before, RM.NumberIs(entry.roomNumber), (r: Room) => Migrated(r, entry.config));
    assert (cfg + [entry])[..|cfg|] == cfg;
    forall i | 0 <= i < |rooms0| ensures after[i] == MigrateRoom(rooms0[i], cfg + [entry]) {
      MigrateKeepsNumber(rooms0[i], cfg);
    }
  }

  /** The migration never changes a room number. */
  lemma MigrateKeepsNumber(r: Room, cfg: seq<ConfigEntry>)
    ensures MigrateRoom(r, cfg).roomNumber == r.roomNumber && MigrateRoom(r, cfg).id == r.id
  {
  }

  /** A migrated table holds the same room numbers as before. */
  lemma NumbersKept(rooms0: seq<Room>, cfg: seq<ConfigEntry>, number: string)
    ensures HasRoom(MigrateTable(rooms0, cfg), number) <==> HasRoom(rooms0, number)
  {
    var t := MigrateTable(rooms0, cfg);
    if HasRoom(rooms0, number) {
      var r :| r in rooms0 && r.roomNumber == number;
      var i :| 0 <= i < |rooms0| && rooms0[i] == r;
      assert t[i] in t && t[i].roomNumber == number;
    }
    if HasRoom(t, number) {
      var r :| r in t && r.roomNumber == number;
      var i :| 0 <= i < |t| && t[i] == r;
      assert rooms0[i] in rooms0 && rooms0[i].roomNumber == number;
    }
  }

  /** How the configured numbers and their two filters grow with one more entry. */
  lemma NumbersStep(done: seq<ConfigEntry>, entry: ConfigEntry, rooms0: seq<Room>)
    ensures ConfigNumbers(done + [entry]) == ConfigNumbers(done) + [entry.roomNumber]
    ensures Filter(ConfigNumbers(done + [entry]), (n: string) => HasRoom(rooms0, n))
         == Filter(ConfigNumbers(done), (n: string) => HasRoom(rooms0, n))
            + (if HasRoom(rooms0, entry.roomNumber) then [entry.roomNumber] else [])
    ensures Filter(ConfigNumbers(done + [entry]), (n: string) => !HasRoom(rooms0, n))
         == Filter(ConfigNumbers(done), (n: string) => !HasRoom(rooms0, n))
            + (if !HasRoom(rooms0, entry.roomNumber) then [entry.roomNumber] else [])
  {
    assert ConfigNumbers(done + [entry]) == ConfigNumbers(done) + [entry.roomNumber];
    FilterConcat(ConfigNumbers(done), [entry.roomNumber], (n: string) => HasRoom(rooms0, n));
    FilterConcat(ConfigNumbers(done), [entry.roomNumber], (n: string) => !HasRoom(rooms0, n));
  }

  /** Rooms whose number is not configured are untouched; configured ones hold their settings, price equal to base rent. */
  lemma MigrationEffect(rooms: seq<Room>, i: nat)
    requires i < |rooms|
    ensures ConfigFor(rooms[i].roomNumber, MIGRATE_CONFIG).None? ==> MigrateTable(rooms, MIGRATE_CONFIG)[i] == rooms[i]
    ensures ConfigFor(rooms[i].roomNumber, MIGRATE_CONFIG).Some? ==>
      var c := ConfigFor(rooms[i].roomNumber, MIGRATE_CONFIG).value;
      var m := MigrateTable(rooms, MIGRATE_CONFIG)[i];
      && m.roomType == Some(c.roomType) && m.area == Some(c.area)
      && m.baseRent == m.price == Some(c.price)
      && m.(roomType := rooms[i].roomType, area := rooms[i].area, baseRent := rooms[i].baseRent, price := rooms[i].price) == rooms[i]
  {
  }

  /** Running the migration twice gives the same rooms as running it once. */
  lemma MigrationIdempotent(rooms: seq<Room>, cfg: seq<ConfigEntry>)
    ensures MigrateTable(MigrateTable(rooms, cfg), cfg) == MigrateTable(rooms, cfg)
  {
    var once := MigrateTable(rooms, cfg);
    forall i | 0 <= i < |rooms| ensures MigrateRoom(once[i], cfg) == once[i] {
      MigrateKeepsNumber(rooms[i], cfg);
    }
  }

  /** The settings table lists the seeded rooms, in seed order, with the seed's type, area and rent. */
  lemma ConfigMatchesSeed(i: nat)
    requires i < 20
    ensures |MIGRATE_CONFIG| == |RM.SEED| == 20
    ensures RM.WellFormedSeeds(RM.SEED)
    ensures MIGRATE_CONFIG[i].roomNumber == RM.SeedNumber(RM.SEED[i])
    ensures MIGRATE_CONFIG[i].config == RoomConfig(RM.SEED[i].roomType, RM.SEED[i].area, RM.SEED[i].rent)
  {
    RM.SeedIsWellFormed();
    assert i == 0 || i == 1 || i == 2 || i == 3 || i == 4 || i == 5 || i == 6 || i == 7 || i == 8 || i == 9
        || i == 10 || i == 11 || i == 12 || i == 13 || i == 14 || i == 15 || i == 16 || i == 17 || i == 18 || i == 19;
  }

  /** The last entry for a number listed only at position `i` is entry `i`. */
  lemma {:induction false} ConfigForOnly(cfg: seq<ConfigEntry>, i: nat)
    requires i < |cfg|
    requires forall j :: 0 <= j < |cfg| && j != i ==> cfg[j].roomNumber != cfg[i].roomNumber
    ensures ConfigFor(cfg[i].roomNumber, cfg) == Some(cfg[i].config)
    decreases |cfg|
  {
    if i != |cfg| - 1 {
      var init := cfg[..|cfg| - 1];
      assert init[i] == cfg[i];
      ConfigForOnly(init, i);
    }
  }

  /** On the freshly seeded table the migration changes nothing. */
  lemma MigratingSeededRoomsChangesNothing(base: Id)
    ensures MigrateTable(RM.SeedRows(base), MIGRATE_CONFIG) == RM.SeedRows(base)
  {
    var rows := RM.SeedRows(base);
    RM.SeedIsWellFormed();
    forall i | 0 <= i < 20 ensures MigrateRoom(rows[i], MIGRATE_CONFIG) == rows[i] {
      ConfigMatchesSeed(i);
      forall j | 0 <= j < 20 && j != i ensures MIGRATE_CONFIG[j].roomNumber != MIGRATE_CONFIG[i].roomNumber {
        ConfigMatchesSeed(j);
        if j < i { RM.NumbersDistinct(RM.SEED[j], RM.SEED[i]); } else { RM.NumbersDistinct(RM.SEED[i], RM.SEED[j]); }
      }
      ConfigForOnly(MIGRATE_CONFIG, i);
    }
  }
}

=== FILE: schema.dfy ===
/**
 * The record shapes of the store: one datatype per table, the column defaults
 * the database fills in when an insert leaves a column out, and the
 * uniqueness constraints of the schema.
 *
 * Identifiers are `nat`s (the store hands out fresh ones); `numeric(10,2)`
 * columns are cents; nullable columns are `Option`s; status columns are
 * datatypes.
 */
module Schema {
  import opened Wrappers
  import opened Money
  import opened Tables

  type Id = nat

  /** The `type` column of bills and payments. */
  datatype ChargeType = Rent | Electricity | Water | Deposit | Refund

  datatype TenantStatus = TenantActive | OtherTenantStatus(name: string)
  datatype RoomStatus = Available | Occupied | OtherRoomStatus(name: string)
  datatype BillStatus = Unpaid | BillPending | Paid
  datatype PaymentStatus = PaymentPending | Completed | Rejected
  datatype CouponStatus = Active | Used
  datatype OrderStatus = OrderPending | OrderCompleted

  datatype Tenant = Tenant(
    id: Id, roomId: Option<Id>, name: string, phone: string, idCard: Option<string>,
    familyMembers: int, deposit: Cents, status: TenantStatus,
    moveInDate: Option<Time>, moveOutDate: Option<Time>, remarks: Option<string>,
    tenantCode: Option<string>)

  datatype Room = Room(
    id: Id, roomNumber: string, floor: int, kind: string, area: Option<int>,
    baseRent: Option<Cents>, status: RoomStatus, roomType: Option<string>, price: Option<Cents>)

  datatype Bill = Bill(
    id: Id, tenantId: Id, roomId: Option<Id>, kind: ChargeType, amount: Cents,
    paidAmount: Cents, status: BillStatus, dueDate: Option<Time>, paidDate: Option<Time>,
    details: Option<string>)

  datatype Payment = Payment(
    id: Id, tenantId: Id, billId: Option<Id>, amount: Cents, kind: ChargeType,
    paymentMethod: Option<string>, transactionId: Option<string>, status: PaymentStatus,
    remarks: Option<string>)

  datatype Coupon = Coupon(
    id: Id, tenantId: Id, billId: Option<Id>, code: string, amount: Cents, minSpend: Cents,
    description: Option<string>, status: CouponStatus, validUntil: Option<Time>)

  datatype CouponUsage = CouponUsage(id: Id, couponId: Id, tenantId: Id, orderId: Option<Id>, amount: Cents)

  datatype Order = Order(
    id: Id, tenantId: Id, orderNumber: string, totalAmount: Cents, discountAmount: Cents,
    couponAmount: Cents, paidAmount: Cents, items: string, status: OrderStatus)

  datatype ConfigRow = ConfigRow(id: Id, key: string, value: string, description: Option<string>)

  // Column defaults.
  const DEFAULT_FAMILY_MEMBERS: int := 1
  const DEFAULT_DEPOSIT: Cents := 0
  const DEFAULT_TENANT_STATUS: TenantStatus := TenantActive
  const DEFAULT_BILL_PAID_AMOUNT: Cents := 0
  const DEFAULT_BILL_STATUS: BillStatus := Unpaid
  const DEFAULT_PAYMENT_STATUS: PaymentStatus := Completed
  const DEFAULT_COUPON_STATUS: CouponStatus := Active
  const DEFAULT_ROOM_STATUS: RoomStatus := Available
  const DEFAULT_ROOM_TYPE: string := "single"
  const DEFAULT_ROOM_PRICE: Cents := 50000
  const DEFAULT_ORDER_STATUS: OrderStatus := OrderCompleted

  /** The columns of an insert; a column left out is `None` and gets its default. */
  datatype BillInput = BillInput(
    tenantId: Id, roomId: Option<Id>, kind: ChargeType, amount: Cents, paidAmount: Option<Cents>,
    status: Option<BillStatus>, dueDate: Option<Time>, details: Option<string>)

  datatype PaymentInput = PaymentInput(
    tenantId: Id, billId: Option<Id>, amount: Cents, kind: ChargeType, paymentMethod: Option<string>,
    transactionId: Option<string>, status: Option<PaymentStatus>, remarks: Option<string>)

  datatype CouponInput = CouponInput(
    tenantId: Id, billId: Option<Id>, code: string, amount: Cents, minSpend: Cents,
    description: Option<string>, status: Option<CouponStatus>, validUntil: Option<Time>)

  datatype RoomInput = RoomInput(
    roomNumber: string, floor: int, kind: string, area: Option<int>, baseRent: Option<Cents>,
    status: Option<RoomStatus>, roomType: Option<string>, price: Option<Cents>)

  datatype TenantInput = TenantInput(
    roomId: Option<Id>, name: string, phone: string, idCard: Option<string>,
    familyMembers: Option<int>, deposit: Option<Cents>, status: Option<TenantStatus>,
    moveInDate: Option<Time>, remarks: Option<string>)

  /** The bill row stored for an insert: the given columns, defaults for the rest. */
  function BillRow(id: Id, b: BillInput): (r: Bill)
    ensures r.id == id && r.tenantId == b.tenantId && r.kind == b.kind && r.amount == b.amount
    ensures r.status == b.status.GetOr(Unpaid) && r.paidAmount == b.paidAmount.GetOr(0)
    ensures r.paidDate == None
  {
    Bill(id, b.tenantId, b.roomId, b.kind, b.amount, b.paidAmount.GetOr(DEFAULT_BILL_PAID_AMOUNT),
         b.status.GetOr(DEFAULT_BILL_STATUS), b.dueDate, None, b.details)
  }

  function PaymentRow(id: Id, p: PaymentInput): (r: Payment)
    ensures r.id == id && r.tenantId == p.tenantId && r.billId == p.billId && r.amount == p.amount
    ensures r.kind == p.kind && r.status == p.status.GetOr(Completed)
  {
    Payment(id, p.tenantId, p.billId, p.amount, p.kind, p.paymentMethod, p.transactionId,
            p.status.GetOr(DEFAULT_PAYMENT_STATUS), p.remarks)
  }

  function CouponRow(id: Id, c: CouponInput): (r: Coupon)
    ensures r.id == id && r.tenantId == c.tenantId && r.billId == c.billId && r.code == c.code
    ensures r.amount == c.amount && r.minSpend == c.minSpend && r.status == c.status.GetOr(Active)
  {
    Coupon(id, c.tenantId, c.billId, c.code, c.amount, c.minSpend, c.description,
           c.status.GetOr(DEFAULT_COUPON_STATUS), c.validUntil)
  }

  function RoomRow(id: Id, r: RoomInput): (room: Room)
    ensures room.id == id && room.roomNumber == r.roomNumber && room.floor == r.floor && room.kind == r.kind
    ensures room.status == r.status.GetOr(Available)
    ensures room.roomType == Some(r.roomType.GetOr("single"))
    ensures room.price == Some(r.price.GetOr(50000))
  {
    Room(id, r.roomNumber, r.floor, r.kind, r.area, r.baseRent, r.status.GetOr(DEFAULT_ROOM_STATUS),
         Some(r.roomType.GetOr(DEFAULT_ROOM_TYPE)), Some(r.price.GetOr(DEFAULT_ROOM_PRICE)))
  }

  function TenantRow(id: Id, t: TenantInput): (r: Tenant)
    ensures r.id == id && r.name == t.name && r.phone == t.phone && r.roomId == t.roomId
    ensures r.familyMembers == t.familyMembers.GetOr(1) && r.deposit == t.deposit.GetOr(0)
    ensures r.status == t.status.GetOr(TenantActive)
  {
    Tenant(id, t.roomId, t.name, t.phone, t.idCard, t.familyMembers.GetOr(DEFAULT_FAMILY_MEMBERS),
           t.deposit.GetOr(DEFAULT_DEPOSIT), t.status.GetOr(DEFAULT_TENANT_STATUS), t.moveInDate,
           None, t.remarks, None)
  }

  // Uniqueness constraints.

  ghost predicate UniqueCouponCodes(cs: seq<Coupon>)
  {
    DistinctBy(cs, (c: Coupon) => c.code)
  }

  ghost predicate UniqueConfigKeys(cs: seq<ConfigRow>)
  {
    DistinctBy(cs, (c: ConfigRow) => c.key)
  }

  ghost predicate UniqueRoomNumbers(rs: seq<Room>)
  {
    DistinctBy(rs, (r: Room) => r.roomNumber)
  }

  ghost predicate UniqueOrderNumbers(os: seq<Order>)
  {
    DistinctBy(os, (o: Order) => o.orderNumber)
  }

  ghost predicate UniqueCouponIds(cs: seq<Coupon>)
  {
    DistinctBy(cs, (c: Coupon) => c.id)
  }

  /** Only `tenant_code` is unique among tenants (the phone column is merely indexed). */
  ghost predicate UniqueTenantCodes(ts: seq<Tenant>)
  {
    forall i, j :: 0 <= i < j < |ts| && ts[i].tenantCode.Some? ==> ts[i].tenantCode != ts[j].tenantCode
  }

  /** The schema admits two tenants with the same phone number. */
  lemma PhoneIsNotUnique()
    ensures exists ts: seq<Tenant> :: UniqueTenantCodes(ts) && |ts| == 2 && ts[0].phone == ts[1].phone
  {
    var t := TenantRow(0, TenantInput(None, "a", "13800000000", None, None, None, None, None, None));
    var ts := [t, t.(id := 1)];
    assert UniqueTenantCodes(ts);
  }

  /** In a table with unique keys, the row found for a key is the only one with that key. */
  lemma {:induction false} UniqueKeyLookup(cs: seq<ConfigRow>, key: string, row: ConfigRow)
    requires UniqueConfigKeys(cs)
    requires row in cs && row.key == key
    ensures Filter(cs, (c: ConfigRow) => c.key == key) == [row]
    decreases |cs|
  {
    if cs[0] == row {
      forall c | c in cs[1..] ensures c.key != key {
        var j :| 0 <= j < |cs[1..]| && cs[1..][j] == c;
        assert cs[j + 1] == c;
      }
      FilterNone(cs[1..], (c: ConfigRow) => c.key == key);
    } else {
      assert cs[0].key != key by {
        var j :| 0 <= j < |cs| && cs[j] == row;
      }
      UniqueKeyLookup(cs[1..], key, row);
    }
  }

  /** The first config row with the given key (`SELECT ... WHERE key = ?`). */
  function ConfigByKey(cs: seq<ConfigRow>, key: string): (r: Option<ConfigRow>)
    ensures r.None? <==> forall c :: c in cs ==> c.key != key
    ensures r.Some? ==> r.value in cs && r.value.key == key
  {
    FirstWhere(cs, KeyIs(key))
  }

  /** The predicate `WHERE key = ?` on config rows. */
  function KeyIs(key: string): ConfigRow -> bool
  {
    (c: ConfigRow) => c.key == key
  }
}

=== FILE: store.dfy ===
/**
 * The record store shared by every manager and handler: one table per
 * record kind, each kept in insertion order. A row's `createdAt` defaults to
 * the time of its insert and calls run one after another, so insertion order
 * is `createdAt` order. Fresh ids come from a counter, standing in for
 * `gen_random_uuid()`.
 */
module Store {
  import opened Tables
  import opened Schema

  /**
   * The result of a statement the database may refuse: its value, or a
   * foreign-key violation, which the manager raises as an error.
   */
  datatype Outcome<T> = Done(value: T) | Refused

  class Db {
    var tenants: seq<Tenant>
    var rooms: seq<Room>
    var bills: seq<Bill>
    var payments: seq<Payment>
    var coupons: seq<Coupon>
    var usages: seq<CouponUsage>
    var orders: seq<Order>
    var configs: seq<ConfigRow>
    var nextId: Id

    /** Every id in use is below `nextId`, ids are unique per table (the primary keys), and so are the schema's unique keys. */
    ghost predicate Valid()
      reads this
    {
      && (forall r :: r in tenants ==> r.id < nextId) && DistinctBy(tenants, (r: Tenant) => r.id)
      && (forall r :: r in rooms ==> r.id < nextId) && DistinctBy(rooms, (r: Room) => r.id)
      && (forall r :: r in bills ==> r.id < nextId) && DistinctBy(bills, (r: Bill) => r.id)
      && (forall r :: r in payments ==> r.id < nextId) && DistinctBy(payments, (r: Payment) => r.id)
      && (forall r :: r in coupons ==> r.id < nextId) && UniqueCouponIds(coupons)
      && (forall r :: r in usages ==> r.id < nextId) && DistinctBy(usages, (r: CouponUsage) => r.id)
      && (forall r :: r in orders ==> r.id < nextId) && DistinctBy(orders, (r: Order) => r.id)
      && (forall r :: r in configs ==> r.id < nextId) && DistinctBy(configs, (r: ConfigRow) => r.id)
      && UniqueCouponCodes(coupons)
      && UniqueConfigKeys(configs)
      && UniqueRoomNumbers(rooms)
      && UniqueOrderNumbers(orders)
      && UniqueTenantCodes(tenants)
    }

    constructor ()
      ensures Valid()
      ensures tenants == [] && rooms == [] && bills == [] && payments == []
      ensures coupons == [] && usages == [] && orders == [] && configs == []
    {
      tenants, rooms, bills, payments := [], [], [], [];
      coupons, usages, orders, configs := [], [], [], [];
      nextId := 0;
    }

    /** Hands out an id no row has. */
    method FreshId() returns (id: Id)
      requires Valid()
      modifies this`nextId
      ensures Valid()
      ensures id == old(nextId) && nextId == id + 1
    {
      id := nextId;
      nextId := nextId + 1;
    }

    /** Replaces the tenants table; ids stay below the counter and tenant codes stay unique. */
    method SetTenants(ts: seq<Tenant>)
      requires Valid()
      requires forall t :: t in ts ==> t.id < nextId
      requires DistinctBy(ts, (t: Tenant) => t.id)
      requires UniqueTenantCodes(ts)
      modifies this`tenants
      ensures Valid() && tenants == ts
    {
      tenants := ts;
    }

    /** Replaces the rooms table; ids stay below the counter and room numbers stay unique. */
    method SetRooms(ts: seq<Room>)
      requires Valid()
      requires forall t :: t in ts ==> t.id < nextId
      requires DistinctBy(ts, (t: Room) => t.id)
      requires UniqueRoomNumbers(ts)
      modifies this`rooms
      ensures Valid() && rooms == ts
    {
      rooms := ts;
    }

    /** Replaces the bills table; ids stay below the counter. */
    method SetBills(ts: seq<Bill>)
      requires Valid()
      requires forall t :: t in ts ==> t.id < nextId
      requires DistinctBy(ts, (t: Bill) => t.id)
      modifies this`bills
      ensures Valid() && bills == ts
    {
      bills := ts;
    }

    /** Replaces the payments table; ids stay below the counter. */
    method SetPayments(ts: seq<Payment>)
      requires Valid()
      requires forall t :: t in ts ==> t.id < nextId
      requires DistinctBy(ts, (t: Payment) => t.id)
      modifies this`payments
      ensures Valid() && payments == ts
    {
      payments := ts;
    }

    /** Replaces the coupons table; ids stay below the counter and coupon codes stay unique. */
    method SetCoupons(ts: seq<Coupon>)
      requires Valid()
      requires forall t :: t in ts ==> t.id < nextId
      requires UniqueCouponIds(ts)
      requires UniqueCouponCodes(ts)
      modifies this`coupons
      ensures Valid() && coupons == ts
    {
      coupons := ts;
    }

    /** Replaces the usages table; ids stay below the counter. */
    method SetUsages(ts: seq<CouponUsage>)
      requires Valid()
      requires forall t :: t in ts ==> t.id < nextId
      requires DistinctBy(ts, (t: CouponUsage) => t.id)
      modifies this`usages
      ensures Valid() && usages == ts
    {
      usages := ts;
    }

    /** Replaces the orders table; ids stay below the counter and order numbers stay unique. */
    method SetOrders(ts: seq<Order>)
      requires Valid()
      requires forall t :: t in ts ==> t.id < nextId
      requires DistinctBy(ts, (t: Order) => t.id)
      requires UniqueOrderNumbers(ts)
      modifies this`orders
      ensures Valid() && orders == ts
    {
      orders := ts;
    }

    /** Replaces the configs table; ids stay below the counter and config keys stay unique. */
    method SetConfigs(ts: seq<ConfigRow>)
      requires Valid()
      requires forall t :: t in ts ==> t.id < nextId
      requires DistinctBy(ts, (t: ConfigRow) => t.id)
      requires UniqueConfigKeys(ts)
      modifies this`configs
      ensures Valid() && configs == ts
    {
      configs := ts;
    }

    /** Appends a row with a fresh id (an INSERT). */
    method AddTenant(x: Tenant)
      requires Valid()
      requires x.id < nextId && forall r :: r in tenants ==> r.id != x.id
      requires x.tenantCode.None? || forall r :: r in tenants ==> r.tenantCode != x.tenantCode
      modifies this`tenants
      ensures Valid() && tenants == old(tenants) + [x]
    {
      DistinctByAppend(tenants, (r: Tenant) => r.id, x);
      forall i, j | 0 <= i < j < |tenants + [x]| && (tenants + [x])[i].tenantCode.Some?
        ensures (tenants + [x])[i].tenantCode != (tenants + [x])[j].tenantCode
      {
        if j == |tenants| { assert tenants[i] in tenants; }
      }
      tenants := tenants + [x];
    }

    /** Appends a row with a fresh id (an INSERT). */
    method AddRoom(x: Room)
      requires Valid()
      requires x.id < nextId && forall r :: r in rooms ==> r.id != x.id
      requires forall r :: r in rooms ==> r.roomNumber != x.roomNumber
      modifies this`rooms
      ensures Valid() && rooms == old(rooms) + [x]
    {
      DistinctByAppend(rooms, (r: Room) => r.id, x);
      DistinctByAppend(rooms, (r: Room) => r.roomNumber, x);
      rooms := rooms + [x];
    }

    /** Appends a row with a fresh id (an INSERT). */
    method AddBill(x: Bill)
      requires Valid()
      requires x.id < nextId && forall r :: r in bills ==> r.id != x.id
      modifies this`bills
      ensures Valid() && bills == old(bills) + [x]
    {
      DistinctByAppend(bills, (r: Bill) => r.id, x);
      bills := bills + [x];
    }

    /** Appends a row with a fresh id (an INSERT). */
    method AddPayment(x: Payment)
      requires Valid()
      requires x.id < nextId && forall r :: r in payments ==> r.id != x.id
      modifies this`payments
      ensures Valid() && payments == old(payments) + [x]
    {
      DistinctByAppend(payments, (r: Payment) => r.id, x);
      payments := payments + [x];
    }

    /** Appends a row with a fresh id (an INSERT). */
    method AddCoupon(x: Coupon)
      requires Valid()
      requires x.id < nextId && forall r :: r in coupons ==> r.id != x.id
      requires forall r :: r in coupons ==> r.code != x.code
      modifies this`coupons
      ensures Valid() && coupons == old(coupons) + [x]
    {
      DistinctByAppend(coupons, (r: Coupon) => r.id, x);
      DistinctByAppend(coupons, (r: Coupon) => r.code, x);
      coupons := coupons + [x];
    }

    /** Appends a row with a fresh id (an INSERT). */
    method AddUsage(x: CouponUsage)
      requires Valid()
      requires x.id < nextId && forall r :: r in usages ==> r.id != x.id
      modifies this`usages
      ensures Valid() && usages == old(usages) + [x]
    {
      DistinctByAppend(usages, (r: CouponUsage) => r.id, x);
      usages := usages + [x];
    }

    /** Appends a row with a fresh id (an INSERT). */
    method AddOrder(x: Order)
      requires Valid()
      requires x.id < nextId && forall r :: r in orders ==> r.id != x.id
      requires forall r :: r in orders ==> r.orderNumber != x.orderNumber
      modifies this`orders
      ensures Valid() && orders == old(orders) + [x]
    {
      DistinctByAppend(orders, (r: Order) => r.id, x);
      DistinctByAppend(orders, (r: Order) => r.orderNumber, x);
      orders := orders + [x];
    }

    /** Appends a row with a fresh id (an INSERT). */
    method AddConfig(x: ConfigRow)
      requires Valid()
      requires x.id < nextId && forall r :: r in configs ==> r.id != x.id
      requires forall r :: r in configs ==> r.key != x.key
      modifies this`configs
      ensures Valid() && configs == old(configs) + [x]
    {
      DistinctByAppend(configs, (r: ConfigRow) => r.id, x);
      DistinctByAppend(configs, (r: ConfigRow) => r.key, x);
      configs := configs + [x];
    }
  }
}

=== FILE: system_config_api.dfy ===
/**
 * `GET` and `POST /api/system-config`: lookup of one config row by key or
 * of all rows, and the upsert that writes a key's value (the cashback rule
 * table is stored this way).
 */
module SystemConfigApi {
  import opened Wrappers
  import opened Tables
  import opened Schema
  import opened Store
  import opened Http

  /** What `GET` answers: the row for the key (or null), or every row when no key is given. */
  datatype ConfigReply = One(row: Option<ConfigRow>) | All(rows: seq<ConfigRow>)

  /** `GET`; an empty key counts as none. */
  function GetConfig(configs: seq<ConfigRow>, key: Option<string>): (r: ConfigReply)
    ensures key.None? || key == Some("") ==> r == All(configs)
    ensures key.Some? && key.value != "" ==> r.One? && r.row == ConfigByKey(configs, key.value)
    ensures r.One? && r.row.Some? ==> r.row.value in configs && r.row.value.key == key.value
    ensures r.One? && r.row.None? ==> forall c :: c in configs ==> c.key != key.value
  {
    if key.None? || key.value == "" then All(configs) else One(ConfigByKey(configs, key.value))
  }

  /** The `POST` body: key (empty counts as missing), value (`None` when absent; "" is a value) and description. */
  datatype ConfigPost = ConfigPost(key: Option<string>, value: Option<string>, description: Option<string>)

  /** What a successful `POST` echoes. */
  datatype ConfigEcho = ConfigEcho(key: string, value: string, description: Option<string>)

  const INCOMPLETE := "参数不完整"

  /**
   * The rewrite of an existing row: the new value, and the new description
   * when one is given (an absent column is left out of the update).
   */
  function Rewrite(c: ConfigRow, value: string, description: Option<string>): (r: ConfigRow)
    ensures r.id == c.id && r.key == c.key && r.value == value
    ensures r.description == if description.Some? then description else c.description
  {
    c.(value := value, description := if description.Some? then description else c.description)
  }

  /** The config table after the upsert: the key's row rewritten, or a new row appended when there is none. */
  function Upserted(configs: seq<ConfigRow>, key: string, value: string, description: Option<string>, id: Id)
    : seq<ConfigRow>
  {
    if ConfigByKey(configs, key).Some?
    then UpdateWhere(configs, KeyIs(key), (c: ConfigRow) => Rewrite(c, value, description))
    else configs + [ConfigRow(id, key, value, description)]
  }

  /** After the upsert the key's row holds the posted value, and the keys stay unique. */
  lemma UpsertFinds(configs: seq<ConfigRow>, key: string, value: string, description: Option<string>, id: Id)
    requires UniqueConfigKeys(configs)
    ensures UniqueConfigKeys(Upserted(configs, key, value, description, id))
    ensures ConfigByKey(Upserted(configs, key, value, description, id), key).Some?
    ensures ConfigByKey(Upserted(configs, key, value, description, id), key).value.value == value
    ensures |Filter(Upserted(configs, key, value, description, id), (c: ConfigRow) => c.key == key)| == 1
  {
    var after := Upserted(configs, key, value, description, id);
    var f := (c: ConfigRow) => Rewrite(c, value, description);
    if ConfigByKey(configs, key).Some? {
      UpdateFinds(configs, KeyIs(key), f);
      UpdateKeepsKeys(configs, KeyIs(key), f, (c: ConfigRow) => c.key);
    } else {
      DistinctByAppend(configs, (c: ConfigRow) => c.key, ConfigRow(id, key, value, description));
      assert after[|configs|] == ConfigRow(id, key, value, description);
      FirstWhereAt(after, KeyIs(key), |configs|);
    }
    UniqueKeyLookup(after, key, ConfigByKey(after, key).value);
  }

  /** Rows with other keys are untouched: every other key looks up as before. */
  lemma UpsertKeepsOtherKeys(configs: seq<ConfigRow>, key: string, value: string, description: Option<string>, id: Id,
                             other: string)
    requires UniqueConfigKeys(configs) && other != key
    ensures ConfigByKey(Upserted(configs, key, value, description, id), other) == ConfigByKey(configs, other)
  {
    var after := Upserted(configs, key, value, description, id);
    var f := (c: ConfigRow) => Rewrite(c, value, description);
    UpsertFinds(configs, key, value, description, id);
    var found := ConfigByKey(configs, other);
    if found.Some? {
      var i :| 0 <= i < |configs| && configs[i] == found.value;
      assert after[i] == configs[i];
      FirstWhereAt(after, KeyIs(other), i);
    } else {
      forall c | c in after ensures c.key != other {
        var i :| 0 <= i < |after| && after[i] == c;
        if i < |configs| {
          assert configs[i] in configs;
        }
      }
    }
  }

  /** Posting the same key, value and description twice leaves the table as the first post left it. */
  lemma UpsertIdempotent(configs: seq<ConfigRow>, key: string, value: string, description: Option<string>, id1: Id, id2: Id)
    requires UniqueConfigKeys(configs)
    ensures Upserted(Upserted(configs, key, value, description, id1), key, value, description, id2)
         == Upserted(configs, key, value, description, id1)
  {
    var once := Upserted(configs, key, value, description, id1);
    UpsertFinds(configs, key, value, description, id1);
    PostedRowsHold(configs, key, value, description, id1);
    forall c | c in once && KeyIs(key)(c) ensures Rewrite(c, value, description) == c {
      RewriteFixed(c, value, description);
    }
    UpdateFixed(once, KeyIs(key), (c: ConfigRow) => Rewrite(c, value, description));
  }

  /** After the upsert every row with the key holds the posted value and description. */
  lemma PostedRowsHold(configs: seq<ConfigRow>, key: string, value: string, description: Option<string>, id: Id)
    ensures forall c :: c in Upserted(configs, key, value, description, id) && c.key == key ==>
              c.value == value && (description.Some? ==> c.description == description)
  {
    var once := Upserted(configs, key, value, description, id);
    if ConfigByKey(configs, key).Some? {
      forall c | c in once && c.key == key
        ensures c.value == value && (description.Some? ==> c.description == description)
      {
        var i :| 0 <= i < |once| && once[i] == c;
        assert once[i] == Rewrite(configs[i], value, description);
      }
    }
  }

  /** A row already holding the value (and the description, when one is given) is left as it is. */
  lemma RewriteFixed(c: ConfigRow, value: string, description: Option<string>)
    requires c.value == value && (description.Some? ==> c.description == description)
    ensures Rewrite(c, value, description) == c
  {
  }

  /** `POST`: reject an incomplete body, else upsert and echo what was posted. */
  method PostConfig(db: Db, req: ConfigPost) returns (resp: Response<ConfigEcho>)
    requires db.Valid()
    modifies db`configs, db`nextId
    ensures db.Valid()
    ensures req.key.None? || req.key == Some("") || req.value.None? ==>
              resp == Fail(400, INCOMPLETE) && db.configs == old(db.configs) && db.nextId == old(db.nextId)
    ensures req.key.Some? && req.key.value != "" && req.value.Some? ==>
              && resp == Ok(ConfigEcho(req.key.value, req.value.value, req.description))
              && db.configs == Upserted(old(db.configs), req.key.value, req.value.value, req.description, old(db.nextId))
              && db.nextId == if ConfigByKey(old(db.configs), req.key.value).Some? then old(db.nextId) else old(db.nextId) + 1
  {
    if req.key.None? || req.key.value == "" || req.value.None? {
      return Fail(400, INCOMPLETE);
    }
    Upsert(db, req.key.value, req.value.value, req.description);
    resp := Ok(ConfigEcho(req.key.value, req.value.value, req.description));
  }

  /** The upsert itself: rewrite the key's row, or insert one under a fresh id. */
  method Upsert(db: Db, key: string, value: string, description: Option<string>)
    requires db.Valid()
    modifies db`configs, db`nextId
    ensures db.Valid()
    ensures db.configs == Upserted(old(db.configs), key, value, description, old(db.nextId))
    ensures db.nextId == if ConfigByKey(old(db.configs), key).Some? then old(db.nextId) else old(db.nextId) + 1
  {
    if ConfigByKey(db.configs, key).Some? {
      RewriteKey(db, key, value, description);
    } else {
      var id := db.FreshId();
      db.AddConfig(ConfigRow(id, key, value, description));
    }
  }

  /** The update branch of the upsert: the key's row is rewritten in place. */
  method RewriteKey(db: Db, key: string, value: string, description: Option<string>)
    requires db.Valid() && ConfigByKey(db.configs, key).Some?
    modifies db`configs
    ensures db.Valid()
    ensures db.configs == UpdateWhere(old(db.configs), KeyIs(key), (c: ConfigRow) => Rewrite(c, value, description))
  {
    var f := (c: ConfigRow) => Rewrite(c, value, description);
    UpdateKeepsKeys(db.configs, KeyIs(key), f, (c: ConfigRow) => c.id);
    UpdateKeepsKeys(db.configs, KeyIs(key), f, (c: ConfigRow) => c.key);
    db.SetConfigs(UpdateWhere(db.configs, KeyIs(key), f));
  }
}

=== FILE: tables.dfy ===
/**
 * The row-set operations the record store performs for the queries of the
 * managers: WHERE (Filter), the first matching row (FirstWhere), UPDATE ...
 * WHERE (UpdateWhere), DELETE ... WHERE (DeleteWhere) and a descending
 * ORDER BY over a table kept in creation order (Reverse).
 */
module Tables {
  import opened Wrappers

  /** `r` is `s` with some rows left out and the rest in their original order. */
  ghost predicate SubseqOf<T>(r: seq<T>, s: seq<T>)
    decreases |s|
  {
    if r == [] then true
    else if s == [] then false
    else if r[0] == s[0] then SubseqOf(r[1..], s[1..])
    else SubseqOf(r, s[1..])
  }

  /** The rows of `s` that satisfy `p`, in table order. */
  function Filter<T(!new)>(s: seq<T>, p: T -> bool): (r: seq<T>)
    ensures |r| <= |s|
    ensures forall x :: x in r <==> x in s && p(x)
    ensures SubseqOf(r, s)
    decreases |s|
  {
    if s == [] then []
    else if p(s[0]) then [s[0]] + Filter(s[1..], p)
    else
      var rest := Filter(s[1..], p);
      assert rest != [] ==> rest[0] != s[0] by {
        if rest != [] { assert rest[0] in rest; }
      }
      rest
  }

  /** Filtering a concatenation filters each part: rows keep their relative order. */
  lemma {:induction false} FilterConcat<T(!new)>(a: seq<T>, b: seq<T>, p: T -> bool)
    ensures Filter(a + b, p) == Filter(a, p) + Filter(b, p)
    decreases |a|
  {
    if a == [] {
      assert a + b == b;
    } else {
      assert (a + b)[1..] == a[1..] + b;
      FilterConcat(a[1..], b, p);
    }
  }

  /** Two filters in sequence are one filter by the conjunction. */
  lemma {:induction false} FilterFilter<T(!new)>(s: seq<T>, p: T -> bool, q: T -> bool)
    ensures Filter(Filter(s, p), q) == Filter(s, x => p(x) && q(x))
    decreases |s|
  {
    if s != [] {
      FilterFilter(s[1..], p, q);
    }
  }

  /** Filtering a table in which no row matches gives no rows. */
  lemma {:induction false} FilterNone<T(!new)>(s: seq<T>, p: T -> bool)
    requires forall x :: x in s ==> !p(x)
    ensures Filter(s, p) == []
    decreases |s|
  {
    if s != [] {
      assert s[0] in s;
      FilterNone(s[1..], p);
    }
  }

  /** The first row of `s` satisfying `p`, if any (a `SELECT ... LIMIT 1`). */
  function FirstWhere<T>(s: seq<T>, p: T -> bool): (r: Option<T>)
    ensures r.None? <==> forall x :: x in s ==> !p(x)
    ensures r.Some? ==> r.value in s && p(r.value)
    ensures r.Some? ==> exists i :: 0 <= i < |s| && s[i] == r.value && forall j :: 0 <= j < i ==> !p(s[j])
    decreases |s|
  {
    if s == [] then None
    else if p(s[0]) then Some(s[0])
    else
      var r := FirstWhere(s[1..], p);
      assert r.Some? ==> exists i :: 0 <= i < |s| && s[i] == r.value && forall j :: 0 <= j < i ==> !p(s[j]) by {
        if r.Some? {
          var i :| 0 <= i < |s[1..]| && s[1..][i] == r.value && forall j :: 0 <= j < i ==> !p(s[1..][j]);
          assert s[i + 1] == r.value;
          forall j | 0 <= j < i + 1 ensures !p(s[j]) {
            if j > 0 { assert s[j] == s[1..][j - 1]; }
          }
        }
      }
      r
  }

  /** `UPDATE ... SET f WHERE p`: every matching row is rewritten, every other row kept. */
  function UpdateWhere<T>(s: seq<T>, p: T -> bool, f: T -> T): (r: seq<T>)
    ensures |r| == |s|
    ensures forall i :: 0 <= i < |s| ==> r[i] == if p(s[i]) then f(s[i]) else s[i]
  {
    seq(|s|, i requires 0 <= i < |s| => if p(s[i]) then f(s[i]) else s[i])
  }

  /** An update that matches no row leaves the table as it was. */
  lemma UpdateNoMatch<T>(s: seq<T>, p: T -> bool, f: T -> T)
    requires forall x :: x in s ==> !p(x)
    ensures UpdateWhere(s, p, f) == s
  {
    var r := UpdateWhere(s, p, f);
    forall i | 0 <= i < |s| ensures r[i] == s[i] {
      assert s[i] in s;
    }
  }

  /** An update that leaves every matching row as it is leaves the table as it was. */
  lemma UpdateFixed<T>(s: seq<T>, p: T -> bool, f: T -> T)
    requires forall x :: x in s && p(x) ==> f(x) == x
    ensures UpdateWhere(s, p, f) == s
  {
    var r := UpdateWhere(s, p, f);
    forall i | 0 <= i < |s| ensures r[i] == s[i] {
      assert s[i] in s;
    }
  }

  /** `DELETE ... WHERE p`: the rows that do not match, in order. */
  function DeleteWhere<T(!new)>(s: seq<T>, p: T -> bool): (r: seq<T>)
    ensures forall x :: x in r <==> x in s && !p(x)
    ensures SubseqOf(r, s)
    ensures |r| <= |s|
    ensures (exists x :: x in s && p(x)) <==> |r| < |s|
  {
    var r := Filter(s, x => !p(x));
    assert (exists x :: x in s && p(x)) ==> |r| < |s| by {
      if x :| x in s && p(x) { FilterMissesOne(s, x => !p(x), x); }
    }
    assert |r| < |s| ==> exists x :: x in s && p(x) by {
      if forall x :: x in s ==> !p(x) { FilterAll(s, x => !p(x)); }
    }
    r
  }

  /** Filtering drops at least one row when some row fails the predicate. */
  lemma {:induction false} FilterMissesOne<T(!new)>(s: seq<T>, p: T -> bool, x: T)
    requires x in s && !p(x)
    ensures |Filter(s, p)| < |s|
    decreases |s|
  {
    if s[0] != x {
      FilterMissesOne(s[1..], p, x);
    }
  }

  /** Filtering keeps a table whose every row satisfies the predicate. */
  lemma {:induction false} FilterAll<T(!new)>(s: seq<T>, p: T -> bool)
    requires forall x :: x in s ==> p(x)
    ensures Filter(s, p) == s
    decreases |s|
  {
    if s != [] {
      assert s[0] in s;
      FilterAll(s[1..], p);
      assert [s[0]] + s[1..] == s;
    }
  }

  /** No two rows of `s` share a `key` (a UNIQUE column). */
  ghost predicate DistinctBy<T, K>(s: seq<T>, key: T -> K)
  {
    forall i, j :: 0 <= i < j < |s| ==> key(s[i]) != key(s[j])
  }

  /** Appending a row whose key no row has keeps the keys distinct. */
  lemma DistinctByAppend<T, K>(s: seq<T>, key: T -> K, x: T)
    requires DistinctBy(s, key)
    requires forall y :: y in s ==> key(y) != key(x)
    ensures DistinctBy(s + [x], key)
  {
    var t := s + [x];
    forall i, j | 0 <= i < j < |t| ensures key(t[i]) != key(t[j]) {
      if j == |s| { assert t[i] in s; }
    }
  }

  /** Leaving rows out keeps the keys of the remaining rows distinct. */
  lemma {:induction false} DistinctBySubseq<T, K>(r: seq<T>, s: seq<T>, key: T -> K)
    requires SubseqOf(r, s) && DistinctBy(s, key)
    ensures DistinctBy(r, key)
    ensures forall x :: x in r ==> x in s
    decreases |s|
  {
    if r != [] {
      if r[0] == s[0] {
        DistinctBySubseq(r[1..], s[1..], key);
        forall i, j | 0 <= i < j < |r| ensures key(r[i]) != key(r[j]) {
          if i == 0 {
            assert r[j] == r[1..][j - 1];
            assert r[j] in r[1..];
            var k :| 0 <= k < |s[1..]| && s[1..][k] == r[j];
            assert s[k + 1] == r[j];
          } else {
            assert r[i] == r[1..][i - 1] && r[j] == r[1..][j - 1];
          }
        }
        forall x | x in r ensures x in s {
          if x != r[0] { assert x in r[1..]; }
        }
      } else {
        DistinctBySubseq(r, s[1..], key);
      }
    }
  }


  /** At most one row of `s` satisfies `p` (a lookup by a unique key). */
  ghost predicate AtMostOne<T>(s: seq<T>, p: T -> bool)
  {
    forall i, j :: 0 <= i < |s| && 0 <= j < |s| && p(s[i]) && p(s[j]) ==> i == j
  }

  /** Rows of `s` that `p` picks out, with a row that satisfies `p` at a known position. */
  lemma FirstWhereAt<T>(s: seq<T>, p: T -> bool, i: nat)
    requires i < |s| && p(s[i]) && AtMostOne(s, p)
    ensures FirstWhere(s, p) == Some(s[i])
  {
    var r := FirstWhere(s, p);
    var j :| 0 <= j < |s| && s[j] == r.value && forall k :: 0 <= k < j ==> !p(s[k]);
  }

  /**
   * Updating the single row a unique-key predicate picks out: looking that row
   * up afterwards finds the updated row, and an update that matches nothing
   * changes nothing.
   */
  lemma UpdateFinds<T>(s: seq<T>, p: T -> bool, f: T -> T)
    requires AtMostOne(s, p)
    requires forall x :: p(x) ==> p(f(x))
    ensures FirstWhere(UpdateWhere(s, p, f), p) == if FirstWhere(s, p).Some? then Some(f(FirstWhere(s, p).value)) else None
    ensures FirstWhere(s, p).None? ==> UpdateWhere(s, p, f) == s
  {
    var r := UpdateWhere(s, p, f);
    var before := FirstWhere(s, p);
    if before.Some? {
      var i :| 0 <= i < |s| && s[i] == before.value && forall k :: 0 <= k < i ==> !p(s[k]);
      assert AtMostOne(r, p) by {
        forall a, b | 0 <= a < |r| && 0 <= b < |r| && p(r[a]) && p(r[b]) ensures a == b {
          assert p(s[a]) && p(s[b]);
        }
      }
      FirstWhereAt(r, p, i);
    } else {
      UpdateNoMatch(s, p, f);
    }
  }

  /** An update that keeps every row's key keeps the set of keys and their distinctness. */
  lemma UpdateKeepsKeys<T, K>(s: seq<T>, p: T -> bool, f: T -> T, key: T -> K)
    requires forall x :: key(f(x)) == key(x)
    ensures forall y :: y in UpdateWhere(s, p, f) ==> exists x :: x in s && key(x) == key(y)
    ensures DistinctBy(s, key) ==> DistinctBy(UpdateWhere(s, p, f), key)
  {
    var r := UpdateWhere(s, p, f);
    forall y | y in r ensures exists x :: x in s && key(x) == key(y) {
      var i :| 0 <= i < |r| && r[i] == y;
      assert s[i] in s && key(s[i]) == key(y);
    }
  }

  /** The rows in the opposite order (an ORDER BY createdAt DESC over a creation-ordered table). */
  function Reverse<T>(s: seq<T>): (r: seq<T>)
    ensures |r| == |s|
    ensures forall i :: 0 <= i < |s| ==> r[i] == s[|s| - 1 - i]
    decreases |s|
  {
    if s == [] then [] else Reverse(s[1..]) + [s[0]]
  }

  /** Reversal keeps the same rows. */
  lemma ReverseSameRows<T>(s: seq<T>)
    ensures forall x :: x in Reverse(s) <==> x in s
  {
    var r := Reverse(s);
    forall x | x in s ensures x in r {
      var i :| 0 <= i < |s| && s[i] == x;
      assert r[|s| - 1 - i] == x;
    }
  }

  /** Reversing twice gives the rows back in their original order. */
  lemma {:induction false} ReverseReverse<T>(s: seq<T>)
    ensures Reverse(Reverse(s)) == s
    decreases |s|
  {
    var r := Reverse(Reverse(s));
    assert |r| == |s|;
    forall i | 0 <= i < |s| ensures r[i] == s[i] {
      assert r[i] == Reverse(s)[|s| - 1 - i];
    }
  }
}

=== FILE: tenant_manager.dfy ===
/**
 * The tenant manager: insert, the filtered listing (phone matched as a
 * substring), lookups by id and by exact phone, partial update and the
 * status update used at move-out.
 */
module TenantManager {
  import opened Wrappers
  import opened Money
  import opened Tables
  import opened Schema
  import opened Store

  /** The predicate `WHERE id = ?` on tenants. */
  function IdIs(id: Id): Tenant -> bool
  {
    (t: Tenant) => t.id == id
  }

  /** `getTenantById`: the tenant with that id, or none. */
  function TenantById(tenants: seq<Tenant>, id: Id): (r: Option<Tenant>)
    ensures r.None? <==> forall t :: t in tenants ==> t.id != id
    ensures r.Some? ==> r.value in tenants && r.value.id == id
  {
    FirstWhere(tenants, IdIs(id))
  }

  /** `getTenantByPhone`: the first tenant (in creation order) whose phone is exactly `phone`. */
  function TenantByPhone(tenants: seq<Tenant>, phone: string): (r: Option<Tenant>)
    ensures r.None? <==> forall t :: t in tenants ==> t.phone != phone
    ensures r.Some? ==> exists i :: 0 <= i < |tenants| && tenants[i] == r.value && r.value.phone == phone &&
                                     forall j :: 0 <= j < i ==> tenants[j].phone != phone
  {
    FirstWhere(tenants, (t: Tenant) => t.phone == phone)
  }

  /** `s` contains `sub` as a contiguous piece (`LIKE '%sub%'`). */
  predicate Contains(s: string, sub: string)
  {
    exists i | 0 <= i <= |s| :: OccursAt(s, sub, i)
  }

  /** `sub` starts at position `i` of `s`. */
  predicate OccursAt(s: string, sub: string, i: nat)
  {
    i + |sub| <= |s| && s[i..i + |sub|] == sub
  }

  /** Every string contains the empty string and itself. */
  lemma ContainsSpec(s: string)
    ensures Contains(s, "") && Contains(s, s)
  {
    assert OccursAt(s, "", 0);
    assert OccursAt(s, s, 0);
  }

  predicate TenantMatches(t: Tenant, roomId: Option<Id>, status: Option<TenantStatus>, phone: Option<string>)
  {
    && (roomId.None? || t.roomId == Some(roomId.value))
    && (status.None? || t.status == status.value)
    && (phone.None? || Contains(t.phone, phone.value))
  }

  /** `getTenants`: the tenants matching every supplied filter, oldest first. */
  function GetTenants(db: Db, roomId: Option<Id>, status: Option<TenantStatus>, phone: Option<string>): (r: seq<Tenant>)
    reads db
    ensures forall t :: t in r <==> t in db.tenants && TenantMatches(t, roomId, status, phone)
    ensures SubseqOf(r, db.tenants)
  {
    Filter(db.tenants, (t: Tenant) => TenantMatches(t, roomId, status, phone))
  }

  /** A tenant found by exact phone is also listed by the phone filter. */
  lemma ExactPhoneIsListed(db: Db, phone: string)
    requires TenantByPhone(db.tenants, phone).Some?
    ensures TenantByPhone(db.tenants, phone).value in GetTenants(db, None, None, Some(phone))
  {
    ContainsSpec(phone);
  }

  /** `createTenant`: inserts one tenant, defaults applied, and returns it. */
  method CreateTenant(db: Db, data: TenantInput) returns (tenant: Tenant)
    requires db.Valid()
    modifies db`tenants, db`nextId
    ensures db.Valid()
    ensures tenant == TenantRow(old(db.nextId), data)
    ensures db.tenants == old(db.tenants) + [tenant] && db.nextId == old(db.nextId) + 1
  {
    var id := db.FreshId();
    tenant := TenantRow(id, data);
    db.AddTenant(tenant);
  }

  /**
   * The columns a tenant update supplies; `None` leaves a column as it is,
   * and for a nullable column `Some(None)` sets it to null. The update
   * schema would also take `tenantCode` and `id`; no caller sends them, so
   * the patch has no such fields.
   */
  datatype TenantPatch = TenantPatch(
    roomId: Option<Option<Id>>, name: Option<string>, phone: Option<string>, idCard: Option<Option<string>>,
    familyMembers: Option<int>, deposit: Option<Cents>, status: Option<TenantStatus>,
    moveInDate: Option<Option<Time>>, moveOutDate: Option<Option<Time>>, remarks: Option<Option<string>>)

  /** A tenant with the supplied columns of `patch` written over it; id and tenant code are kept. */
  function ApplyPatch(t: Tenant, patch: TenantPatch): (r: Tenant)
    ensures r.id == t.id && r.tenantCode == t.tenantCode
    ensures r.roomId == patch.roomId.GetOr(t.roomId) && r.name == patch.name.GetOr(t.name)
    ensures r.phone == patch.phone.GetOr(t.phone) && r.idCard == patch.idCard.GetOr(t.idCard)
    ensures r.familyMembers == patch.familyMembers.GetOr(t.familyMembers) && r.deposit == patch.deposit.GetOr(t.deposit)
    ensures r.status == patch.status.GetOr(t.status) && r.moveInDate == patch.moveInDate.GetOr(t.moveInDate)
    ensures r.moveOutDate == patch.moveOutDate.GetOr(t.moveOutDate) && r.remarks == patch.remarks.GetOr(t.remarks)
  {
    Tenant(t.id, patch.roomId.GetOr(t.roomId), patch.name.GetOr(t.name), patch.phone.GetOr(t.phone),
           patch.idCard.GetOr(t.idCard), patch.familyMembers.GetOr(t.familyMembers), patch.deposit.GetOr(t.deposit),
           patch.status.GetOr(t.status), patch.moveInDate.GetOr(t.moveInDate), patch.moveOutDate.GetOr(t.moveOutDate),
           patch.remarks.GetOr(t.remarks), t.tenantCode)
  }

  /** The patch `updateTenantStatus` amounts to: the status, and the move-out date only when one is given. */
  function StatusPatch(status: TenantStatus, moveOutDate: Option<Time>): (p: TenantPatch)
    ensures p.status == Some(status)
    ensures p.moveOutDate == if moveOutDate.Some? then Some(moveOutDate) else None
    ensures p.roomId.None? && p.name.None? && p.phone.None? && p.idCard.None? && p.familyMembers.None?
    ensures p.deposit.None? && p.moveInDate.None? && p.remarks.None?
  {
    TenantPatch(None, None, None, None, None, None, Some(status), None,
                if moveOutDate.Some? then Some(moveOutDate) else None, None)
  }

  /** A status update without a date keeps the move-out date; with one it records it. */
  lemma StatusPatchMoveOut(t: Tenant, status: TenantStatus, moveOutDate: Option<Time>)
    ensures ApplyPatch(t, StatusPatch(status, moveOutDate)).moveOutDate
         == if moveOutDate.Some? then moveOutDate else t.moveOutDate
    ensures ApplyPatch(t, StatusPatch(status, moveOutDate)).(status := t.status, moveOutDate := t.moveOutDate) == t
  {
  }

  /**
   * `updateTenant`: writes the supplied columns of the tenant with that id
   * and returns the updated row; an unknown id changes nothing and gives none.
   */
  method UpdateTenant(db: Db, id: Id, patch: TenantPatch) returns (tenant: Option<Tenant>)
    requires db.Valid()
    modifies db`tenants
    ensures db.Valid()
    ensures db.tenants == UpdateWhere(old(db.tenants), IdIs(id), (t: Tenant) => ApplyPatch(t, patch))
    ensures tenant.None? <==> forall t :: t in old(db.tenants) ==> t.id != id
    ensures tenant.None? ==> db.tenants == old(db.tenants)
    ensures tenant.Some? ==> tenant == Some(ApplyPatch(TenantById(old(db.tenants), id).value, patch))
  {
    var f := (t: Tenant) => ApplyPatch(t, patch);
    UpdateFinds(db.tenants, IdIs(id), f);
    UpdateKeepsKeys(db.tenants, IdIs(id), f, (t: Tenant) => t.id);
    var after := UpdateWhere(db.tenants, IdIs(id), f);
    assert UniqueTenantCodes(after) by {
      forall i, j | 0 <= i < j < |after| && after[i].tenantCode.Some?
        ensures after[i].tenantCode != after[j].tenantCode
      {
        assert after[i].tenantCode == db.tenants[i].tenantCode && after[j].tenantCode == db.tenants[j].tenantCode;
      }
    }
    db.SetTenants(after);
    tenant := TenantById(db.tenants, id);
  }

  /** `updateTenantStatus`: sets the status, and the move-out date when one is given. */
  method UpdateTenantStatus(db: Db, id: Id, status: TenantStatus, moveOutDate: Option<Time>) returns (tenant: Option<Tenant>)
    requires db.Valid()
    modifies db`tenants
    ensures db.Valid()
    ensures db.tenants == UpdateWhere(old(db.tenants), IdIs(id), (t: Tenant) => ApplyPatch(t, StatusPatch(status, moveOutDate)))
    ensures tenant.None? <==> forall t :: t in old(db.tenants) ==> t.id != id
    ensures tenant.Some? ==> tenant == Some(ApplyPatch(TenantById(old(db.tenants), id).value, StatusPatch(status, moveOutDate)))
  {
    tenant := UpdateTenant(db, id, StatusPatch(status, moveOutDate));
  }
}

=== FILE: tenants_api.dfy ===
/**
 * `POST /api/tenants`, the check-in handler: after its guards it creates
 * the tenant, marks the room occupied, records a completed deposit payment
 * when a positive deposit is given, and issues the first month's unpaid
 * rent bill.
 */
module TenantsApi {
  import opened Wrappers
  import opened Money
  import opened Tables
  import opened Schema
  import opened Store
  import opened Http
  import TenantManager
  import PaymentManager
  import BillManager
  import RM = RoomManager

  /**
   * The request body. A field that is absent or falsy (an empty string, a
   * zero number) is `None`.
   */
  datatype CheckInRequest = CheckInRequest(
    name: Option<string>, phone: Option<string>, roomId: Option<Id>, idCard: Option<string>,
    familyMembers: Option<int>, deposit: Option<Cents>, moveInDate: Option<Time>, remarks: Option<string>,
    paymentMethod: Option<string>, monthlyRent: Option<Cents>)

  const MISSING_FIELDS := "缺少必填字段：name, phone, roomId"
  const UNKNOWN_ROOM := "房间不存在"
  const ROOM_UNAVAILABLE := "房间不可用"
  const PHONE_TAKEN := "该手机号已注册"
  const CHECKED_IN := "入住成功"
  const DEPOSIT_REMARK := "入住押金"
  /** The rent of the first bill when neither the request nor the room gives one: 1500.00. */
  const FALLBACK_RENT: Cents := 150000

  /** What a successful check-in returns. */
  datatype CheckIn = CheckIn(tenant: Tenant, message: string)

  predicate MissingField(req: CheckInRequest)
  {
    req.name.None? || req.phone.None? || req.roomId.None?
  }

  /**
   * The guards in the handler's order: required fields (400), unknown room
   * (404), room not available (400), phone already registered (400).
   * `None` lets the check-in go ahead.
   */
  function Guard(rooms: seq<Room>, tenants: seq<Tenant>, req: CheckInRequest): (r: Option<Response<CheckIn>>)
    ensures r.Some? ==> r.value.Fail?
    ensures MissingField(req) ==> r == Some(Fail(400, MISSING_FIELDS))
    ensures !MissingField(req) && RM.RoomById(rooms, req.roomId.value).None? ==> r == Some(Fail(404, UNKNOWN_ROOM))
    ensures (&& !MissingField(req) && RM.RoomById(rooms, req.roomId.value).Some?
             && RM.RoomById(rooms, req.roomId.value).value.status != Available) ==> r == Some(Fail(400, ROOM_UNAVAILABLE))
    ensures (&& !MissingField(req) && RM.RoomById(rooms, req.roomId.value).Some?
             && RM.RoomById(rooms, req.roomId.value).value.status == Available
             && TenantManager.TenantByPhone(tenants, req.phone.value).Some?) ==> r == Some(Fail(400, PHONE_TAKEN))
    ensures r.None? <==>
              && !MissingField(req)
              && RM.RoomById(rooms, req.roomId.value).Some?
              && RM.RoomById(rooms, req.roomId.value).value.status == Available
              && TenantManager.TenantByPhone(tenants, req.phone.value).None?
  {
    if MissingField(req) then Some(Fail(400, MISSING_FIELDS))
    else
      var room := RM.RoomById(rooms, req.roomId.value);
      if room.None? then Some(Fail(404, UNKNOWN_ROOM))
      else if room.value.status != Available then Some(Fail(400, ROOM_UNAVAILABLE))
      else if TenantManager.TenantByPhone(tenants, req.phone.value).Some? then Some(Fail(400, PHONE_TAKEN))
      else None
  }

  /** The tenant row asked for: active, one family member and no deposit unless given, moved in `now` unless a date is given. */
  function TenantData(req: CheckInRequest, now: Time): (t: TenantInput)
    requires !MissingField(req)
    ensures t.roomId == req.roomId && t.name == req.name.value && t.phone == req.phone.value
    ensures t.familyMembers == Some(req.familyMembers.GetOr(1))
    ensures t.deposit == Some(req.deposit.GetOr(0))
    ensures t.status == Some(TenantActive)
    ensures t.moveInDate == Some(req.moveInDate.GetOr(now))
    ensures t.idCard == req.idCard && t.remarks == req.remarks
  {
    TenantInput(req.roomId, req.name.value, req.phone.value, req.idCard, Some(req.familyMembers.GetOr(1)),
                Some(req.deposit.GetOr(0)), Some(TenantActive), Some(req.moveInDate.GetOr(now)), req.remarks)
  }

  /** A deposit payment is recorded only for a deposit that is given and positive. */
  predicate PaysDeposit(req: CheckInRequest)
  {
    req.deposit.Some? && req.deposit.value > 0
  }

  /** The deposit payment: completed, of type deposit, paid by WeChat unless another method is named. */
  function DepositData(tenantId: Id, req: CheckInRequest): (p: PaymentInput)
    requires PaysDeposit(req)
    ensures p.tenantId == tenantId && p.billId.None? && p.amount == req.deposit.value && p.kind == Deposit
    ensures p.paymentMethod == Some(if req.paymentMethod.Some? then req.paymentMethod.value else "wechat")
    ensures p.status == Some(Completed) && p.remarks == Some(DEPOSIT_REMARK)
  {
    PaymentInput(tenantId, None, req.deposit.value, Deposit, Some(req.paymentMethod.GetOr("wechat")),
                 None, Some(Completed), Some(DEPOSIT_REMARK))
  }

  /** The first rent: the requested monthly rent, else the room's base rent, else 1500.00. */
  function FirstRent(req: CheckInRequest, room: Room): (amount: Cents)
    ensures req.monthlyRent.Some? ==> amount == req.monthlyRent.value
    ensures req.monthlyRent.None? && room.baseRent.Some? ==> amount == room.baseRent.value
    ensures req.monthlyRent.None? && room.baseRent.None? ==> amount == FALLBACK_RENT
  {
    req.monthlyRent.GetOr(room.baseRent.GetOr(FALLBACK_RENT))
  }

  /**
   * The handler. `now` is the clock and `dueDate` the same moment one
   * calendar month later, the due date of the first rent bill.
   */
  method PostTenant(db: Db, req: CheckInRequest, now: Time, dueDate: Time) returns (resp: Response<CheckIn>)
    requires db.Valid()
    modifies db`tenants, db`rooms, db`payments, db`bills, db`nextId
    ensures db.Valid()
    ensures var g := Guard(old(db.rooms), old(db.tenants), req);
            && (g.Some? ==> resp == g.value)
            && (g.None? ==> resp.Ok?)
    ensures resp.Fail? ==>
              && db.tenants == old(db.tenants) && db.rooms == old(db.rooms) && db.payments == old(db.payments)
              && db.bills == old(db.bills) && db.nextId == old(db.nextId)
    ensures resp.Ok? ==>
              var tenant := TenantRow(old(db.nextId), TenantData(req, now));
              var room := RM.RoomById(old(db.rooms), req.roomId.value).value;
              var billId := if PaysDeposit(req) then old(db.nextId) + 2 else old(db.nextId) + 1;
              && resp.body == CheckIn(tenant, CHECKED_IN)
              && db.tenants == old(db.tenants) + [tenant]
              && db.rooms == UpdateWhere(old(db.rooms), RM.IdIs(room.id), RM.WithStatus(Occupied))
              && db.payments == old(db.payments)
                                + (if PaysDeposit(req) then [PaymentRow(old(db.nextId) + 1, DepositData(tenant.id, req))] else [])
              && db.bills == old(db.bills) + [BillManager.RentBill(billId, tenant.id, room.id, FirstRent(req, room), dueDate)]
              && db.nextId == billId + 1
  {
    var g := Guard(db.rooms, db.tenants, req);
    if g.Some? {
      return g.value;
    }
    var room := RM.RoomById(db.rooms, req.roomId.value).value;
    var tenant := Register(db, req, now, dueDate, room);
    resp := Ok(CheckIn(tenant, CHECKED_IN));
  }

  /** The handler once every guard has passed: tenant, room, deposit, rent bill. */
  method Register(db: Db, req: CheckInRequest, now: Time, dueDate: Time, room: Room) returns (tenant: Tenant)
    requires db.Valid() && !MissingField(req)
    modifies db`tenants, db`rooms, db`payments, db`bills, db`nextId
    ensures db.Valid()
    ensures tenant == TenantRow(old(db.nextId), TenantData(req, now))
    ensures db.tenants == old(db.tenants) + [tenant]
    ensures db.rooms == UpdateWhere(old(db.rooms), RM.IdIs(room.id), RM.WithStatus(Occupied))
    ensures db.payments == old(db.payments)
                           + (if PaysDeposit(req) then [PaymentRow(old(db.nextId) + 1, DepositData(tenant.id, req))] else [])
    ensures var billId := if PaysDeposit(req) then old(db.nextId) + 2 else old(db.nextId) + 1;
            && db.bills == old(db.bills) + [BillManager.RentBill(billId, tenant.id, room.id, FirstRent(req, room), dueDate)]
            && db.nextId == billId + 1
  {
    tenant := Admit(db, req, now, room);
    RecordDeposit(db, tenant.id, req);
    var _ := BillManager.GenerateRentBill(db, tenant.id, room.id, FirstRent(req, room), dueDate);
  }

  /** The tenant insert and the room update, once the guards have passed. */
  method Admit(db: Db, req: CheckInRequest, now: Time, room: Room) returns (tenant: Tenant)
    requires db.Valid() && !MissingField(req)
    modifies db`tenants, db`rooms, db`nextId
    ensures db.Valid()
    ensures tenant == TenantRow(old(db.nextId), TenantData(req, now))
    ensures db.tenants == old(db.tenants) + [tenant]
    ensures db.rooms == UpdateWhere(old(db.rooms), RM.IdIs(room.id), RM.WithStatus(Occupied))
    ensures db.nextId == old(db.nextId) + 1
  {
    tenant := TenantManager.CreateTenant(db, TenantData(req, now));
    var _ := RM.UpdateRoomStatus(db, room.id, Occupied);
  }

  /** The deposit step: a completed deposit payment iff the deposit is positive. */
  method RecordDeposit(db: Db, tenantId: Id, req: CheckInRequest)
    requires db.Valid()
    modifies db`payments, db`nextId
    ensures db.Valid()
    ensures db.payments == old(db.payments)
                           + (if PaysDeposit(req) then [PaymentRow(old(db.nextId), DepositData(tenantId, req))] else [])
    ensures db.nextId == if PaysDeposit(req) then old(db.nextId) + 1 else old(db.nextId)
  {
    if PaysDeposit(req) {
      var _ := PaymentManager.CreatePayment(db, DepositData(tenantId, req));
    }
  }

  /** After the room update the checked-in room is occupied. */
  lemma CheckedInRoomIsOccupied(rooms: seq<Room>, id: Id)
    requires RM.RoomById(rooms, id).Some?
    ensures RM.RoomById(UpdateWhere(rooms, RM.IdIs(id), RM.WithStatus(Occupied)), id).Some?
    ensures RM.RoomById(UpdateWhere(rooms, RM.IdIs(id), RM.WithStatus(Occupied)), id).value.status == Occupied
  {
    var after := UpdateWhere(rooms, RM.IdIs(id), RM.WithStatus(Occupied));
    var x := RM.RoomById(rooms, id).value;
    var i :| 0 <= i < |rooms| && rooms[i] == x;
    assert after[i] in after && after[i].id == id;
    var y := RM.RoomById(after, id).value;
    var j :| 0 <= j < |after| && after[j] == y;
    assert after[j] == rooms[j].(status := Occupied);
  }

  /**
   * A successful check-in closes its room and its phone number: any later
   * request for the same room, or with the same phone, is refused.
   */
  lemma CheckInIsNotRepeatable(rooms: seq<Room>, tenants: seq<Tenant>, req: CheckInRequest, tenant: Tenant,
                               req2: CheckInRequest)
    requires Guard(rooms, tenants, req).None?
    requires tenant.phone == req.phone.value
    requires req2.roomId == req.roomId || req2.phone == req.phone
    ensures Guard(UpdateWhere(rooms, RM.IdIs(req.roomId.value), RM.WithStatus(Occupied)), tenants + [tenant], req2).Some?
  {
    var after := UpdateWhere(rooms, RM.IdIs(req.roomId.value), RM.WithStatus(Occupied));
    CheckedInRoomIsOccupied(rooms, req.roomId.value);
    if req2.phone == req.phone {
      assert tenant in tenants + [tenant];
    }
  }
}

=== FILE: verify_api.dfy ===
/**
 * `PUT /api/payments/verify` and `GET /api/payments/verify`, the older
 * review endpoint. Approve marks the bill paid and may issue a coupon but
 * leaves the payment itself pending; reject resets the bill through the
 * bill manager's status update, which keeps the paid date. `GET` lists the
 * pending payments to an allow-listed caller.
 */
module VerifyApi {
  import opened Wrappers
  import opened Money
  import opened Tables
  import opened Schema
  import opened Store
  import opened Http
  import opened CouponRules
  import opened AdminAuth
  import BillManager
  import CouponManager
  import PaymentManager
  import CM = ConfirmApi

  /**
   * The request body. An absent or empty payment id or action is `None`; the
   * admin phone is `None` only when absent, so an empty phone is `Some("")`.
   */
  datatype VerifyRequest = VerifyRequest(paymentId: Option<Id>, action: Option<string>, adminPhone: Option<string>)

  const MISSING_FIELDS := "缺少必填字段"
  const INVALID_ACTION := "无效的操作"
  const APPROVED := "支付已批准"
  const REJECTED := "支付已拒绝"

  /** The payment with that id among the pending ones (newest first), as the handler finds it. */
  function PendingPayment(payments: seq<Payment>, id: Id): (r: Option<Payment>)
    ensures r.None? <==> forall p :: p in payments ==> p.id != id || p.status != PaymentPending
    ensures r.Some? ==> r.value in payments && r.value.id == id && r.value.status == PaymentPending
  {
    FirstWhere(PaymentManager.Selected(payments, None, None, None, Some(PaymentPending)), PaymentManager.IdIs(id))
  }

  /** Ids are unique, so the pending lookup finds the row the id lookup finds, when that row is pending. */
  lemma PendingPaymentIsById(payments: seq<Payment>, id: Id)
    requires DistinctBy(payments, (p: Payment) => p.id)
    ensures PendingPayment(payments, id) == (var p := PaymentManager.PaymentById(payments, id);
                                             if p.Some? && p.value.status == PaymentPending then p else None)
  {
    var r := PendingPayment(payments, id);
    if r.Some? {
      PaymentManager.PaymentByIdUnique(payments, r.value);
    }
  }

  /** The guards in the handler's order: allow-list (403), fields (400), a pending payment (404). */
  function Guard(payments: seq<Payment>, env: Option<string>, req: VerifyRequest): (r: Option<Response<CM.Approval>>)
    ensures !Authorized(VerifyAllowList(env), req.adminPhone) ==> r == Some(Fail(403, CM.NO_PERMISSION))
    ensures env.None? ==> r == Some(Fail(403, CM.NO_PERMISSION))
    ensures (Authorized(VerifyAllowList(env), req.adminPhone) && (req.paymentId.None? || req.action.None?))
            ==> r == Some(Fail(400, MISSING_FIELDS))
    ensures (&& Authorized(VerifyAllowList(env), req.adminPhone) && req.paymentId.Some? && req.action.Some?
             && PendingPayment(payments, req.paymentId.value).None?) ==> r == Some(Fail(404, CM.UNKNOWN_PAYMENT))
    ensures r.None? <==> Authorized(VerifyAllowList(env), req.adminPhone) && req.paymentId.Some? && req.action.Some?
                         && PendingPayment(payments, req.paymentId.value).Some?
    ensures r.Some? ==> r.value.Fail?
  {
    if !Authorized(VerifyAllowList(env), req.adminPhone) then Some(Fail(403, CM.NO_PERMISSION))
    else if req.paymentId.None? || req.action.None? then Some(Fail(400, MISSING_FIELDS))
    else if PendingPayment(payments, req.paymentId.value).None? then Some(Fail(404, CM.UNKNOWN_PAYMENT))
    else None
  }

  /**
   * The handler. `env` is `ADMIN_PHONES`, `now` the clock, `parse` the JSON
   * reader of the rule table and `code` the code for a possible coupon.
   */
  method Verify(db: Db, env: Option<string>, req: VerifyRequest, now: Time, parse: string -> Option<seq<Rule>>, code: string)
    returns (resp: Response<CM.Approval>)
    requires db.Valid()
    requires forall c :: c in db.coupons ==> c.code != code
    modifies db`bills, db`coupons, db`nextId
    ensures db.Valid()
    ensures var g := Guard(old(db.payments), env, req);
            g.Some? ==> resp == g.value && db.bills == old(db.bills) && db.coupons == old(db.coupons)
    ensures Guard(old(db.payments), env, req).None? ==>
              var p := PendingPayment(old(db.payments), req.paymentId.value).value;
              var action := req.action.value;
              && (action != "approve" && action != "reject" ==>
                    resp == Fail(400, INVALID_ACTION) && db.bills == old(db.bills) && db.coupons == old(db.coupons))
              && (action == "reject" ==>
                    && resp == Ok(CM.Approval(REJECTED, None)) && db.coupons == old(db.coupons)
                    && db.bills == (if p.billId.Some?
                                    then BillManager.UpdateStatusWhere(old(db.bills), p.billId.value, Unpaid, Some(0), None)
                                    else old(db.bills)))
              && (action == "approve" ==>
                    && resp.Ok? && resp.body.message == APPROVED
                    && db.bills == (if p.billId.Some?
                                    then BillManager.UpdateStatusWhere(old(db.bills), p.billId.value, Paid, Some(p.amount), Some(now))
                                    else old(db.bills))
                    && (p.billId.None? || p.kind != Electricity ==> resp.body.coupon.None? && db.coupons == old(db.coupons))
                    && (p.billId.Some? && p.kind == Electricity ==>
                          var d := CouponManager.IssueDecision(old(db.configs), old(db.coupons), parse,
                                                               p.tenantId, p.billId.value, p.amount);
                          && (d.None? ==> resp.body.coupon.None? && db.coupons == old(db.coupons))
                          && (d.Some? ==> resp.body.coupon == Some(CouponManager.IssuedCoupon(old(db.nextId), p.tenantId,
                                                                                               p.billId.value, code, d.value, now))
                                          && db.coupons == old(db.coupons) + [resp.body.coupon.value])))
  {
    var g := Guard(db.payments, env, req);
    if g.Some? {
      return g.value;
    }
    var p := PendingPayment(db.payments, req.paymentId.value).value;
    resp := Act(db, p, req.action.value, now, parse, code);
  }

  /** The action once the guards have passed: approve, reject, or 400 for anything else. */
  method Act(db: Db, p: Payment, action: string, now: Time, parse: string -> Option<seq<Rule>>, code: string)
    returns (resp: Response<CM.Approval>)
    requires db.Valid()
    requires forall c :: c in db.coupons ==> c.code != code
    modifies db`bills, db`coupons, db`nextId
    ensures db.Valid()
    ensures action != "approve" && action != "reject" ==>
              resp == Fail(400, INVALID_ACTION) && db.bills == old(db.bills) && db.coupons == old(db.coupons)
    ensures action == "reject" ==>
              && resp == Ok(CM.Approval(REJECTED, None)) && db.coupons == old(db.coupons)
              && db.bills == (if p.billId.Some?
                              then BillManager.UpdateStatusWhere(old(db.bills), p.billId.value, Unpaid, Some(0), None)
                              else old(db.bills))
    ensures action == "approve" ==>
              && resp.Ok? && resp.body.message == APPROVED
              && db.bills == (if p.billId.Some?
                              then BillManager.UpdateStatusWhere(old(db.bills), p.billId.value, Paid, Some(p.amount), Some(now))
                              else old(db.bills))
              && (p.billId.None? || p.kind != Electricity ==> resp.body.coupon.None? && db.coupons == old(db.coupons))
              && (p.billId.Some? && p.kind == Electricity ==>
                    var d := CouponManager.IssueDecision(old(db.configs), old(db.coupons), parse,
                                                         p.tenantId, p.billId.value, p.amount);
                    && (d.None? ==> resp.body.coupon.None? && db.coupons == old(db.coupons))
                    && (d.Some? ==> resp.body.coupon == Some(CouponManager.IssuedCoupon(old(db.nextId), p.tenantId,
                                                                                         p.billId.value, code, d.value, now))
                                    && db.coupons == old(db.coupons) + [resp.body.coupon.value]))
  {
    if action == "approve" {
      resp := Approve(db, p, now, parse, code);
    } else if action == "reject" {
      UnpayBill(db, p);
      resp := Ok(CM.Approval(REJECTED, None));
    } else {
      resp := Fail(400, INVALID_ACTION);
    }
  }

  /** The approve action: the bill step and the coupon step of the confirm handler; the payment is not written. */
  method Approve(db: Db, p: Payment, now: Time, parse: string -> Option<seq<Rule>>, code: string)
    returns (resp: Response<CM.Approval>)
    requires db.Valid()
    requires forall c :: c in db.coupons ==> c.code != code
    modifies db`bills, db`coupons, db`nextId
    ensures db.Valid()
    ensures resp.Ok? && resp.body.message == APPROVED
    ensures db.bills == (if p.billId.Some?
                         then BillManager.UpdateStatusWhere(old(db.bills), p.billId.value, Paid, Some(p.amount), Some(now))
                         else old(db.bills))
    ensures p.billId.None? || p.kind != Electricity ==> resp.body.coupon.None? && db.coupons == old(db.coupons)
    ensures p.billId.Some? && p.kind == Electricity ==>
              var d := CouponManager.IssueDecision(old(db.configs), old(db.coupons), parse, p.tenantId, p.billId.value, p.amount);
              && (d.None? ==> resp.body.coupon.None? && db.coupons == old(db.coupons))
              && (d.Some? ==> resp.body.coupon == Some(CouponManager.IssuedCoupon(old(db.nextId), p.tenantId,
                                                                                   p.billId.value, code, d.value, now))
                              && db.coupons == old(db.coupons) + [resp.body.coupon.value])
  {
    var coupon := CM.SettleConfirmed(db, p, now, parse, code);
    resp := Ok(CM.Approval(APPROVED, coupon));
  }

  /** The reject action's bill step: unpaid with nothing paid; the paid date is not written. */
  method UnpayBill(db: Db, p: Payment)
    requires db.Valid()
    modifies db`bills
    ensures db.Valid()
    ensures db.bills == if p.billId.Some? then BillManager.UpdateStatusWhere(old(db.bills), p.billId.value, Unpaid, Some(0), None)
                        else old(db.bills)
  {
    if p.billId.Some? {
      var _ := BillManager.UpdateBillStatus(db, p.billId.value, Unpaid, Some(0), None);
    }
  }

  /** `GET`: a present, allow-listed admin phone sees every pending payment, newest first. */
  function ListPending(db: Db, env: Option<string>, adminPhone: Option<string>): (r: Response<seq<Payment>>)
    reads db
    ensures r.Fail? <==> !Authorized(VerifyAllowList(env), adminPhone) || adminPhone == Some("")
    ensures r.Fail? ==> r == Fail(403, CM.NO_PERMISSION)
    ensures r.Ok? ==> forall p :: p in r.body <==> p in db.payments && p.status == PaymentPending
  {
    if adminPhone.None? || adminPhone.value == "" || !Authorized(VerifyAllowList(env), adminPhone) then Fail(403, CM.NO_PERMISSION)
    else Ok(PaymentManager.GetPayments(db, None, None, None, Some(PaymentPending)))
  }
}

=== FILE: wrappers.dfy ===
/** The optional value used for nullable columns, absent request fields and `null` results. */
module Wrappers {

  datatype Option<+T> = None | Some(value: T)
  {
    /** The value, or `default` when absent (the `x || default` idiom of the source). */
    function GetOr(default: T): T
    {
      match this
      case Some(v) => v
      case None => default
    }
  }
}
